=== FILE: README.md ===
# AutoClicker, modelled in Dafny

This project models the core of AutoClicker, a desktop tool for automating mouse and keyboard
input. The tool records clicks and key presses with their timestamps. It replays them, optionally
in loops, with a pause between loops and a speed factor. It can also spam left clicks. Four global
hotkeys drive it: record, play, stop and spam. Recordings are saved to and loaded from JSON files,
together with the playback settings and the hotkeys.

The model is functional. Each stateful object becomes an immutable datatype, and each method becomes
a function from the old state to the new state plus the status lines it shows (`Notice`). The
physical effects of playback are kept as an action log (`Injection.Action`): moves, presses,
releases, clicks, sleeps, countdown ticks and the final release of everything held.

Modules, one per source file:

- `Keys` and `Injection`: the input-library vocabulary the core relies on. A raw key is a bare
  key code, a `Key` member, a character key or some other object. The module also has the `Key`
  member names, `str(key)`, key equality and mouse buttons. Injection covers what the
  keyboard and mouse controllers are told, and a reference fold `Held` that computes what is
  held down after a log.
- `KeyUtils` (`utils/key_utils.py`): the keypad keysym table, key classification (`KeyInfo`),
  `keys_match`, `parse_key_name` and `get_display_name`.
- `Events` (`models/event.py`): the event records, their dictionary form, the recording session and
  the playback settings.
- `Recorder` (`models/recorder.py`) and `EventRecorder` (`models/event_recorder.py`): the current
  recorder, and the older one that records and plays back in a single class.
- `Playback`: the playback worker shared by `models/player.py` (flavour `Modern`, countdown between
  loops) and `models/event_recorder.py` (flavour `Legacy`, a plain sleep). `PlayerKeys` holds the
  player's key parsing and key labels. `Player` holds `start` and `stop`.
- `HotkeyManager` (`models/hotkey_manager.py`), `SpamClicker` (`models/spam_clicker.py`) and
  `FileManager` (`utils/file_manager.py`).
- `AppController` (`core/app_controller.py`): the guards that keep recording, playback and spam
  clicking apart, the hotkey wiring, and save and load. A command-driven `Run` proves that at most
  one activity is ever running.

Threads are modelled by their observable interleavings. A `stop` that arrives while the worker
runs is a `StopPoint`: `StopAfter(n)` means the worker's `n`-th read of the playing flag is the
first to see it cleared. A controller that refuses an injected input is a `Capability`: the buttons
and keys whose injection raises.

## Model

| member | source | states |
|---|---|---|
| KeyUtils.NumpadTableRows | utils/key_utils.py:19-36 | The keypad table has exactly sixteen rows, and no keysym is listed twice. |
| KeyUtils.NumpadNameOfKeysym | utils/key_utils.py:38-39 | The reverse map sends each row's key name back to that row's keysym. |
| KeyUtils.NumpadKeysymOfName | utils/key_utils.py:38-39 | Every name the reverse map knows is the name of the row it points at. |
| KeyUtils.NumpadNamesDistinct | utils/key_utils.py:19-36 | Two keypad rows with the same key name are the same row, so the reverse map loses nothing. |
| KeyUtils.AnalyzeKey | utils/key_utils.py:60-160 | Classifies a key by what it is. A keysym in the keypad table becomes that keypad key, with the table's name and label. Any other keysym becomes ("keysym", n), named by its printed form and labelled "KEY n". A `Key` member becomes a special key, named and labelled by its upper-cased name. A character without a virtual-key code that the keypad test accepts gets exactly the keypad reading. Every other character is folded to lower case and labelled in upper case, and any other key is unknown under its text. The result is keypad exactly for the two keypad identities. |
| KeyUtils.KeypadCharInfo | utils/key_utils.py:103-146 | A character typed without a virtual-key code is read as a keypad character exactly when it is a substring of "0123456789", of "+" or of ".,", or is one of `- * /`. A digit run keeps its text, named "num_" and the digits. Each operator is its own identity. ".", "," and ".," all become the one keypad decimal, named "num_decimal" and labelled with the typed text. |
| KeyUtils.KeysMatchByKind | utils/key_utils.py:162-211 | `keys_match` by kind of key: bare key codes match exactly when the codes are equal, and `Key` members exactly when they are the same member. Main-keyboard characters match exactly when their lower-cased texts are equal, and a member never matches a character. |
| KeyUtils.DecimalSeparatorsMatch | utils/key_utils.py:140-146 | The keypad decimal typed as "." matches the one typed as ",", and does not match the main-keyboard full stop. |
| KeyUtils.CharKeysMatchAcrossCase | utils/key_utils.py:148-154 | A main-keyboard character matches its upper- and lower-case forms. |
| KeyUtils.NumpadDigitIsNotMainDigit | utils/key_utils.py:103-111 | A keypad digit (no virtual-key code) never matches the same digit on the main keyboard. |
| KeyUtils.KeypadKeysymIsNotKeypadChar | utils/key_utils.py:65-86 | A keypad keysym never matches a keypad character, even the one it types. |
| KeyUtils.AnalyzedLabelIsIdentityLabel | utils/key_utils.py:285-321 | The label the classifier stores equals `get_display_name` of the identity it computed, except for a keypad "," or ".," typed without a code (labelled "NUM ." but identified by the text). |
| KeyUtils.AnalyzedNumpadNameIsTableName | utils/key_utils.py:96-146 | A keypad key's stored name is a name of the keysym table, whenever it was typed as one character. |
| KeyUtils.ParseDisplayName | utils/key_utils.py:214-282 | `parse_key_name(get_display_name(id)) == id` for special keys, letters and digits, keypad characters and the keypad enter keysym. |
| KeyUtils.ParseKeypadLabelCollapses | utils/key_utils.py:239-257 | Every other keypad keysym's label parses back as a keypad character, not as the keysym: the round trip loses the keysym. |
| KeyUtils.ParseNumpadName | utils/key_utils.py:231-237 | Every keypad key name parses to the keysym it names. |
| KeyUtils.ParseFoldsQuotesAndCase | utils/key_utils.py:226-278 | Quotes and letter case do not matter to `parse_key_name`: "'R'", "R" and "r" all name the character "r". |
| Keys.FindUpper | models/player.py:285-288 | The member lookup finds a `Key` member whose upper-cased name equals the text, and it finds none exactly when no member has that name. |
| Keys.LookupUpperOfKeyName | utils/key_utils.py:266-272 | Looking up an upper-cased member name gives that member back. |
| Keys.NoSingleCharKeyName | utils/key_utils.py:274-278 | No single-character text selects a `Key` member, so single characters always fall through to the character branch. |
| Injection.NothingHeldMeansEveryPressReleased | models/player.py:322-336 | When the reference fold says nothing is held after a log, every press in that log has a later release of the same input. |
| Injection.ResolveButton | models/player.py:214-226 | The button string always resolves to one of the three buttons: left, right or middle. |
| Injection.ResolveButtonFirstMatch | models/player.py:214-226 | The first of "left", "right", "middle" found in the lower-cased button string decides the button: left whenever "left" occurs, right exactly when "right" occurs without "left", middle exactly when "middle" occurs without either, and left when none occurs. |
| Injection.ResolveButtonOfStr | models/player.py:214-226 | The string of each of the three buttons resolves back to that button. |
| Injection.KeyMember | models/player.py:285-288 | `getattr(Key, name)` succeeds exactly for the member names and returns that member. |
| PlayerKeys.ParseKey | models/player.py:268-291 | A keypad name is typed as its character, and "num_enter" is replayed as the enter member. "Key.<attr>" gives that member when `Key` has one, and nothing when it has none. Any other name is typed unchanged as text. A named key that is produced is a real member. |
| PlayerKeys.DisplayName | models/player.py:293-320 | Keypad names get their keypad label. Any other name without the "Key." prefix is shown as it is. |
| PlayerKeys.NumpadLabelsAgree | models/player.py:295-305 | The player's keypad labels agree with the classifier's table on every row. |
| PlayerKeys.NumpadNameReplaysAsSameKeypadKey | models/player.py:271-280 | A recorded keypad name other than enter is replayed as a character. When that character is observed again without a code, it is classified under the same keypad name. |
| PlayerKeys.NumpadEnterReplaysAsEnter | models/player.py:282-283 | The keypad enter key is replayed as the main enter member. |
| PlayerKeys.MemberStringReplaysAsMember | models/player.py:285-288 | A "Key.<member>" name is replayed as that very member. |
| PlayerKeys.MemberStringLabel | models/player.py:307-318 | The label for "Key.<member>" is the short label when there is one, and otherwise the classifier's upper-cased name. |
| PlayerKeys.ClassifierNameReplaysAsText | models/player.py:290-291 | A special key stored under its upper-cased classifier name (as the current recorder stores it) is parsed as that name as a plain string, not as the member. The keyboard is then handed a multi-character string. |
| Events.MouseToDict | models/event.py:24-33 | A click's dictionary has exactly the six fields, with type "mouse_click". |
| Events.MouseFromDict | models/event.py:35-44 | Reading a click succeeds exactly when the dictionary holds its five data fields. The type is not checked. |
| Events.MouseRoundTrip | models/event.py:24-44 | Reading back a written click gives the same click. |
| Events.MouseDictRoundTrip | models/event.py:24-44 | Writing a read click gives back the dictionary it came from, when that dictionary held exactly a click's fields. |
| Events.KeyToDict | models/event.py:54-61 | A key event's dictionary has exactly type, key and timestamp. The type is "key_press" exactly for a press, and "key_release" otherwise. |
| Events.KeyFromDict | models/event.py:63-71 | Reading succeeds exactly when the three fields are present. The event is a press exactly when the type is "key_press". |
| Events.KeyRoundTrip | models/event.py:54-71 | Reading back a written key event gives the same event. |
| Events.KeyDictRoundTrip | models/event.py:54-71 | A dictionary of either key type comes back unchanged. A dictionary of any other type is read as a release. |
| Events.AddAllInOrder | models/event.py:79-81 | Adding events one by one appends them in order and keeps the earlier ones. |
| Events.LengthCountsAdds | models/event.py:79-88 | The size grows by one per added event, and clearing brings it to zero. |
| Events.DefaultIsOnePassAtNormalSpeed | models/event.py:94-104 | The default settings play one pass, with no pause, at speed 1, and are not the infinite setting. |
| Recorder.Start | models/recorder.py:49-79 | Starting is refused silently while already recording. Otherwise the event list is emptied and the clock restarts at the current time. |
| Recorder.Stop | models/recorder.py:81-102 | Stopping always leaves the recorder idle and reports how many events it holds. |
| Recorder.StopTwice | models/recorder.py:81-102 | A second stop changes nothing and reports the same count. |
| Recorder.StartThenStop | models/recorder.py:49-102 | A recording that is started and stopped at once holds no events. |
| Recorder.SetIgnoredKeys | models/recorder.py:45-47 | The ignore list is replaced, and the recording flag, the events and the start time are kept. |
| Recorder.Clear | models/recorder.py:104-108 | The event count drops to zero with the green "Recording cleared!", and a recording in progress keeps running. |
| Recorder.SetEvents | models/recorder.py:114-116 | The loaded list becomes the event list and the count is its length, whatever the recorder is doing. |
| Recorder.EventCount | models/recorder.py:118-121 | The count is the number of events held. |
| Recorder.SettersAgreeWithCount | models/recorder.py:104-121 | Stopping after a load reports the loaded length. Clearing after a load equals clearing. A new ignore list keeps the count and decides whether a later key is counted. |
| Recorder.IsIgnoredKey | models/recorder.py:127-136 | A key is ignored exactly when some ignore-list entry covers it: an analysed entry by `keys_match`, a raw entry by key equality. |
| Recorder.OnClick | models/recorder.py:138-162 | While recording, a click is appended as a full click dictionary, stamped with the time since the start, and nothing else changes. While idle, nothing changes. |
| Recorder.OnKey | models/recorder.py:168-213 | While recording, a key that is not ignored is appended under its classifier name, as a press or a release. An ignored key, or any key while idle, changes nothing. |
| Recorder.CountTracksInput | models/recorder.py:118-213 | The count that stop reports grows by one for each click, and for each key that is not ignored, seen while recording. |
| Recorder.RawHotkeyNeverRecorded | models/recorder.py:127-136 | A hotkey on the ignore list is never recorded, pressed or released. |
| Recorder.AnalysedHotkeyIgnoresEitherCase | models/recorder.py:127-136 | An analysed hotkey entry also ignores the key's other letter case. |
| Recorder.CharRecordedLowerCase | models/recorder.py:168-191 | A main-keyboard character is recorded in lower case, whatever the shift state. |
| Recorder.RecordedClickReplays | models/recorder.py:138-152 | A recorded click replays as a move to the same position, then a press or release of the same button. |
| Recorder.RecordedSpecialKeyReplaysAsText | models/recorder.py:168-191 | A `Key` member is recorded under its upper-cased name. The player parses that name as a plain string, not as the member. |
| Recorder.RecordedSpecialKeyIsSkipped | models/player.py:240-254 | The recorded name of a member has at least two characters. A keyboard that refuses that string, as a keyboard that types only single characters does, makes the player report the press and skip it: replaying it injects nothing and playback goes on. |
| EventRecorder.SetIgnoredKeys | models/event_recorder.py:55-57 | The ignore list is replaced, and the recording and playing flags, the events, the start time, the pressed set and the settings are kept. |
| EventRecorder.StartRecording | models/event_recorder.py:59-87 | Refused, with "Cannot record while playing!", while playing. Otherwise the list is emptied and the clock restarts. Recording and playing stay exclusive. |
| EventRecorder.StopRecording | models/event_recorder.py:89-101 | Stopping always clears the flag and reports the number of events held. |
| EventRecorder.OnClick | models/event_recorder.py:103-122 | While recording, a click is appended as a full click dictionary with its relative time. While idle, nothing changes. |
| EventRecorder.KeyField | models/event_recorder.py:128-153 | The stored key is the character of a character key, `None` for a bare key code, and the printed form of any other key. |
| EventRecorder.OnKey | models/event_recorder.py:128-180 | While recording, a key not on the ignore list is appended with its stored key field. An ignored key, or any key while idle, changes nothing. |
| EventRecorder.StartPlayback | models/event_recorder.py:182-212 | Playback is admitted exactly when not recording, holding events and not already playing. The refusals are checked in that order, the last one silent. Exclusivity is kept. |
| EventRecorder.StopPlayback | models/event_recorder.py:342-371 | Stops only while playing. It releases everything held in one sweep and shows "Playback stopped!". |
| EventRecorder.ClearRecording | models/event_recorder.py:373-377 | Clearing empties the list and nothing else. |
| EventRecorder.SetEvents | models/event_recorder.py:383-385 | The list is replaced as given, whatever the recorder is doing. |
| EventRecorder.PlaybackSession | models/event_recorder.py:214-273 | An admitted run of the legacy worker ends with nothing held and completion signalled once. Unless it failed, it injects exactly the reference actions of the events it played. Undisturbed on playable events, it plays every event of every pass, injects the recording's actions once per pass, and sleeps the reference schedule, with one plain sleep for each loop delay. |
| EventRecorder.IdleRecordsNothing | models/event_recorder.py:103-180 | Nothing is recorded while not recording. |
| EventRecorder.IgnoredKeyNeverRecorded | models/event_recorder.py:128-180 | A key on the ignore list is never recorded. |
| EventRecorder.StartThenStopRecordsNothing | models/event_recorder.py:59-101 | Starting and at once stopping reports zero events. |
| EventRecorder.RecordedClickReplays | models/event_recorder.py:275-300 | A recorded click replays as a move to the same spot, then the same button going the same way. |
| EventRecorder.RecordedMemberKeyReplays | models/event_recorder.py:302-320 | A recorded "Key.<member>" is injected again as that member. |
| EventRecorder.RecordedCharKeyReplays | models/event_recorder.py:302-320 | A recorded character is typed again as that character. |
| EventRecorder.RecordedKeysymIsSkipped | models/event_recorder.py:128-153 | A bare key code is stored as `None`, which the replay skips. |
| Playback.ScaledWait | models/player.py:155-160 | The pause before an event is positive. At a speed that is not positive, it is the unscaled gap. |
| Playback.PlayEvent | models/player.py:150-163 | One event either raises (exactly for the malformed or refused events) or waits for its gap and is injected, keeping the held-input bookkeeping exact. |
| Playback.PlayEventLog | models/player.py:150-163 | An event that does not raise appends its scaled pause, when its gap is positive, and then exactly its reference actions (`EventActions`), and nothing else. |
| Playback.WaitGap | models/player.py:156-159 | Before an event the worker sleeps the scaled gap when it is positive, and nothing otherwise. No event, pass or stop is consumed. |
| Playback.Execute | models/player.py:190-199 | Dispatch on the event type. It raises exactly when the mouse or key handler does. When it does not raise, it appends exactly the event's reference actions: a click's move and then its button going down or up, a key going down or up unless it is missing or refused, and nothing for an unknown type. It never sleeps. |
| Playback.ReplayMouse | models/player.py:205-238 | Raises exactly for missing fields, a non-string button or a refused button. Otherwise it moves the pointer, then presses or releases the resolved button and tracks it. |
| Playback.MoveThenButton | models/player.py:212-238 | The pointer moves first. It raises after the move exactly when the button is not a string or the controller refuses the resolved button. Otherwise the button is pressed or released and nothing is slept. |
| Playback.PressOrRelease | models/player.py:232-238 | A refused button raises. Otherwise the button goes down or up and is tracked as held or not. |
| Playback.LegacyKey | models/event_recorder.py:302-320 | The legacy worker injects the member for "Key.<member>" and the string itself otherwise. |
| Playback.ReplayKeyPress | models/player.py:240-254 | A missing key raises, as does a non-string key in the player. A refused key is reported and skipped. Otherwise the key is pressed and tracked. |
| Playback.ReplayKeyRelease | models/player.py:256-266 | Only a missing key raises. Otherwise the key is released and no longer tracked. |
| Playback.CountdownWait | models/player.py:177-188 | Undisturbed, the countdown shows every remaining time, sleeping `min(0.1, remaining)` each time, and then shows zero. When stopped, it never shows zero. |
| Playback.RemaindersShape | models/player.py:177-188 | The remaining times shown are positive and strictly decreasing, start at the whole delay, fall by one step each tick, and their sleeps add up to the delay. |
| Playback.EventWaitsSpan | models/player.py:150-160 | At a positive speed, the pauses of a pass add up to the recording's span divided by the speed. |
| Playback.LoopDelay | models/player.py:138-139 | Between passes the worker sleeps the delay: the countdown's steps in the player, and one plain sleep in the legacy worker. |
| Playback.PassesCompleteRepeat | models/player.py:128-163 | At the top of the outer loop, the events played are the recording repeated once per pass begun. |
| Playback.PlayEvents | models/player.py:150-163 | The inner loop plays events in order from the current position. It ends early only on a stop or an error, and undisturbed on playable events it reaches the end. |
| Playback.StopNow | models/player.py:101-105 | A flag read that sees the stop ends the run with one bulk release of exactly what is held. Nothing stays held and no input is injected. |
| Playback.PlayEventsFaithful | models/player.py:150-163 | Unless an event raises, the inner loop keeps the injected input equal to the reference actions of the events it completes, in order. |
| Playback.PlayEventsSleeps | models/player.py:150-160 | The inner loop's sleeps are exactly one scaled pause per event with a positive gap, in order. |
| Playback.Pass | models/player.py:128-163 | One pass adds one to the pass count and keeps the delay count consistent. Undisturbed on playable events, it plays the whole recording. |
| Playback.BeginPass | models/player.py:137-141 | Before every pass but the first, with a positive delay, the pause is taken and counted, and the pass is then counted. A stop seen during the pause ends the run. Undisturbed, the pass begins at the first event, and the only sleeps added are the pause. |
| Playback.PassFaithful | models/player.py:128-163 | Unless an event raises, a pass keeps the injected input equal to the reference actions of the events completed so far. The countdown between passes injects nothing. |
| Playback.Loop | models/player.py:128-163 | The outer loop ends by a stop, an error or the pass limit. Undisturbed on playable events, it ends by the limit. |
| Playback.PassThenLoop | models/player.py:129-163 | A flag read that lets a pass start is followed by at least one more counted pass. The run then ends by a stop, an error or the pass limit, and undisturbed on playable events it ends by the limit. |
| Playback.LoopFaithful | models/player.py:128-163 | Unless an event raises, the outer loop ends with the injected input equal to the reference actions of every event completed, in order. |
| Playback.PassThenLoopFaithful | models/player.py:129-163 | The same for the loop from a flag read that lets a pass start. |
| Playback.LoopSleeps | models/player.py:128-163 | An outer loop that runs to its pass limit sleeps exactly the reference schedule of the passes still to come: before each pass but the first, the loop delay, then one scaled pause per event with a positive gap. |
| Playback.PassThenLoopSleeps | models/player.py:129-163 | The same for the loop from a flag read that lets a pass start, counting the pass it starts. |
| Playback.ActionsOfRepeat | models/player.py:128-163 | The reference actions of the recording replayed `n` times are the recording's actions `n` times over. |
| Playback.EpilogueCleansUp | models/player.py:165-175 | The `except` and `finally` blocks report an error when one was raised, release exactly what is held, and signal completion once. |
| Playback.EpilogueQuiet | models/player.py:165-175 | The error report, the bulk release and the completion signal inject no input and do not sleep. |
| Playback.Play | models/player.py:116-175 | A run ends with nothing held, and every bulk release releases exactly what was held. Completion is the last action and appears once, and the run failed exactly when an error was reported. The events played are whole passes plus a prefix. Unless the run failed, the injected input is exactly the reference actions of the events played, in order. Undisturbed and error-free, the events played are the recording repeated loop-count times, the injected input is the recording's actions repeated as often, and the sleeps are the reference schedule. |
| Player.Start | models/player.py:51-93 | Admitted exactly with events and while idle. Without events it shows "No events to play!" in red. While playing it is refused silently. |
| Player.Stop | models/player.py:95-110 | Stops only while playing. One bulk release then frees everything held, and nothing stays tracked. |
| Player.StartThenStop | models/player.py:51-110 | A started player that is stopped is back in the initial state. |
| Player.StopIsIdempotent | models/player.py:95-110 | A second stop finds the player idle and does nothing. |
| Player.PlaySession | models/player.py:51-175 | An admitted run leaves nothing held, releases every press it made, and signals completion once. Unless it failed, it injects exactly the reference actions of the events it played. Undisturbed on playable events, it plays every pass in full, injects the recording's actions once per pass, and sleeps the reference schedule. |
| HotkeyManager.SlotOfName | models/hotkey_manager.py:77-97 | A slot name selects exactly the slot of that name, and an unknown name selects none. |
| HotkeyManager.Bind | models/hotkey_manager.py:77-97 | Rebinding one slot leaves the other three alone. |
| HotkeyManager.KeyName | models/hotkey_manager.py:46-50 | A member is named by its upper-cased name. A character key keeps its quotes. |
| HotkeyManager.ParseKeyName | models/hotkey_manager.py:52-68 | A name gives the member whose upper-cased name matches it. Failing that, it gives a key code for the lower-cased text, and only when no member matches. |
| HotkeyManager.NamedKeyRoundTrip | models/hotkey_manager.py:46-68 | Every member key survives being named and parsed back, in either letter case. |
| HotkeyManager.StartCapture | models/hotkey_manager.py:70-75 | Capture mode is entered for the given slot name, with the blue prompt. |
| HotkeyManager.SetHotkey | models/hotkey_manager.py:77-97 | A known slot is rebound and the others are unchanged. Capture mode always ends, and the captured key is reported. |
| HotkeyManager.FirstMatch | models/hotkey_manager.py:112-124 | The slot found equals the key, and no earlier slot in the order record, play, stop, spam does. None is found exactly when no binding equals the key. |
| HotkeyManager.OnPress | models/hotkey_manager.py:105-126 | In capture mode the press becomes the slot's binding and fires nothing. Otherwise the bindings are unchanged and the first matching slot fires. |
| HotkeyManager.DefaultDispatch | models/hotkey_manager.py:9-14 | With the defaults, F1 records, F2 plays, ESC stops, F3 spams, and an ordinary letter fires nothing. |
| HotkeyManager.SharedBindingFiresFirst | models/hotkey_manager.py:112-124 | A key bound to two slots fires only the earlier one. |
| HotkeyManager.CaptureIsCaseSensitive | models/hotkey_manager.py:112-124 | A slot captured as 'R' does not fire for 'r'. |
| HotkeyManager.GetHotkeys | models/hotkey_manager.py:136-143 | The saved dict has exactly the four slot names, each with its binding's name. |
| HotkeyManager.GetIgnoredKeys | models/hotkey_manager.py:159-161 | The ignore list is the four bindings in slot order. |
| HotkeyManager.SetSlot | models/hotkey_manager.py:145-157 | One slot is rebound when the dict names it with a string. Reading a slot of the wrong kind raises and changes nothing. |
| HotkeyManager.SetHotkeys | models/hotkey_manager.py:145-157 | Loading raises exactly when some slot's value is of the wrong kind. Otherwise each named slot is rebound to its parsed name and each other slot keeps its binding. |
| HotkeyManager.SetHotkeysStopsAtBadValue | models/hotkey_manager.py:145-157 | For any dict, when slot k (in the order record, play, stop, spam) is the first whose value cannot be read, loading raises. The slots before it are rebound as the dict names them, and slot k and the later slots keep their old bindings. |
| HotkeyManager.NamedBindingsSurviveReload | models/hotkey_manager.py:136-157 | Member-key bindings come back unchanged from a save and reload. |
| HotkeyManager.CharBindingLostOnReload | models/hotkey_manager.py:46-50 | A character hotkey is saved as "'A'" and reloads as a key code for the text "'a'", which no key press equals. |
| HotkeyManager.DisplayKeyName | models/hotkey_manager.py:46-50 | The corrected name: a character key shows its character upper-cased, without quotes, and any other key is named as before. |
| HotkeyManager.BindingsSurviveReloadCorrected | models/hotkey_manager.py:136-157 | With the corrected names, member keys and single lower-case letters and digits all come back from a save and reload. |
| HotkeyManager.ReloadedFiresLikeOriginal | models/hotkey_manager.py:112-124 | A binding reloaded with the corrected name fires for exactly the character presses the original did. |
| SpamClicker.Start | models/spam_clicker.py:24-38 | Refused without change while active. Otherwise the flag is set, with a red notice. |
| SpamClicker.Stop | models/spam_clicker.py:50-57 | Clears the flag only while active, with a green notice. While idle it is refused without change. |
| SpamClicker.StartThenStop | models/spam_clicker.py:24-61 | Starting and stopping returns to the idle state. A second stop does nothing. |
| SpamClicker.Worker | models/spam_clicker.py:40-48 | Each pass issues one left click and a 10 ms pause. A refused click raises on the first pass, before anything is issued. |
| SpamClicker.WorkerHoldsNothing | models/spam_clicker.py:43-45 | The worker only issues whole clicks, so it never leaves a button held. |
| SpamClicker.WorkerSleeps | models/spam_clicker.py:43-45 | The worker's sleep schedule is one click interval per pass. |
| SpamClicker.SpamSession | models/spam_clicker.py:24-48 | A started session keeps the flag set, even after a click error, which is reported in red. |
| FileManager.Save | utils/file_manager.py:12-56 | Saving is refused exactly when there are no events. Otherwise non-empty settings are written beside the events and empty ones write the bare list. |
| FileManager.EventsPart | utils/file_manager.py:80-88 | The events are the "events" entry of a dict that has one, and the whole value otherwise. |
| FileManager.ConfigPart | utils/file_manager.py:80-88 | The settings are the "config" entry of the current layout, and `{}` otherwise. |
| FileManager.FirstProblem | utils/file_manager.py:94-99 | There is no problem exactly when every event is a dict with a type and a timestamp. Otherwise the report is the first bad event's problem. |
| FileManager.Load | utils/file_manager.py:58-110 | Loading succeeds exactly when the events part is a list of well-formed events, and returns them with the settings. A non-list gives the format error. |
| FileManager.SaveThenLoad | utils/file_manager.py:12-110 | Loading what was saved gives back the events, and the settings when they were non-empty. |
| FileManager.OneBadEventFailsLoad | utils/file_manager.py:94-99 | One bad event anywhere fails the whole load, in either layout. |
| FileManager.BareListLoadsWithEmptyConfig | utils/file_manager.py:80-88 | A legacy bare list loads with the empty settings. |
| AppController.AsIgnored | core/app_controller.py:121-122 | The recorder is told to ignore exactly the four bindings, compared as raw keys. |
| AppController.StartRecording | core/app_controller.py:111-140 | Refused while spam clicking, then while playing. Otherwise the recorder ignores the hotkeys and starts. Exclusivity is kept. |
| AppController.StopRecording | core/app_controller.py:142-150 | The recorder stops and reports its count, keeping its events. Nothing else changes. |
| AppController.StartPlayback | core/app_controller.py:163-198 | Refused while spam clicking, then while recording, then without events. Otherwise the player is asked to start. Exclusivity is kept. |
| AppController.StopPlayback | core/app_controller.py:200-208 | The player stops when playing and releases what it holds. Otherwise nothing happens. |
| AppController.PlaybackEnded | core/app_controller.py:422-433 | When the worker finishes, the player is idle with nothing held, and nothing else changes. |
| AppController.StartSpam | core/app_controller.py:221-239 | Refused while recording, then while playing. Otherwise spam clicking starts. Exclusivity is kept. |
| AppController.StopSpam | core/app_controller.py:241-245 | Spam clicking stops and nothing else changes. |
| AppController.ToggleRecording | core/app_controller.py:104-109 | Stops a running recording, and starts one otherwise. |
| AppController.TogglePlayback | core/app_controller.py:156-161 | Stops a running playback, and starts one otherwise. |
| AppController.ToggleSpam | core/app_controller.py:214-219 | Stops spam clicking when active, and starts it otherwise. |
| AppController.ForceStop | core/app_controller.py:251-258 | Stops only the first running activity, in the order recording, playback, spam clicking. |
| AppController.ForceStopStopsEverything | core/app_controller.py:251-258 | With the activities exclusive, a forced stop leaves nothing running. |
| AppController.ClearRecording | core/app_controller.py:260-264 | Clearing empties the recorder's events and changes nothing else. |
| AppController.SavedConfig | core/app_controller.py:276-282 | The saved settings hold loops, delay, speed and the hotkeys by name, and are never empty. |
| AppController.SaveRecording | core/app_controller.py:266-288 | Refused while recording or playing. Otherwise the events are written with the settings and hotkeys, and an empty recording is reported in red. |
| AppController.LoadRecording | core/app_controller.py:290-333 | Refused while recording or playing. A load with events replaces the recording. With a settings panel present, non-empty settings that are not a dict and that hold "loops", "delay" or "speed" (or that Python cannot search) raise in the panel, with the events replaced, the bindings and ignore list kept, and nothing shown. Otherwise, when the settings name "hotkeys" and rebinding does not raise, the hotkeys become what `set_hotkeys` makes of that entry, and the recorder's ignore list is refreshed from them. Without a "hotkeys" entry the bindings are kept. An exception while rebinding escapes with the events already replaced and nothing shown. |
| AppController.ApplyLoadedConfig | core/app_controller.py:309-331 | Empty settings keep the bindings and show the load message. With a settings panel present, non-empty settings that are not a dict raise in the panel's `set_config` (ui/widgets/settings_widget.py:125-132) unless none of "loops", "delay", "speed" is in them; they raise with the bindings kept and nothing shown. Past the panel, settings that name no "hotkeys" keep the bindings and show the load message, a "hotkeys" entry in a dict rebinds, and any other non-empty value that holds "hotkeys", or that Python cannot search, raises with the bindings kept and nothing shown. Events, player, spam clicker and recording are untouched. |
| AppController.RebindLoaded | core/app_controller.py:313-329 | The bindings become what `set_hotkeys` makes of the entry. When that does not raise, the ignore list is refreshed from the new bindings and the load message is shown; when it raises, nothing is shown. |
| AppController.SaveThenLoadRestoresRecording | core/app_controller.py:266-333 | Saving and loading into an idle controller restores the events and any member-key hotkeys. |
| AppController.Fire | core/app_controller.py:86-94 | Each hotkey slot fires its toggle: record, play, force stop, spam. |
| AppController.KeyPress | core/app_controller.py:435-452 | The recorder's listener sees the press first. In capture mode the bindings become what the hotkey manager's capture makes of the press, and the recorder's ignore list is refreshed from them whether or not it is recording. Outside capture mode, a press matching a hotkey runs the action of the first matching slot. A press matching none changes nothing beyond the recorder. |
| AppController.StepKeepsInv | core/app_controller.py:104-264 | Every command keeps the invariant: at most one activity, and while recording the recorder ignores exactly the current hotkeys. |
| AppController.AtMostOneActivity | core/app_controller.py:113-229 | From a fresh start, whatever commands arrive, recording, playback and spam clicking never run together. |
| AppController.RecordHotkeyStopsRecordingUnrecorded | core/app_controller.py:111-150 | Pressing the record hotkey while recording stops the recording without adding the press to it. |
| AppController.EscapeStopsPlayback | core/app_controller.py:251-258 | With the default bindings, ESC during playback stops the player and leaves nothing held. |

## Left out

- The Tk interface: windows, banners, titles, buttons, the settings panel, the event list view, and `format_events_for_display`. Settings reach the controller as a parameter (`AppController.Settings`). Whether a settings panel is present is a parameter of a load. Of the panel's `set_config`, only the exception it raises on settings that are not a dict is modelled; the values it stores in the panel are not.
- Threads and timing: `stop` racing the playback worker is a `StopPoint` (the flag read that first sees it cleared). Wall-clock time is an input (`now`), and sleeps are log entries.
- Playback.Play: its cleanup guarantees assume that a stop takes effect at a flag read, as if `stop` and the worker's steps never interleave. In the program they can. The worker reads the flag (models/player.py:152), then sleeps (156-159) and injects the event (163), so a stop during the sleep still lets one event through after the release. And `_release_all_pressed` copies the held keys (331) and later empties the set (336), while the worker may press and add a key in between (248-249); that key stays held. The legacy worker has the same race: `stop_playback` (models/event_recorder.py:342-352) releases through `_release_all_pressed` (355-371) while the worker may still add a key (313, 318). `Player.PlaySession` and `EventRecorder.PlaybackSession` inherit the assumption.
- The input library's internals: listeners, controllers and key objects. Key equality (`Keys.RawEq`) and `str(key)` (`Keys.Str`) follow the library's documented behaviour. Python's escaping inside `repr` is not modelled.
- Aliases of `Key` members (e.g. `alt_l` for `alt`), and keys the platform adds beyond the sixty listed members.
- Letter case is mapped for ASCII letters only.
- JSON text encoding and decoding, the file dialogs (including cancel), and read/write errors. A file's content is the JSON value it holds.
- Live log lines, debug output, per-loop progress lines, "Playback completed!" and message-box texts beyond the warning strings. Number formatting with `:.2f` is not modelled.
- The unreachable fallback to F1 in the hotkey manager's `parse_key_name`: building a key code from a string does not fail.
- `capture_hotkey`'s widget updates, and restarting listeners in `cleanup`/`setup_listener`.
- The pointer move never raises.
- Which strings the keyboard controller refuses is a parameter (`Capability.refusedKeys`), not fixed to the library's rule that a string key must be one character long. `Recorder.RecordedSpecialKeyIsSkipped` states the consequence for a controller that refuses a recorded special key's name.
- Playback.Play: requires a run that ends (a pass limit or a stop), because a run with loop count 0 and no stop goes on forever.
- Player.PlaySession: requires a run that ends, as `Playback.Play` does.
- EventRecorder.PlaybackSession: requires a run that ends, as `Playback.Play` does.
- Playback.PlayEvent: its contract states the status, the pause and the sleeps. The exact actions it appends are stated, for every input it accepts, by `Playback.PlayEventLog`, kept apart from the function so that the loop proofs that call it stay small.
- SpamClicker.SpamSession: the error line is a fixed text ("Error: click refused"), not the exception's message.
- AppController.KeyPress: fixes the listener order (the recorder's listener sees the press before the hotkey listener). The library does not promise an order.

## Code versus description

Where the written description of the application and its code differ, the model follows the code:

- Hotkeys are compared with the input library's key equality, which is case-sensitive. They are not compared through `keys_match`.
- A playback speed of zero or below waits the unscaled gap.
- A negative loop count loops forever, like 0. `is_infinite` is true only for 0.
- The current recorder stores special keys under their upper-cased classifier names. The player hands such a name to the keyboard as a string, which a keyboard that types single characters refuses, so the press is reported and skipped.
- Keysym, unknown and (except enter) keypad labels do not parse back to the same identity.

## Findings

| source | as written | input that shows it | evidently intended | confidence | as-written member | corrected member |
|---|---|---|---|---|---|---|
| models/hotkey_manager.py:46-50 | `get_key_name` keeps the quotes of a character key's printed form, so the key 'a' is saved as "'A'", and `parse_key_name` loads that as a key code for the three-character text "'a'" | a hotkey bound to the character key `a`, saved and loaded | the binding survives save and reload and still fires for `a` | medium, not executed | HotkeyManager.CharBindingLostOnReload | HotkeyManager.BindingsSurviveReloadCorrected |

=== FILE: app_controller.dfy ===
/**
 * The application controller: it owns a recorder, a player, a spam clicker and the hotkeys, and
 * its guards keep recording, playback and spam clicking from running together. Window titles,
 * banners and widgets are display only and are not modelled; the status lines are the notices.
 */
module AppController {
  import opened Wrappers
  import opened Strings
  import opened Keys
  import opened Json
  import opened Injection
  import opened Notices
  import Recorder
  import Player
  import SpamClicker
  import HotkeyManager
  import FileManager

  datatype Controller = Controller(
    recorder: Recorder.State,
    player: Player.PlayerState,
    spam: SpamClicker.Clicker,
    hotkeys: HotkeyManager.Manager)

  const Initial := Controller(Recorder.Initial, Player.Initial, SpamClicker.Initial, HotkeyManager.Initial)

  /** The playback settings panel (loops, delay between loops, speed); without a panel the defaults 1, 0.0, 1.0 apply. */
  datatype Settings = Settings(loopCount: int, loopDelay: real, speed: real)

  const DefaultSettings := Settings(1, 0.0, 1.0)

  predicate Recording(c: Controller) { c.recorder.recording }
  predicate Playing(c: Controller) { c.player.playing }
  predicate Spamming(c: Controller) { c.spam.active }

  /** At most one of the three activities runs. */
  predicate Exclusive(c: Controller) {
    (Recording(c) ==> !Playing(c) && !Spamming(c)) && (Playing(c) ==> !Spamming(c))
  }

  /** The ignore list the recorder is given: the four bindings, compared as raw keys. */
  function AsIgnored(keys: seq<RawKey>): (r: seq<Recorder.Ignored>)
    ensures |r| == |keys| && forall i :: 0 <= i < |keys| ==> r[i] == Recorder.IgnoredRaw(keys[i])
  {
    seq(|keys|, i requires 0 <= i < |keys| => Recorder.IgnoredRaw(keys[i]))
  }

  function CurrentIgnored(m: HotkeyManager.Manager): seq<Recorder.Ignored> {
    AsIgnored(HotkeyManager.GetIgnoredKeys(m))
  }

  /**
   * What the controller keeps true: at most one activity, and while recording the recorder
   * ignores exactly the current hotkeys.
   */
  predicate Inv(c: Controller) {
    Exclusive(c) && (Recording(c) ==> c.recorder.ignored == CurrentIgnored(c.hotkeys))
  }

  /** The new state, the status lines shown, and the input released on the way. */
  datatype Reaction = Reaction(state: Controller, notices: seq<Notice>, released: seq<Action>)

  function Refuse(c: Controller, message: string): Reaction {
    Reaction(c, [Notice(message, "red")], [])
  }

  /**
   * `start_recording`: refused while spam clicking, then while playing; otherwise the recorder is
   * handed the current hotkeys to ignore and asked to start (which it declines, silently, when
   * already recording).
   */
  function StartRecording(c: Controller, now: real): (r: Reaction)
    ensures Spamming(c) ==> r == Refuse(c, "Stop spam clicking first!")
    ensures !Spamming(c) && Playing(c) ==> r == Refuse(c, "Stop playback first!")
    ensures !Spamming(c) && !Playing(c) ==>
      Recording(r.state) && r.state.recorder.ignored == CurrentIgnored(c.hotkeys)
      && r.state == c.(recorder := r.state.recorder)
    ensures !Spamming(c) && !Playing(c) && !Recording(c) ==>
      r.state.recorder.events == [] && r.state.recorder.startTime == now
    ensures !Spamming(c) && !Playing(c) && Recording(c) ==> r.state.recorder.events == c.recorder.events
    ensures Exclusive(c) ==> Exclusive(r.state)
  {
    if Spamming(c) then Refuse(c, "Stop spam clicking first!")
    else if Playing(c) then Refuse(c, "Stop playback first!")
    else
      var rec := Recorder.SetIgnoredKeys(c.recorder, CurrentIgnored(c.hotkeys));
      var st := Recorder.Start(rec, now);
      Reaction(c.(recorder := st.state), st.notices, [])
  }

  /** `stop_recording`: the recorder stops and reports its count; nothing else changes. */
  function StopRecording(c: Controller): (r: Reaction)
    ensures !Recording(r.state) && r.state == c.(recorder := r.state.recorder)
    ensures r.state.recorder.events == c.recorder.events
    ensures r.notices == [Recorder.Stop(c.recorder).notice]
  {
    var st := Recorder.Stop(c.recorder);
    Reaction(c.(recorder := st.state), [st.notice], [])
  }

  /**
   * `start_playback`: refused while spam clicking, then while recording, then without events;
   * otherwise the player is asked to start on the recorded events.
   */
  function StartPlayback(c: Controller, s: Settings): (r: Reaction)
    ensures Spamming(c) ==> r == Refuse(c, "Stop spam clicking first!")
    ensures !Spamming(c) && Recording(c) ==> r == Refuse(c, "Stop recording first!")
    ensures !Spamming(c) && !Recording(c) && |c.recorder.events| == 0 ==> r == Refuse(c, "No events to play!")
    ensures !Spamming(c) && !Recording(c) && |c.recorder.events| > 0 ==>
      Playing(r.state) && r.state == c.(player := r.state.player)
    ensures Exclusive(c) ==> Exclusive(r.state)
  {
    if Spamming(c) then Refuse(c, "Stop spam clicking first!")
    else if Recording(c) then Refuse(c, "Stop recording first!")
    else if |c.recorder.events| == 0 then Refuse(c, "No events to play!")
    else
      var a := Player.Start(c.player, c.recorder.events, s.loopCount);
      Reaction(c.(player := a.state), a.notices, [])
  }

  /** `stop_playback`: the player stops when playing, releasing whatever it holds. */
  function StopPlayback(c: Controller): (r: Reaction)
    ensures !Playing(r.state) && r.state == c.(player := r.state.player)
    ensures Playing(c) ==>
      r.state.player.pressed == NothingPressed && |r.released| == 1 && Apply(c.player.pressed, r.released[0]) == NothingPressed
    ensures !Playing(c) ==> r == Reaction(c, [], [])
  {
    var h := Player.Stop(c.player);
    Reaction(c.(player := h.state), h.notices, h.released)
  }

  /** The playback worker finishing on its own: its final clean-up leaves the player idle with nothing held. */
  function PlaybackEnded(c: Controller): (r: Reaction)
    ensures !Playing(r.state) && r.state.player.pressed == NothingPressed
    ensures r.state == c.(player := r.state.player)
  {
    Reaction(c.(player := Player.Initial), [], [])
  }

  /** `start_spam_click`: refused while recording, then while playing; otherwise the clicker is asked to start. */
  function StartSpam(c: Controller): (r: Reaction)
    ensures Recording(c) ==> r == Refuse(c, "Cannot spam click while recording!")
    ensures !Recording(c) && Playing(c) ==> r == Refuse(c, "Cannot spam click while playing!")
    ensures !Recording(c) && !Playing(c) ==> Spamming(r.state) && r.state == c.(spam := r.state.spam)
    ensures Exclusive(c) ==> Exclusive(r.state)
  {
    if Recording(c) then Refuse(c, "Cannot spam click while recording!")
    else if Playing(c) then Refuse(c, "Cannot spam click while playing!")
    else
      var t := SpamClicker.Start(c.spam);
      Reaction(c.(spam := t.state), t.notices, [])
  }

  /** `stop_spam_click`. */
  function StopSpam(c: Controller): (r: Reaction)
    ensures !Spamming(r.state) && r.state == c.(spam := r.state.spam)
    ensures !Spamming(c) ==> r == Reaction(c, [], [])
  {
    var t := SpamClicker.Stop(c.spam);
    Reaction(c.(spam := t.state), t.notices, [])
  }

  /** `toggle_recording`: stop when recording, start otherwise. */
  function ToggleRecording(c: Controller, now: real): (r: Reaction)
    ensures Recording(c) ==> r == StopRecording(c) && !Recording(r.state)
    ensures !Recording(c) ==> r == StartRecording(c, now)
  {
    if Recording(c) then StopRecording(c) else StartRecording(c, now)
  }

  /** `toggle_playback`: stop when playing, start otherwise. */
  function TogglePlayback(c: Controller, s: Settings): (r: Reaction)
    ensures Playing(c) ==> r == StopPlayback(c) && !Playing(r.state)
    ensures !Playing(c) ==> r == StartPlayback(c, s)
  {
    if Playing(c) then StopPlayback(c) else StartPlayback(c, s)
  }

  /** `toggle_spam_click`: stop when spam clicking, start otherwise. */
  function ToggleSpam(c: Controller): (r: Reaction)
    ensures Spamming(c) ==> r == StopSpam(c) && !Spamming(r.state)
    ensures !Spamming(c) ==> r == StartSpam(c)
  {
    if Spamming(c) then StopSpam(c) else StartSpam(c)
  }

  /** `force_stop`: stops only the first active activity in the order recording, playback, spam clicking. */
  function ForceStop(c: Controller): (r: Reaction)
    ensures Recording(c) ==> r == StopRecording(c)
    ensures !Recording(c) && Playing(c) ==> r == StopPlayback(c)
    ensures !Recording(c) && !Playing(c) && Spamming(c) ==> r == StopSpam(c)
    ensures !Recording(c) && !Playing(c) && !Spamming(c) ==> r == Reaction(c, [], [])
  {
    if Recording(c) then StopRecording(c)
    else if Playing(c) then StopPlayback(c)
    else if Spamming(c) then StopSpam(c)
    else Reaction(c, [], [])
  }

  /** With the activities kept exclusive, a forced stop leaves nothing running. */
  lemma ForceStopStopsEverything(c: Controller)
    requires Exclusive(c)
    ensures var s := ForceStop(c).state; !Recording(s) && !Playing(s) && !Spamming(s)
  {
  }

  /** `clear_recording`. */
  function ClearRecording(c: Controller): (r: Reaction)
    ensures r.state == c.(recorder := c.recorder.(events := []))
  {
    var st := Recorder.Clear(c.recorder);
    Reaction(c.(recorder := st.state), st.notices, [])
  }

  /** The settings as they are saved beside the events, with the hotkeys under their names. */
  function SavedConfig(c: Controller, s: Settings): (d: Json)
    ensures d.JObj? && d.fields.Keys == {"loops", "delay", "speed", "hotkeys"} && Truthy(d)
    ensures d.fields["hotkeys"] == HotkeyManager.SavedDict(HotkeyManager.GetHotkeys(c.hotkeys))
  {
    var d := map["loops" := JInt(s.loopCount), "delay" := JFloat(s.loopDelay), "speed" := JFloat(s.speed),
                 "hotkeys" := HotkeyManager.SavedDict(HotkeyManager.GetHotkeys(c.hotkeys))];
    assert "loops" in d;
    JObj(d)
  }

  /** A warning box (save or load refused), or the call carried through. */
  datatype SaveOutcome = SaveWarned(message: string) | SaveDone(plan: FileManager.SavePlan, notices: seq<Notice>)

  /**
   * `save_recording`, once a file name is chosen: refused while recording or playing; otherwise the
   * events are saved with the settings and hotkeys.
   */
  function SaveRecording(c: Controller, s: Settings, fileName: string): (o: SaveOutcome)
    ensures Recording(c) ==> o == SaveWarned("Please stop recording before saving!")
    ensures !Recording(c) && Playing(c) ==> o == SaveWarned("Please stop playback before saving!")
    ensures !Recording(c) && !Playing(c) ==> o.SaveDone? && o.plan == FileManager.Save(JArr(c.recorder.events), SavedConfig(c, s))
    ensures o.SaveDone? && o.plan.Write? ==> o.plan.data == JObj(map["events" := JArr(c.recorder.events), "config" := SavedConfig(c, s)])
    ensures o.SaveDone? && o.plan.Refused? ==> o.notices == [Notice("No events to save", "red")]
  {
    if Recording(c) then SaveWarned("Please stop recording before saving!")
    else if Playing(c) then SaveWarned("Please stop playback before saving!")
    else
      var plan := FileManager.Save(JArr(c.recorder.events), SavedConfig(c, s));
      match plan
      case Refused(message) => SaveDone(plan, [Notice(message, "red")])
      case Write(_) => SaveDone(plan, [Notice("Recording saved: " + fileName, "green")])
  }

  datatype LoadOutcome = LoadWarned(message: string) | LoadDone(state: Controller, notices: seq<Notice>, raised: bool)

  function LoadedMessage(fileName: string, count: nat): string {
    "Recording loaded: " + fileName + " (" + IntToString(count) + " events)"
  }

  /**
   * `load_recording`, on the value the chosen file holds: refused while recording or playing.
   * A load that succeeds with events replaces the recording; when its settings name "hotkeys" they
   * are rebound and handed to the recorder to ignore. An exception while applying the settings (in
   * the settings panel, when `panel` says there is one, or while rebinding) escapes with the events
   * already replaced.
   */
  function LoadRecording(c: Controller, v: Json, fileName: string, panel: bool): (o: LoadOutcome)
    ensures Recording(c) ==> o == LoadWarned("Please stop recording before loading!")
    ensures !Recording(c) && Playing(c) ==> o == LoadWarned("Please stop playback before loading!")
    ensures !Recording(c) && !Playing(c) ==> o.LoadDone?
    ensures o.LoadDone? ==>
      o.state.player == c.player && o.state.spam == c.spam && !Recording(o.state)
    ensures o.LoadDone? && !(FileManager.Load(v).Loaded? && |FileManager.Load(v).events| > 0) ==>
      o.state == c && !o.raised && |o.notices| == 1 && o.notices[0].color == "red"
    ensures o.LoadDone? && FileManager.Load(v).Loaded? && |FileManager.Load(v).events| > 0 ==>
      o.state.recorder.events == FileManager.Load(v).events
    ensures o.LoadDone? && FileManager.Load(v).Loaded? && !(Truthy(FileManager.Load(v).config) && In("hotkeys", FileManager.Load(v).config) != Some(false)) ==>
      o.state.hotkeys == c.hotkeys && (o.raised ==> panel && SetConfigRaises(FileManager.Load(v).config))
    ensures o.LoadDone? && FileManager.Load(v).Loaded? && |FileManager.Load(v).events| > 0
            && panel && Truthy(FileManager.Load(v).config) && SetConfigRaises(FileManager.Load(v).config) ==>
      o.raised && o.state.hotkeys == c.hotkeys && o.state.recorder.ignored == c.recorder.ignored
    ensures o.LoadDone? && !o.raised && FileManager.Load(v).Loaded? && |FileManager.Load(v).events| > 0
            && FileManager.Load(v).config.JObj? && "hotkeys" in FileManager.Load(v).config.fields ==>
      o.state.hotkeys == HotkeyManager.SetHotkeys(c.hotkeys, FileManager.Load(v).config.fields["hotkeys"]).0
      && o.state.recorder.ignored == CurrentIgnored(o.state.hotkeys)
    ensures o.LoadDone? && o.raised ==>
      o.notices == [] && FileManager.Load(v).Loaded? && o.state.recorder.events == FileManager.Load(v).events
    ensures o.LoadDone? && !o.raised && FileManager.Load(v).Loaded? && |FileManager.Load(v).events| > 0 ==>
      o.notices == [Notice(LoadedMessage(fileName, |FileManager.Load(v).events|), "green")]
  {
    if Recording(c) then LoadWarned("Please stop recording before loading!")
    else if Playing(c) then LoadWarned("Please stop playback before loading!")
    else
      var r := FileManager.Load(v);
      match r
      case LoadFailed(message) => LoadDone(c, [Notice(message, "red")], false)
      case Loaded(events, config) =>
        if |events| == 0 then LoadDone(c, [Notice(LoadedMessage(fileName, 0), "red")], false)
        else
          var c1 := c.(recorder := Recorder.SetEvents(c.recorder, events));
          ApplyLoadedConfig(c1, config, [Notice(LoadedMessage(fileName, |events|), "green")], panel)
  }

  /**
   * `set_hotkeys` on the loaded hotkeys entry, then the recorder's ignore list refreshed from the
   * new bindings; an entry that cannot be read raises before the refresh.
   */
  function RebindLoaded(c1: Controller, hotkeys: Json, ok: seq<Notice>): (o: LoadOutcome)
    ensures o.LoadDone? && o.state.player == c1.player && o.state.spam == c1.spam
    ensures o.state.recorder.recording == c1.recorder.recording && o.state.recorder.events == c1.recorder.events
    ensures o.raised == HotkeyManager.SetHotkeys(c1.hotkeys, hotkeys).1
    ensures o.state.hotkeys == HotkeyManager.SetHotkeys(c1.hotkeys, hotkeys).0
    ensures !o.raised ==> o.state.recorder.ignored == CurrentIgnored(o.state.hotkeys) && o.notices == ok
    ensures o.raised ==> o.notices == []
  {
    var (m, raised) := HotkeyManager.SetHotkeys(c1.hotkeys, hotkeys);
    var c2 := c1.(hotkeys := m);
    if raised then LoadDone(c2, [], true)
    else LoadDone(c2.(recorder := Recorder.SetIgnoredKeys(c2.recorder, CurrentIgnored(m))), ok, false)
  }

  /**
   * The settings panel's `set_config` on a loaded settings value: for each of "loops", "delay",
   * "speed" in turn, `key in config` and, when that holds, `config[key]`. On anything but a dict
   * one of these raises unless `in` answers no for all three.
   */
  predicate SetConfigRaises(config: Json) {
    !config.JObj?
    && (In("loops", config) != Some(false) || In("delay", config) != Some(false) || In("speed", config) != Some(false))
  }

  /**
   * The settings part of `load_recording`, once the events are in place: a non-empty settings
   * value goes to the settings panel, when there is one, and then hotkeys named by a settings dict
   * are rebound and the recorder's ignore list refreshed; reading a settings value or a hotkey
   * entry of the wrong kind raises and shows nothing.
   */
  function ApplyLoadedConfig(c1: Controller, config: Json, ok: seq<Notice>, panel: bool): (o: LoadOutcome)
    ensures o.LoadDone? && o.state.player == c1.player && o.state.spam == c1.spam
    ensures o.state.recorder.recording == c1.recorder.recording && o.state.recorder.events == c1.recorder.events
    ensures !Truthy(config) ==> o == LoadDone(c1, ok, false)
    ensures Truthy(config) && panel && SetConfigRaises(config) ==> o == LoadDone(c1, [], true)
    ensures !(panel && SetConfigRaises(config)) && !(Truthy(config) && In("hotkeys", config) != Some(false)) ==>
      o == LoadDone(c1, ok, false)
    ensures config.JObj? && "hotkeys" in config.fields && !o.raised ==>
      o.state.hotkeys == HotkeyManager.SetHotkeys(c1.hotkeys, config.fields["hotkeys"]).0
      && o.state.recorder.ignored == CurrentIgnored(o.state.hotkeys)
    ensures Truthy(config) && !config.JObj? && In("hotkeys", config) != Some(false) ==> o == LoadDone(c1, [], true)
    ensures o.raised ==> o.notices == []
    ensures !o.raised ==> o.notices == ok
  {
    DictWithKeyIsTruthy(config, "hotkeys");
    if !Truthy(config) then LoadDone(c1, ok, false)
    else if panel && SetConfigRaises(config) then LoadDone(c1, [], true)
    else if config.JObj? then
      if "hotkeys" !in config.fields then LoadDone(c1, ok, false)
      else RebindLoaded(c1, config.fields["hotkeys"], ok)
    else
      // `'hotkeys' in config` on a list or string, then `config['hotkeys']`, which raises.
      match In("hotkeys", config)
      case None => LoadDone(c1, [], true)
      case Some(present) => if present then LoadDone(c1, [], true) else LoadDone(c1, ok, false)
  }

  /**
   * Saving and loading back, into any idle controller: the events come back, and so do hotkeys
   * bound to member keys, provided every event has a type and a timestamp.
   */
  lemma SaveThenLoadRestoresRecording(c: Controller, s: Settings, fileName: string, target: Controller, panel: bool)
    requires !Recording(c) && !Playing(c) && !Recording(target) && !Playing(target)
    requires |c.recorder.events| > 0
    requires forall i :: 0 <= i < |c.recorder.events| ==> FileManager.WellFormedEvent(c.recorder.events[i])
    requires forall slot :: HotkeyManager.Binding(c.hotkeys, slot).Named? && HotkeyManager.Binding(c.hotkeys, slot).name in KeyNames
    ensures SaveRecording(c, s, fileName).plan.Write?
    ensures var o := LoadRecording(target, SaveRecording(c, s, fileName).plan.data, fileName, panel);
      o.LoadDone? && !o.raised && o.state.recorder.events == c.recorder.events
      && forall slot :: HotkeyManager.Binding(o.state.hotkeys, slot) == HotkeyManager.Binding(c.hotkeys, slot)
  {
    var config := SavedConfig(c, s);
    assert SaveRecording(c, s, fileName).plan == FileManager.Save(JArr(c.recorder.events), config);
    FileManager.SaveThenLoad(c.recorder.events, config);
    var loaded := FileManager.Load(SaveRecording(c, s, fileName).plan.data);
    assert loaded == FileManager.Loaded(c.recorder.events, config);
    assert In("hotkeys", config) == Some(true);
    HotkeyManager.NamedBindingsSurviveReload(c.hotkeys, target.hotkeys);
  }

  /** Everything that can happen to the controller: a button, a hotkey press, an input event, the worker ending. */
  datatype Command =
    | ToggleRecordingCmd(now: real)
    | TogglePlaybackCmd(settings: Settings)
    | ToggleSpamCmd
    | ForceStopCmd
    | ClearCmd
    | LoadCmd(value: Json, fileName: string, panel: bool)
    | CaptureCmd(slotName: string)
    | PlaybackEndedCmd
    | ClickCmd(now: real, x: int, y: int, button: Button, pressed: bool)
    | KeyReleaseCmd(now: real, key: RawKey)
    | KeyPressCmd(now: real, key: RawKey, settings: Settings)

  /** The action a fired hotkey schedules. */
  function Fire(c: Controller, slot: HotkeyManager.Slot, now: real, s: Settings): (r: Reaction)
    ensures slot == HotkeyManager.RecordSlot ==> r == ToggleRecording(c, now)
    ensures slot == HotkeyManager.PlaySlot ==> r == TogglePlayback(c, s)
    ensures slot == HotkeyManager.StopSlot ==> r == ForceStop(c)
    ensures slot == HotkeyManager.SpamSlot ==> r == ToggleSpam(c)
  {
    match slot
    case RecordSlot => ToggleRecording(c, now)
    case PlaySlot => TogglePlayback(c, s)
    case StopSlot => ForceStop(c)
    case SpamSlot => ToggleSpam(c)
  }

  /**
   * A key press as both listeners see it: the recorder's listener first (it records unless the key
   * is ignored), then the hotkey listener, whose capture updates the recorder's ignore list and
   * whose fired action runs afterwards on the interface thread.
   */
  function KeyPress(c: Controller, now: real, key: RawKey, s: Settings): (r: Reaction)
    ensures HotkeyManager.Capturing(c.hotkeys) ==>
      r.state.player == c.player && r.state.spam == c.spam && Recording(r.state) == Recording(c)
      && r.state.hotkeys == HotkeyManager.OnPress(c.hotkeys, key).manager
      && r.state.recorder.ignored == CurrentIgnored(r.state.hotkeys)
      && r.state.recorder.events == Recorder.OnKey(c.recorder, now, key, true).events
    ensures !HotkeyManager.Capturing(c.hotkeys) && HotkeyManager.FirstMatch(c.hotkeys, key).Some? ==>
      r == Fire(c.(recorder := Recorder.OnKey(c.recorder, now, key, true)),
                HotkeyManager.FirstMatch(c.hotkeys, key).value, now, s)
    ensures !HotkeyManager.Capturing(c.hotkeys) && HotkeyManager.FirstMatch(c.hotkeys, key).None? ==>
      r.state == c.(recorder := Recorder.OnKey(c.recorder, now, key, true))
  {
    var c1 := c.(recorder := Recorder.OnKey(c.recorder, now, key, true));
    var d := HotkeyManager.OnPress(c1.hotkeys, key);
    var c2 := c1.(hotkeys := d.manager);
    if d.captured.Some? then
      Reaction(c2.(recorder := Recorder.SetIgnoredKeys(c2.recorder, CurrentIgnored(d.manager))), d.notices, [])
    else if d.fired.Some? then Fire(c2, d.fired.value, now, s)
    else Reaction(c2, [], [])
  }

  function Step(c: Controller, cmd: Command): (r: Reaction)
  {
    match cmd
    case ToggleRecordingCmd(now) => ToggleRecording(c, now)
    case TogglePlaybackCmd(s) => TogglePlayback(c, s)
    case ToggleSpamCmd => ToggleSpam(c)
    case ForceStopCmd => ForceStop(c)
    case ClearCmd => ClearRecording(c)
    case LoadCmd(v, name, panel) =>
      (match LoadRecording(c, v, name, panel)
       case LoadWarned(_) => Reaction(c, [], [])
       case LoadDone(state, notices, _) => Reaction(state, notices, []))
    case CaptureCmd(slotName) =>
      var (m, n) := HotkeyManager.StartCapture(c.hotkeys, slotName);
      Reaction(c.(hotkeys := m), [n], [])
    case PlaybackEndedCmd => PlaybackEnded(c)
    case ClickCmd(now, x, y, b, p) => Reaction(c.(recorder := Recorder.OnClick(c.recorder, now, x, y, b, p)), [], [])
    case KeyReleaseCmd(now, key) => Reaction(c.(recorder := Recorder.OnKey(c.recorder, now, key, false)), [], [])
    case KeyPressCmd(now, key, s) => KeyPress(c, now, key, s)
  }

  /** Every step keeps the controller's invariant. */
  lemma StepKeepsInv(c: Controller, cmd: Command)
    requires Inv(c)
    ensures Inv(Step(c, cmd).state)
  {
    if cmd.KeyPressCmd? {
      KeyPressKeepsInv(c, cmd.now, cmd.key, cmd.settings);
    } else if cmd.LoadCmd? {
      LoadKeepsInv(c, cmd.value, cmd.fileName, cmd.panel);
    } else if cmd.ToggleRecordingCmd? || cmd.TogglePlaybackCmd? || cmd.ToggleSpamCmd? || cmd.ForceStopCmd? {
      ToggleKeepsInv(c, cmd);
    } else {
      InputKeepsInv(c, cmd);
    }
  }

  lemma ToggleKeepsInv(c: Controller, cmd: Command)
    requires Inv(c)
    requires cmd.ToggleRecordingCmd? || cmd.TogglePlaybackCmd? || cmd.ToggleSpamCmd? || cmd.ForceStopCmd?
    ensures Inv(Step(c, cmd).state)
  {
    match cmd
    case ToggleRecordingCmd(now) => FireKeepsInv(c, HotkeyManager.RecordSlot, now, DefaultSettings);
    case TogglePlaybackCmd(s) => FireKeepsInv(c, HotkeyManager.PlaySlot, 0.0, s);
    case ToggleSpamCmd => FireKeepsInv(c, HotkeyManager.SpamSlot, 0.0, DefaultSettings);
    case ForceStopCmd => FireKeepsInv(c, HotkeyManager.StopSlot, 0.0, DefaultSettings);
  }

  lemma InputKeepsInv(c: Controller, cmd: Command)
    requires Inv(c)
    requires cmd.ClearCmd? || cmd.CaptureCmd? || cmd.PlaybackEndedCmd? || cmd.ClickCmd? || cmd.KeyReleaseCmd?
    ensures Inv(Step(c, cmd).state)
  {
  }

  lemma LoadKeepsInv(c: Controller, v: Json, name: string, panel: bool)
    requires Inv(c)
    ensures LoadRecording(c, v, name, panel).LoadDone? ==> Inv(LoadRecording(c, v, name, panel).state)
  {
  }

  lemma KeyPressKeepsInv(c: Controller, now: real, key: RawKey, s: Settings)
    requires Inv(c)
    ensures Inv(KeyPress(c, now, key, s).state)
  {
    var c1 := c.(recorder := Recorder.OnKey(c.recorder, now, key, true));
    assert Inv(c1);
    var d := HotkeyManager.OnPress(c1.hotkeys, key);
    if d.captured.None? && d.fired.Some? {
      assert d.manager == c1.hotkeys;
      FireKeepsInv(c1, d.fired.value, now, s);
    }
  }

  lemma FireKeepsInv(c: Controller, slot: HotkeyManager.Slot, now: real, s: Settings)
    requires Inv(c)
    ensures Inv(Fire(c, slot, now, s).state)
  {
  }

  /** The controller after a sequence of commands. */
  function Run(c: Controller, cmds: seq<Command>): Controller
    decreases |cmds|
  {
    if |cmds| == 0 then c else Run(Step(c, cmds[0]).state, cmds[1..])
  }

  /** From a fresh start, whatever happens, at most one activity is ever running. */
  lemma {:induction false} AtMostOneActivity(cmds: seq<Command>)
    ensures Exclusive(Run(Initial, cmds))
  {
    RunKeepsInv(Initial, cmds);
  }

  lemma {:induction false} RunKeepsInv(c: Controller, cmds: seq<Command>)
    requires Inv(c)
    ensures Inv(Run(c, cmds))
    decreases |cmds|
  {
    if |cmds| > 0 {
      StepKeepsInv(c, cmds[0]);
      RunKeepsInv(Step(c, cmds[0]).state, cmds[1..]);
    }
  }

  /**
   * Pressing the record hotkey while recording stops the recording without adding the press to
   * it: the recorder was given the hotkeys to ignore when it started.
   */
  lemma RecordHotkeyStopsRecordingUnrecorded(c: Controller, now: real, key: RawKey, s: Settings)
    requires Inv(c) && Recording(c) && !HotkeyManager.Capturing(c.hotkeys)
    requires RawEq(key, c.hotkeys.record)
    ensures var r := KeyPress(c, now, key, s);
      !Recording(r.state) && r.state.recorder.events == c.recorder.events
  {
    RawEqSymmetricReflexive(key, c.hotkeys.record);
    assert c.recorder.ignored[0] == Recorder.IgnoredRaw(c.hotkeys.record);
    assert Recorder.Matches(c.recorder.ignored[0], key);
  }

  /** With the default bindings, ESC during playback stops the player and leaves nothing held. */
  lemma EscapeStopsPlayback(c: Controller, now: real, s: Settings)
    requires Inv(c) && Playing(c) && c.hotkeys == HotkeyManager.Initial
    ensures var r := KeyPress(c, now, Named("esc"), s);
      !Playing(r.state) && r.state.player.pressed == NothingPressed && r.state.recorder == c.recorder
  {
  }
}

=== FILE: event.dfy ===
/**
 * The event records and their dictionary form: a mouse click or a key event becomes a JSON object
 * with a "type" and its fields, and reading the object back gives the same record. Also the
 * recording container and the playback settings.
 */
module Events {
  import opened Wrappers
  import opened Json

  const MouseClickType := "mouse_click"
  const KeyPressType := "key_press"
  const KeyReleaseType := "key_release"

  /** A mouse click; the fields hold whatever values the dictionary carried. */
  datatype MouseEvent = MouseEvent(x: Json, y: Json, button: Json, pressed: Json, timestamp: Json)

  /** A key event; `pressed` tells a press from a release. */
  datatype KeyEvent = KeyEvent(key: Json, pressed: bool, timestamp: Json)

  /** `MouseEvent.to_dict`: the click under type "mouse_click" with all five of its fields. */
  function MouseToDict(m: MouseEvent): (d: Json)
    ensures d.JObj? && d.fields.Keys == {"type", "x", "y", "button", "pressed", "timestamp"}
    ensures d.fields["type"] == JStr(MouseClickType)
  {
    JObj(map["type" := JStr(MouseClickType), "x" := m.x, "y" := m.y, "button" := m.button,
             "pressed" := m.pressed, "timestamp" := m.timestamp])
  }

  /** `MouseEvent.from_dict`: `None` where a field is missing (the lookup raises); the type is not read. */
  function MouseFromDict(d: Json): (m: Option<MouseEvent>)
    ensures m.Some? <==> d.JObj? && {"x", "y", "button", "pressed", "timestamp"} <= d.fields.Keys
  {
    if d.JObj? && "x" in d.fields && "y" in d.fields && "button" in d.fields
       && "pressed" in d.fields && "timestamp" in d.fields
    then Some(MouseEvent(d.fields["x"], d.fields["y"], d.fields["button"], d.fields["pressed"], d.fields["timestamp"]))
    else None
  }

  /** Reading back a written click gives the click. */
  lemma MouseRoundTrip(m: MouseEvent)
    ensures MouseFromDict(MouseToDict(m)) == Some(m)
  {
  }

  /** Writing a read click gives the dictionary back, when it held exactly a click's fields. */
  lemma MouseDictRoundTrip(d: Json)
    requires d.JObj? && d.fields.Keys == {"type", "x", "y", "button", "pressed", "timestamp"}
    requires d.fields["type"] == JStr(MouseClickType)
    ensures MouseFromDict(d).Some? && MouseToDict(MouseFromDict(d).value) == d
  {
    var d' := MouseToDict(MouseFromDict(d).value);
    assert d'.fields == d.fields;
  }

  /** `KeyEvent.to_dict`: type "key_press" for a press and "key_release" otherwise. */
  function KeyToDict(k: KeyEvent): (d: Json)
    ensures d.JObj? && d.fields.Keys == {"type", "key", "timestamp"}
    ensures d.fields["type"] == JStr(KeyPressType) <==> k.pressed
    ensures !k.pressed ==> d.fields["type"] == JStr(KeyReleaseType)
  {
    JObj(map["type" := JStr(if k.pressed then KeyPressType else KeyReleaseType),
             "key" := k.key, "timestamp" := k.timestamp])
  }

  /** `KeyEvent.from_dict`: a press exactly when the type is "key_press"; `None` where a field is missing. */
  function KeyFromDict(d: Json): (k: Option<KeyEvent>)
    ensures k.Some? <==> d.JObj? && {"type", "key", "timestamp"} <= d.fields.Keys
    ensures k.Some? ==> (k.value.pressed <==> d.fields["type"] == JStr(KeyPressType))
  {
    if d.JObj? && "type" in d.fields && "key" in d.fields && "timestamp" in d.fields then
      Some(KeyEvent(d.fields["key"], d.fields["type"] == JStr(KeyPressType), d.fields["timestamp"]))
    else None
  }

  lemma KeyRoundTrip(k: KeyEvent)
    ensures KeyFromDict(KeyToDict(k)) == Some(k)
  {
  }

  /** A key dictionary of either type comes back unchanged; any other type is read as a release and written back as one. */
  lemma KeyDictRoundTrip(d: Json)
    requires d.JObj? && d.fields.Keys == {"type", "key", "timestamp"}
    ensures KeyFromDict(d).Some?
    ensures d.fields["type"] in {JStr(KeyPressType), JStr(KeyReleaseType)} ==> KeyToDict(KeyFromDict(d).value) == d
    ensures KeyToDict(KeyFromDict(d).value).fields["type"] != JStr(KeyPressType) <==> d.fields["type"] != JStr(KeyPressType)
  {
    var d' := KeyToDict(KeyFromDict(d).value);
    if d.fields["type"] in {JStr(KeyPressType), JStr(KeyReleaseType)} {
      assert d'.fields == d.fields;
    }
  }

  /** `RecordingSession`: the recorded events in order. */
  datatype RecordingSession = RecordingSession(events: seq<Json>)

  function AddEvent(s: RecordingSession, e: Json): (s': RecordingSession)
    ensures |s'.events| == |s.events| + 1 && s'.events[|s.events|] == e
    ensures s'.events[..|s.events|] == s.events
  {
    RecordingSession(s.events + [e])
  }

  function Clear(s: RecordingSession): (s': RecordingSession)
    ensures |s'.events| == 0
  {
    RecordingSession([])
  }

  /** `__len__`. */
  function Length(s: RecordingSession): (n: nat)
    ensures n == |s.events|
  {
    |s.events|
  }

  /** Adding events one by one yields them in the order they were added. */
  lemma {:induction false} AddAllInOrder(s: RecordingSession, es: seq<Json>)
    ensures AddAll(s, es).events == s.events + es
    decreases |es|
  {
    if |es| > 0 {
      AddAllInOrder(AddEvent(s, es[0]), es[1..]);
      assert s.events + [es[0]] + es[1..] == s.events + es;
    }
  }

  /** Each added event raises the size by one, and clearing brings it back to zero. */
  lemma {:induction false} LengthCountsAdds(s: RecordingSession, es: seq<Json>)
    ensures Length(AddAll(s, es)) == Length(s) + |es|
    ensures Length(Clear(AddAll(s, es))) == 0
  {
    AddAllInOrder(s, es);
  }

  function AddAll(s: RecordingSession, es: seq<Json>): RecordingSession
    decreases |es|
  {
    if |es| == 0 then s else AddAll(AddEvent(s, es[0]), es[1..])
  }

  /** `PlaybackConfig`: loops (0 = forever), the pause between loops, the speed multiplier. */
  datatype PlaybackConfig = PlaybackConfig(loopCount: int, loopDelay: real, playbackSpeed: real)

  const DefaultConfig := PlaybackConfig(1, 0.0, 1.0)

  predicate IsInfinite(c: PlaybackConfig) {
    c.loopCount == 0
  }

  /** The default settings play once, without a pause, at normal speed, and are not infinite. */
  lemma DefaultIsOnePassAtNormalSpeed()
    ensures !IsInfinite(DefaultConfig)
    ensures DefaultConfig.loopCount == 1 && DefaultConfig.loopDelay == 0.0 && DefaultConfig.playbackSpeed == 1.0
  {
  }
}

=== FILE: event_recorder.dfy ===
/**
 * The original all-in-one recorder: it records clicks and key events as dicts with a timestamp
 * relative to the start of recording, skips its own hotkeys, and plays the list back with the
 * shared worker in its legacy flavour. Recording and playing exclude each other.
 */
module EventRecorder {
  import opened Wrappers
  import opened Strings
  import opened Keys
  import opened Json
  import opened Injection
  import opened Playback
  import opened Notices
  import Events

  /** The recorder's state; `cfg` holds the settings of the latest admitted playback. */
  datatype Recorder = Recorder(
    recording: bool, playing: bool, events: seq<Json>, startTime: real,
    pressed: Pressed, ignored: seq<RawKey>, cfg: Config)

  const Initial := Recorder(false, false, [], 0.0, NothingPressed, [], Config(1, 0.0, 1.0))

  /** Recording and playing are never on together. */
  predicate Exclusive(s: Recorder) {
    !(s.recording && s.playing)
  }

  /** The result of a call that may be refused: the new state, whether it went ahead, and the status lines shown. */
  datatype Step = Step(state: Recorder, ok: bool, notices: seq<Notice>)

  /** `set_ignored_keys`: replaces the ignore list and nothing else, whether or not recording. */
  function SetIgnoredKeys(s: Recorder, keys: seq<RawKey>): (s': Recorder)
    ensures s'.ignored == keys && s'.events == s.events
    ensures s'.recording == s.recording && s'.playing == s.playing && s'.startTime == s.startTime
    ensures s'.pressed == s.pressed && s'.cfg == s.cfg
  {
    s.(ignored := keys)
  }

  /** `start_recording`: refused while playing; otherwise the list is emptied and the clock restarts at `now`. */
  function StartRecording(s: Recorder, now: real): (st: Step)
    ensures st.ok <==> !s.playing
    ensures !st.ok ==> st.state == s && st.notices == [Notice("Cannot record while playing!", "red")]
    ensures st.ok ==> st.state.recording && st.state.events == [] && st.state.startTime == now
    ensures st.ok ==> st.state.playing == s.playing && st.state.ignored == s.ignored
    ensures st.ok ==> st.notices == [Notice("Recording... Click and type!", "red")]
    ensures Exclusive(s) ==> Exclusive(st.state)
  {
    if s.playing then Step(s, false, [Notice("Cannot record while playing!", "red")])
    else Step(s.(recording := true, events := [], startTime := now), true, [Notice("Recording... Click and type!", "red")])
  }

  datatype RecordingEnd = RecordingEnd(state: Recorder, count: nat, notice: Notice)

  /** `stop_recording`: always clears the flag and reports how many events the list holds. */
  function StopRecording(s: Recorder): (st: RecordingEnd)
    ensures !st.state.recording && st.state == s.(recording := false)
    ensures st.count == |s.events|
    ensures st.notice == Notice("Recording stopped. " + IntToString(|s.events|) + " events recorded.", "green")
    ensures Exclusive(st.state)
  {
    RecordingEnd(s.(recording := false), |s.events|, Notice("Recording stopped. " + IntToString(|s.events|) + " events recorded.", "green"))
  }

  /** `_on_click`: while recording, append the click with its time since the start of recording. */
  function OnClick(s: Recorder, now: real, x: int, y: int, button: Button, pressed: bool): (s': Recorder)
    ensures !s.recording ==> s' == s
    ensures s.recording ==> |s'.events| == |s.events| + 1 && s' == s.(events := s.events + [s'.events[|s.events|]])
    ensures s.recording ==>
      Events.MouseFromDict(s'.events[|s.events|])
      == Some(Events.MouseEvent(JInt(x), JInt(y), JStr(ButtonStr(button)), JBool(pressed), JFloat(now - s.startTime)))
    ensures s.recording ==> s'.events[|s.events|].JObj? && s'.events[|s.events|].fields.Keys == {"type", "x", "y", "button", "pressed", "timestamp"}
    ensures s.recording ==> s'.events[|s.events|].fields["type"] == JStr(Events.MouseClickType)
  {
    if !s.recording then s
    else
      var m := Events.MouseEvent(JInt(x), JInt(y), JStr(ButtonStr(button)), JBool(pressed), JFloat(now - s.startTime));
      Events.MouseRoundTrip(m);
      s.(events := s.events + [Events.MouseToDict(m)])
  }

  /** `key in self.ignored_keys`: some ignored key compares equal to the observed one. */
  predicate IsIgnored(ignored: seq<RawKey>, key: RawKey) {
    exists i :: 0 <= i < |ignored| && RawEq(ignored[i], key)
  }

  /**
   * What the legacy recorder stores as the key: `key.char` where the key has that attribute (a
   * bare key code has it, set to `None`), and `str(key)` where it has not.
   */
  function KeyField(key: RawKey): (v: Json)
    ensures key.Char? ==> v == JStr(key.c)
    ensures key.Keysym? <==> v == JNull
    ensures key.Named? || key.Other? ==> v == JStr(Str(key))
  {
    match key
    case Char(c, _) => JStr(c)
    case Keysym(_) => JNull
    case Named(_) => JStr(Str(key))
    case Other(text) => JStr(text)
  }

  /** `_on_key_press` and `_on_key_release`: while recording, append the key event unless the key is ignored. */
  function OnKey(s: Recorder, now: real, key: RawKey, press: bool): (s': Recorder)
    ensures !s.recording || IsIgnored(s.ignored, key) ==> s' == s
    ensures s.recording && !IsIgnored(s.ignored, key) ==>
      |s'.events| == |s.events| + 1 && s' == s.(events := s.events + [s'.events[|s.events|]])
      && Events.KeyFromDict(s'.events[|s.events|]) == Some(Events.KeyEvent(KeyField(key), press, JFloat(now - s.startTime)))
  {
    if !s.recording || IsIgnored(s.ignored, key) then s
    else
      var k := Events.KeyEvent(KeyField(key), press, JFloat(now - s.startTime));
      Events.KeyRoundTrip(k);
      s.(events := s.events + [Events.KeyToDict(k)])
  }

  /** The status line shown when a playback is admitted. */
  function StartNotice(loopCount: int): Notice {
    if loopCount == 0 then Notice("Playing recording (Infinite loops)...", "blue")
    else Notice("Playing recording (" + IntToString(loopCount) + " loops)...", "blue")
  }

  /**
   * `start_playback`: refused while recording, then when the list is empty (both with a notice),
   * then silently while already playing; otherwise the settings are stored and the flag is set.
   */
  function StartPlayback(s: Recorder, cfg: Config): (st: Step)
    ensures st.ok <==> !s.recording && |s.events| > 0 && !s.playing
    ensures !st.ok ==> st.state == s
    ensures s.recording ==> st.notices == [Notice("Stop recording first!", "red")]
    ensures !s.recording && |s.events| == 0 ==> st.notices == [Notice("No events to play!", "red")]
    ensures !s.recording && |s.events| > 0 && s.playing ==> st.notices == []
    ensures st.ok ==> st.state == s.(playing := true, cfg := cfg) && st.notices == [StartNotice(cfg.loopCount)]
    ensures Exclusive(s) ==> Exclusive(st.state)
  {
    if s.recording then Step(s, false, [Notice("Stop recording first!", "red")])
    else if |s.events| == 0 then Step(s, false, [Notice("No events to play!", "red")])
    else if s.playing then Step(s, false, [])
    else Step(s.(playing := true, cfg := cfg), true, [StartNotice(cfg.loopCount)])
  }

  datatype Halt = Halt(state: Recorder, stopped: bool, released: seq<Action>, notices: seq<Notice>)

  /** `stop_playback`: while playing, clear the flag and release everything held in one sweep. */
  function StopPlayback(s: Recorder): (h: Halt)
    ensures h.stopped <==> s.playing
    ensures !h.stopped ==> h.state == s && h.released == [] && h.notices == []
    ensures h.stopped ==> h.state == s.(playing := false, pressed := NothingPressed)
    ensures h.stopped ==> |h.released| == 1 && Apply(s.pressed, h.released[0]) == NothingPressed
    ensures h.stopped ==> h.notices == [Notice("Playback stopped!", "orange")]
    ensures Exclusive(s) ==> Exclusive(h.state)
  {
    if !s.playing then Halt(s, false, [], [])
    else Halt(s.(playing := false, pressed := NothingPressed), true,
              [ReleaseAll(s.pressed.buttons, s.pressed.keys)], [Notice("Playback stopped!", "orange")])
  }

  /** `clear_recording`. */
  function ClearRecording(s: Recorder): (st: Step)
    ensures st.state == s.(events := []) && st.ok
    ensures st.notices == [Notice("Recording cleared!", "green")]
  {
    Step(s.(events := []), true, [Notice("Recording cleared!", "green")])
  }

  /** `set_events`: the list is replaced as given, whatever the recorder is doing. */
  function SetEvents(s: Recorder, events: seq<Json>): (s': Recorder)
    ensures s'.events == events && s' == s.(events := events)
  {
    s.(events := events)
  }

  datatype Session = Session(state: Recorder, started: bool, run: Option<Outcome>)

  /**
   * `start_playback` followed, when admitted, by `_playback_worker` in the legacy flavour: the run
   * ends with the flag down and nothing held, the completion callback fired once and last, and,
   * undisturbed and error-free, exactly `loop_count` passes over the list.
   */
  function PlaybackSession(s: Recorder, cap: Capability, cfg: Config, stop: StopPoint): (ses: Session)
    requires Finite(cfg, stop)
    ensures ses.started <==> !s.recording && |s.events| > 0 && !s.playing
    ensures !ses.started ==> ses.state == s && ses.run.None?
    ensures ses.started ==> ses.state == s.(cfg := cfg, pressed := NothingPressed) && ses.run.Some?
    ensures ses.run.Some? ==>
      var o := ses.run.value;
      Held(o.log) == NothingPressed && ExactCleanup(o.log) && EveryPressReleased(o.log) && |o.log| > 0
      && o.log[|o.log| - 1] == Complete && Complete !in o.log[..|o.log| - 1]
    ensures ses.run.Some? && stop.NoStop? && AllPlayable(Legacy, cap, s.events) ==>
      !ses.run.value.failed && ses.run.value.executed == Repeat(s.events, cfg.loopCount)
    ensures ses.run.Some? && !ses.run.value.failed ==>
      Inputs(ses.run.value.log) == ActionsOf(Legacy, cap, ses.run.value.executed)
    ensures ses.run.Some? && stop.NoStop? && AllPlayable(Legacy, cap, s.events) ==>
      Inputs(ses.run.value.log) == Repeat(ActionsOf(Legacy, cap, s.events), cfg.loopCount)
      && Sleeps(ses.run.value.log) == Schedule(Legacy, s.events, cfg, 0, cfg.loopCount)
  {
    var st := StartPlayback(s, cfg);
    if !st.ok then Session(s, false, None)
    else
      var o := Play(Legacy, cap, s.events, cfg, stop);
      NothingHeldMeansEveryPressReleased(o.log);
      Session(st.state.(playing := false, pressed := NothingPressed), true, Some(o))
  }

  /** Nothing is recorded while the recorder is not recording. */
  lemma IdleRecordsNothing(s: Recorder, now: real, x: int, y: int, b: Button, p: bool, key: RawKey)
    requires !s.recording
    ensures OnClick(s, now, x, y, b, p) == s && OnKey(s, now, key, p) == s
  {
  }

  /** A hotkey the recorder is told to ignore is never recorded, pressed or released. */
  lemma IgnoredKeyNeverRecorded(s: Recorder, now: real, i: nat, press: bool)
    requires i < |s.ignored|
    ensures OnKey(s, now, s.ignored[i], press) == s
  {
    RawEqSymmetricReflexive(s.ignored[i], s.ignored[i]);
  }

  /** Starting and at once stopping a recording reports no events. */
  lemma StartThenStopRecordsNothing(s: Recorder, now: real)
    requires !s.playing
    ensures StopRecording(StartRecording(s, now).state).count == 0
  {
  }

  /**
   * A recorded click of one of the three main buttons is replayed by the legacy worker as a move
   * to the recorded position followed by the same press or release of the same button.
   */
  lemma RecordedClickReplays(s: Recorder, now: real, x: int, y: int, b: Button, pressed: bool, r: Run)
    requires s.recording && b in {Left, Right, Middle}
    requires Inv(r) && r.status == Playing
    ensures var ev := OnClick(s, now, x, y, b, pressed).events[|s.events|];
      Execute(Legacy, AcceptsAll, ev.fields, r).log
      == r.log + [MoveTo(JInt(x), JInt(y)), if pressed then ButtonDown(b) else ButtonUp(b)]
  {
    var ev := OnClick(s, now, x, y, b, pressed).events[|s.events|];
    assert ev == Events.MouseToDict(Events.MouseEvent(JInt(x), JInt(y), JStr(ButtonStr(b)), JBool(pressed), JFloat(now - s.startTime)));
    ResolveButtonOfStr(b);
    assert Truthy(JBool(pressed)) == pressed;
  }

  /** A recorded member key ("Key.<member>") is injected again as that member. */
  lemma RecordedMemberKeyReplays(n: string)
    requires n in KeyNames
    ensures EventKey(Legacy, KeyField(Named(n))) == Some(NamedKey(n))
  {
    KeyNameShape(n);
    var s := "Key." + n;
    assert s[..4] == "Key.";
    assert Drop(s, 4) == n;
    TakeUntilDotOfIdent(n);
  }

  /** A recorded character key is typed again as that character. */
  lemma RecordedCharKeyReplays(c: string, vk: Option<int>)
    requires |c| == 1
    ensures EventKey(Legacy, KeyField(Char(c, vk))) == Some(TextKey(c))
  {
  }

  /** A bare key code is recorded as `None`, which the legacy worker skips on replay. */
  lemma RecordedKeysymIsSkipped(code: int)
    ensures EventKey(Legacy, KeyField(Keysym(code))).None?
  {
  }
}

=== FILE: file_manager.dfy ===
/**
 * The shape of a recording file: what is written for a list of events and its settings, and how
 * a loaded value is taken apart and checked. The file dialogs, the file itself and the JSON text
 * are outside the model; a file's content is the JSON value it holds.
 */
module FileManager {
  import opened Wrappers
  import opened Json

  /** What `save_recording` does before the dialog: refuse, or go on to write this value. */
  datatype SavePlan = Write(data: Json) | Refused(message: string)

  /**
   * `save_recording`: no events (an empty list or none at all) is refused before anything is
   * written; settings that are present and non-empty are stored beside the events, and otherwise
   * the bare list is written.
   */
  function Save(events: Json, config: Json): (p: SavePlan)
    ensures p.Refused? <==> !Truthy(events)
    ensures p.Refused? ==> p.message == "No events to save"
    ensures p.Write? && Truthy(config) ==> p.data == JObj(map["events" := events, "config" := config])
    ensures p.Write? && !Truthy(config) ==> p.data == events
  {
    if !Truthy(events) then Refused("No events to save")
    else if Truthy(config) then Write(JObj(map["events" := events, "config" := config]))
    else Write(events)
  }

  /** The outcome of `load_recording` once the value is read: the events and settings, or the error report. */
  datatype LoadResult = Loaded(events: seq<Json>, config: Json) | LoadFailed(message: string)

  /** The current layout: a dict that holds "events". */
  predicate IsCurrentLayout(v: Json) {
    v.JObj? && "events" in v.fields
  }

  /** The part of a loaded value taken as the events. */
  function EventsPart(v: Json): (e: Json)
    ensures IsCurrentLayout(v) ==> e == v.fields["events"]
    ensures !IsCurrentLayout(v) ==> e == v
  {
    if IsCurrentLayout(v) then v.fields["events"] else v
  }

  /** The part of a loaded value taken as the settings; `{}` where there are none. */
  function ConfigPart(v: Json): (c: Json)
    ensures IsCurrentLayout(v) && "config" in v.fields ==> c == v.fields["config"]
    ensures !(IsCurrentLayout(v) && "config" in v.fields) ==> c == EmptyObject
  {
    if IsCurrentLayout(v) && "config" in v.fields then v.fields["config"] else EmptyObject
  }

  /** An event that passes the check: a dict with a "type" and a "timestamp". */
  predicate WellFormedEvent(e: Json) {
    e.JObj? && "type" in e.fields && "timestamp" in e.fields
  }

  /** Why one event fails the check. */
  function EventProblem(e: Json): (m: string)
    requires !WellFormedEvent(e)
    ensures !e.JObj? <==> m == "Invalid event format: expected dictionary"
  {
    if !e.JObj? then "Invalid event format: expected dictionary"
    else "Invalid event format: missing required fields"
  }

  /** The check over the list, in order: the problem of the first event that fails it, if any. */
  function FirstProblem(items: seq<Json>): (r: Option<string>)
    ensures r.None? <==> forall i :: 0 <= i < |items| ==> WellFormedEvent(items[i])
    ensures r.Some? ==> exists i :: 0 <= i < |items| && !WellFormedEvent(items[i]) && r.value == EventProblem(items[i])
                          && forall j :: 0 <= j < i ==> WellFormedEvent(items[j])
    decreases |items|
  {
    if |items| == 0 then None
    else if !WellFormedEvent(items[0]) then Some(EventProblem(items[0]))
    else
      var rest := FirstProblem(items[1..]);
      assert forall i :: 1 <= i < |items| ==> items[i] == items[1..][i - 1];
      if rest.Some? then
        var k :| 0 <= k < |items[1..]| && !WellFormedEvent(items[1..][k]) && rest.value == EventProblem(items[1..][k])
                   && forall j :: 0 <= j < k ==> WellFormedEvent(items[1..][j]);
        assert forall j :: 0 <= j < k + 1 ==> WellFormedEvent(items[j]) by {
          forall j | 0 <= j < k + 1 ensures WellFormedEvent(items[j]) {
            if j > 0 { assert items[j] == items[1..][j - 1]; }
          }
        }
        rest
      else rest
  }

  /**
   * `load_recording` on the value read from the file. Nothing is returned unless every event
   * passes: a list that is not a list, or any bad event, fails the whole load.
   */
  function Load(v: Json): (r: LoadResult)
    ensures r.Loaded? <==> EventsPart(v).JArr? && forall i :: 0 <= i < |EventsPart(v).items| ==> WellFormedEvent(EventsPart(v).items[i])
    ensures r.Loaded? ==> r.events == EventsPart(v).items && r.config == ConfigPart(v)
    ensures !EventsPart(v).JArr? ==> r == LoadFailed("Error loading recording: Invalid file format: expected a list of events")
  {
    var events := EventsPart(v);
    if !events.JArr? then LoadFailed("Error loading recording: Invalid file format: expected a list of events")
    else
      match FirstProblem(events.items)
      case Some(m) => LoadFailed("Error loading recording: " + m)
      case None => Loaded(events.items, ConfigPart(v))
  }

  /**
   * Loading what was saved gives back the events, and the settings when they were non-empty
   * (otherwise the empty dict), provided every event has a type and a timestamp.
   */
  lemma SaveThenLoad(events: seq<Json>, config: Json)
    requires |events| > 0
    requires forall i :: 0 <= i < |events| ==> WellFormedEvent(events[i])
    ensures Save(JArr(events), config).Write?
    ensures Load(Save(JArr(events), config).data) == Loaded(events, if Truthy(config) then config else EmptyObject)
  {
  }

  /** An event without a timestamp anywhere in the list makes the whole load fail, whichever layout holds it. */
  lemma OneBadEventFailsLoad(v: Json, i: nat)
    requires EventsPart(v).JArr? && i < |EventsPart(v).items|
    requires !WellFormedEvent(EventsPart(v).items[i])
    ensures Load(v).LoadFailed?
  {
  }

  /** A legacy file, a bare list, loads with the empty settings. */
  lemma BareListLoadsWithEmptyConfig(items: seq<Json>)
    requires forall i :: 0 <= i < |items| ==> WellFormedEvent(items[i])
    ensures Load(JArr(items)) == Loaded(items, EmptyObject)
  {
  }
}

=== FILE: hotkey_manager.dfy ===
/**
 * The four global hotkeys (record, play, stop, spam): their bindings, the capture mode that
 * rebinds a slot to the next key pressed, dispatch of a press to the first matching slot, and
 * the name form the bindings are saved and loaded in.
 */
module HotkeyManager {
  import opened Wrappers
  import opened Strings
  import opened Keys
  import opened Json
  import opened Notices

  datatype Slot = RecordSlot | PlaySlot | StopSlot | SpamSlot

  /** The order in which a press is compared against the slots, and in which they are saved and loaded. */
  const SlotOrder: seq<Slot> := [RecordSlot, PlaySlot, StopSlot, SpamSlot]

  function SlotName(slot: Slot): string {
    match slot
    case RecordSlot => "record"
    case PlaySlot => "play"
    case StopSlot => "stop"
    case SpamSlot => "spam"
  }

  /** The slot a slot name selects; any other name selects none. */
  function SlotOfName(name: string): (r: Option<Slot>)
    ensures r.Some? ==> SlotName(r.value) == name
    ensures r.None? ==> forall slot: Slot :: SlotName(slot) != name
  {
    if name == "record" then Some(RecordSlot)
    else if name == "play" then Some(PlaySlot)
    else if name == "stop" then Some(StopSlot)
    else if name == "spam" then Some(SpamSlot)
    else None
  }

  /** The bindings, and the slot name being captured (`None` outside capture mode). */
  datatype Manager = Manager(record: RawKey, play: RawKey, stop: RawKey, spam: RawKey, capturing: Option<string>)

  /** F1 records, F2 plays, ESC stops, F3 spams; nothing is being captured. */
  const Initial := Manager(Named("f1"), Named("f2"), Named("esc"), Named("f3"), None)

  function Binding(m: Manager, slot: Slot): RawKey {
    match slot
    case RecordSlot => m.record
    case PlaySlot => m.play
    case StopSlot => m.stop
    case SpamSlot => m.spam
  }

  /** Rebinds one slot. */
  function Bind(m: Manager, slot: Slot, key: RawKey): (m': Manager)
    ensures Binding(m', slot) == key && m'.capturing == m.capturing
    ensures forall other :: other != slot ==> Binding(m', other) == Binding(m, other)
  {
    match slot
    case RecordSlot => m.(record := key)
    case PlaySlot => m.(play := key)
    case StopSlot => m.(stop := key)
    case SpamSlot => m.(spam := key)
  }

  /**
   * `get_key_name`: a `Key` member shows its upper-cased name; any other key shows its printed
   * form, with "Key." removed, upper-cased. A character key therefore keeps its quotes.
   */
  function KeyName(key: RawKey): (r: string)
    ensures key.Named? ==> r == Upper(key.name)
    ensures key.Char? && |key.c| == 1 ==> r == Upper("'" + key.c + "'")
  {
    if key.Named? then Upper(key.name)
    else
      var printed := Str(key);
      assert key.Char? && |key.c| == 1 ==> |printed| < 4 && ReplaceAll(printed, "Key.", "") == printed;
      Upper(ReplaceAll(printed, "Key.", ""))
  }

  /**
   * `parse_key_name`: the `Key` member whose upper-cased name is the upper-cased text, else a key
   * code for the lower-cased text. (Building a key code from a string does not fail, so the
   * fallback to F1 is never taken.)
   */
  function ParseKeyName(name: string): (k: RawKey)
    ensures k.Named? ==> k.name in KeyNames && Upper(k.name) == Upper(name)
    ensures k.Char? ==> k == Char(Lower(name), None) && forall n :: n in KeyNames ==> Upper(n) != Upper(name)
  {
    match LookupKeyName(Upper(name))
    case Some(n) => Named(n)
    case None => Char(Lower(name), None)
  }

  /** Every `Key` member survives being written as its name and read back, in any letter case. */
  lemma NamedKeyRoundTrip(n: string)
    requires n in KeyNames
    ensures ParseKeyName(KeyName(Named(n))) == Named(n)
    ensures ParseKeyName(Lower(KeyName(Named(n)))) == Named(n)
  {
    UpperOfUpper(n);
    LookupUpperOfKeyName(n);
    KeyNameShape(n);
    LowerOfUpper(n);
    LowerOfIdent(n);
    assert Lower(Upper(n)) == n;
    LookupUpperOfKeyName(n);
  }

  lemma UpperOfUpper(s: string)
    ensures Upper(Upper(s)) == Upper(s)
  {
  }

  lemma LowerOfIdent(s: string)
    requires IsLowerIdent(s)
    ensures Lower(s) == s
  {
  }

  /** `start_capture`: the next press will be bound to the named slot. */
  function StartCapture(m: Manager, slotName: string): (r: (Manager, Notice))
    ensures r.0 == m.(capturing := Some(slotName))
    ensures r.1 == Notice("Press a key to set as hotkey...", "blue")
  {
    (m.(capturing := Some(slotName)), Notice("Press a key to set as hotkey...", "blue"))
  }

  /** What a call reports back: the captured slot and key (the capture callback), and the status lines. */
  datatype Capture = Capture(manager: Manager, captured: Option<(string, RawKey)>, notices: seq<Notice>)

  /** `set_hotkey`: binds the key when the slot name is known, and always leaves capture mode. */
  function SetHotkey(m: Manager, key: RawKey, slotName: string): (c: Capture)
    ensures c.manager.capturing.None?
    ensures SlotOfName(slotName).Some? ==> Binding(c.manager, SlotOfName(slotName).value) == key
    ensures forall slot :: SlotName(slot) != slotName ==> Binding(c.manager, slot) == Binding(m, slot)
    ensures c.captured == Some((slotName, key))
    ensures c.notices == [Notice("Hotkey updated to " + KeyName(key), "green")]
  {
    var m1 := match SlotOfName(slotName)
      case Some(slot) => Bind(m, slot, key)
      case None => m;
    Capture(m1.(capturing := None), Some((slotName, key)), [Notice("Hotkey updated to " + KeyName(key), "green")])
  }

  /** The first slot, in dispatch order, whose binding equals the key. */
  function FirstMatch(m: Manager, key: RawKey): (r: Option<Slot>)
    ensures r.Some? ==> RawEq(key, Binding(m, r.value))
    ensures r.Some? ==> forall i :: 0 <= i < |SlotOrder| && SlotOrder[i] == r.value ==>
      forall j :: 0 <= j < i ==> !RawEq(key, Binding(m, SlotOrder[j]))
    ensures r.None? <==> forall slot :: !RawEq(key, Binding(m, slot))
  {
    if RawEq(key, m.record) then Some(RecordSlot)
    else if RawEq(key, m.play) then Some(PlaySlot)
    else if RawEq(key, m.stop) then Some(StopSlot)
    else if RawEq(key, m.spam) then Some(SpamSlot)
    else None
  }

  datatype Dispatch = Dispatch(manager: Manager, fired: Option<Slot>, captured: Option<(string, RawKey)>, notices: seq<Notice>)

  /** Capture mode is on when a non-empty slot name is being captured (an empty name is false in Python). */
  predicate Capturing(m: Manager) {
    m.capturing.Some? && m.capturing.value != ""
  }

  /**
   * The listener's `on_press`: in capture mode the key becomes the captured slot's binding and no
   * action fires; otherwise the first matching slot's action fires, if any.
   */
  function OnPress(m: Manager, key: RawKey): (d: Dispatch)
    ensures Capturing(m) ==> d.fired.None? && d.manager.capturing.None? && d.captured == Some((m.capturing.value, key))
    ensures Capturing(m) && SlotOfName(m.capturing.value).Some? ==>
      Binding(d.manager, SlotOfName(m.capturing.value).value) == key
    ensures !Capturing(m) ==> d.manager == m && d.captured.None? && d.notices == [] && d.fired == FirstMatch(m, key)
  {
    if Capturing(m) then
      var c := SetHotkey(m, key, m.capturing.value);
      Dispatch(c.manager, None, c.captured, c.notices)
    else Dispatch(m, FirstMatch(m, key), None, [])
  }

  /** The default bindings fire their own actions: F1 records, F2 plays, ESC stops, F3 spams. */
  lemma DefaultDispatch()
    ensures OnPress(Initial, Named("f1")).fired == Some(RecordSlot)
    ensures OnPress(Initial, Named("f2")).fired == Some(PlaySlot)
    ensures OnPress(Initial, Named("esc")).fired == Some(StopSlot)
    ensures OnPress(Initial, Named("f3")).fired == Some(SpamSlot)
    ensures OnPress(Initial, Char("r", Some(82))).fired.None?
  {
  }

  /** A key bound to two slots fires only the earlier one. */
  lemma SharedBindingFiresFirst(m: Manager, key: RawKey)
    requires !Capturing(m) && m.play == key && m.stop == key && !RawEq(key, m.record)
    ensures OnPress(m, key).fired == Some(PlaySlot)
  {
    RawEqSymmetricReflexive(key, key);
  }

  /** Binding is by the library's equality, which is case-sensitive: a slot captured as 'R' ignores 'r'. */
  lemma CaptureIsCaseSensitive(vk: Option<int>)
    ensures var m := OnPress(Initial.(capturing := Some("record")), Char("R", vk)).manager;
      OnPress(m, Char("r", vk)).fired.None?
  {
  }

  /** `get_hotkeys`: each slot's binding under its name, in the form `get_key_name` writes. */
  function GetHotkeys(m: Manager): (r: map<string, string>)
    ensures r.Keys == {"record", "play", "stop", "spam"}
    ensures forall slot :: r[SlotName(slot)] == KeyName(Binding(m, slot))
  {
    map["record" := KeyName(m.record), "play" := KeyName(m.play), "stop" := KeyName(m.stop), "spam" := KeyName(m.spam)]
  }

  /** `get_ignored_keys`: the four bindings in slot order. */
  function GetIgnoredKeys(m: Manager): (r: seq<RawKey>)
    ensures |r| == |SlotOrder| && forall i :: 0 <= i < |SlotOrder| ==> r[i] == Binding(m, SlotOrder[i])
  {
    [m.record, m.play, m.stop, m.spam]
  }

  /** Whether reading a slot from the loaded value raises: `in` on a value that does not support it, or a present slot that is not a string in a dict. */
  predicate SlotRaises(d: Json, slot: Slot) {
    match In(SlotName(slot), d)
    case None => true
    case Some(present) => present && !(d.JObj? && d.fields[SlotName(slot)].JStr?)
  }

  /** A slot the loaded dict names, with a string value. */
  predicate Given(d: Json, slot: Slot) {
    d.JObj? && SlotName(slot) in d.fields && d.fields[SlotName(slot)].JStr?
  }

  /** One slot of `set_hotkeys`: rebind it when the dict names it; `true` when reading it raised. */
  function SetSlot(m: Manager, d: Json, slot: Slot): (r: (Manager, bool))
    ensures r.1 <==> SlotRaises(d, slot)
    ensures r.1 ==> r.0 == m
    ensures !r.1 && Given(d, slot) ==> r.0 == Bind(m, slot, ParseKeyName(d.fields[SlotName(slot)].s))
    ensures !r.1 && !Given(d, slot) ==> r.0 == m
  {
    match In(SlotName(slot), d)
    case None => (m, true)
    case Some(present) =>
      if !present then (m, false)
      else if d.JObj? && d.fields[SlotName(slot)].JStr? then (Bind(m, slot, ParseKeyName(d.fields[SlotName(slot)].s)), false)
      else (m, true)
  }

  /**
   * The slots of `set_hotkeys` from `slots` on, in order; stops at the first that raises, keeping
   * the slots rebound before it.
   */
  function SetSlots(m: Manager, d: Json, slots: seq<Slot>): (r: (Manager, bool))
    ensures r.1 <==> exists slot :: slot in slots && SlotRaises(d, slot)
    ensures r.0.capturing == m.capturing
    ensures forall slot :: slot !in slots ==> Binding(r.0, slot) == Binding(m, slot)
    ensures !r.1 ==> forall slot :: slot in slots && Given(d, slot) ==>
      Binding(r.0, slot) == ParseKeyName(d.fields[SlotName(slot)].s)
    ensures !r.1 ==> forall slot :: slot in slots && !Given(d, slot) ==> Binding(r.0, slot) == Binding(m, slot)
    decreases |slots|
  {
    if |slots| == 0 then (m, false)
    else
      var (m1, raised) := SetSlot(m, d, slots[0]);
      if raised then (m1, true)
      else
        var r := SetSlots(m1, d, slots[1..]);
        assert forall i :: 1 <= i < |slots| ==> slots[i] == slots[1..][i - 1];
        assert forall slot :: slot in slots && slot != slots[0] ==> slot in slots[1..];
        r
  }

  /** `set_hotkeys`: record, play, stop, spam in that order. */
  function SetHotkeys(m: Manager, d: Json): (r: (Manager, bool))
    ensures r.1 <==> exists slot :: SlotRaises(d, slot)
    ensures !r.1 ==> forall slot :: Binding(r.0, slot) == (if Given(d, slot) then ParseKeyName(d.fields[SlotName(slot)].s) else Binding(m, slot))
    ensures r.0.capturing == m.capturing
  {
    AllSlotsOrdered();
    SetSlots(m, d, SlotOrder)
  }

  /** `set_hotkeys` visits every slot: the order lists all four. */
  lemma AllSlotsOrdered()
    ensures forall slot :: slot in SlotOrder
  {
    forall slot ensures slot in SlotOrder {
      match slot
      case RecordSlot => assert SlotOrder[0] == slot;
      case PlaySlot => assert SlotOrder[1] == slot;
      case StopSlot => assert SlotOrder[2] == slot;
      case SpamSlot => assert SlotOrder[3] == slot;
    }
  }

  /** A dict naming only some slots rebinds exactly those. */
  lemma SetHotkeysOnlyNamedSlots(m: Manager, key: string)
    ensures var r := SetHotkeys(m, JObj(map["play" := JStr(key)]));
      !r.1 && r.0 == m.(play := ParseKeyName(key))
  {
    var d := JObj(map["play" := JStr(key)]);
    var r := SetHotkeys(m, d);
    assert !SlotRaises(d, RecordSlot) && !SlotRaises(d, StopSlot) && !SlotRaises(d, SpamSlot);
    assert Given(d, PlaySlot) && !Given(d, RecordSlot) && !Given(d, StopSlot) && !Given(d, SpamSlot);
    assert Binding(r.0, RecordSlot) == m.record;
    assert Binding(r.0, StopSlot) == m.stop;
    assert Binding(r.0, SpamSlot) == m.spam;
    assert Binding(r.0, PlaySlot) == ParseKeyName(key);
  }

  /**
   * When slot `k` of the order is the first whose value cannot be read, loading rebinds the slots
   * before it as they are named, leaves that slot and the ones after it as they were, and raises.
   */
  lemma SetHotkeysStopsAtBadValue(m: Manager, d: Json, k: nat)
    requires k < |SlotOrder| && SlotRaises(d, SlotOrder[k])
    requires forall i :: 0 <= i < k ==> !SlotRaises(d, SlotOrder[i])
    ensures SetHotkeys(m, d) == (SetSlots(m, d, SlotOrder[..k]).0, true)
    ensures forall i :: 0 <= i < k && Given(d, SlotOrder[i]) ==>
      Binding(SetHotkeys(m, d).0, SlotOrder[i]) == ParseKeyName(d.fields[SlotName(SlotOrder[i])].s)
    ensures forall i :: 0 <= i < k && !Given(d, SlotOrder[i]) ==>
      Binding(SetHotkeys(m, d).0, SlotOrder[i]) == Binding(m, SlotOrder[i])
    ensures forall i :: k <= i < |SlotOrder| ==>
      Binding(SetHotkeys(m, d).0, SlotOrder[i]) == Binding(m, SlotOrder[i])
  {
    SetSlotsStopsAt(m, d, SlotOrder, k);
    SlotsBefore(k);
    assert forall slot :: slot in SlotOrder[..k] ==> !SlotRaises(d, slot);
  }

  /** The first `k` slots of the order hold exactly the slots at positions below `k`. */
  lemma SlotsBefore(k: nat)
    requires k <= |SlotOrder|
    ensures forall i :: 0 <= i < k ==> SlotOrder[i] in SlotOrder[..k]
    ensures forall i :: k <= i < |SlotOrder| ==> SlotOrder[i] !in SlotOrder[..k]
  {
    if k == 0 {
      assert SlotOrder[..k] == [];
    } else if k == 1 {
      assert SlotOrder[..k] == [RecordSlot];
    } else if k == 2 {
      assert SlotOrder[..k] == [RecordSlot, PlaySlot];
    } else if k == 3 {
      assert SlotOrder[..k] == [RecordSlot, PlaySlot, StopSlot];
    } else {
      assert SlotOrder[..k] == SlotOrder;
    }
  }

  /** `SetSlots` stops at the first slot that raises, with the slots before it applied. */
  lemma {:induction false} SetSlotsStopsAt(m: Manager, d: Json, slots: seq<Slot>, k: nat)
    requires k < |slots| && SlotRaises(d, slots[k])
    requires forall i :: 0 <= i < k ==> !SlotRaises(d, slots[i])
    ensures SetSlots(m, d, slots) == (SetSlots(m, d, slots[..k]).0, true)
    decreases k
  {
    if k > 0 {
      var m1 := SetSlot(m, d, slots[0]).0;
      SetSlotsStopsAt(m1, d, slots[1..], k - 1);
      SetSlotsStopsAtStep(m, d, slots, k);
    } else {
      SetSlotsUnfold(m, d, slots);
    }
  }

  /** The step of `SetSlotsStopsAt`: a first slot that does not raise is applied and dropped on both sides. */
  lemma SetSlotsStopsAtStep(m: Manager, d: Json, slots: seq<Slot>, k: nat)
    requires 0 < k < |slots| && !SlotRaises(d, slots[0])
    requires var m1 := SetSlot(m, d, slots[0]).0;
      SetSlots(m1, d, slots[1..]) == (SetSlots(m1, d, slots[1..][..k - 1]).0, true)
    ensures SetSlots(m, d, slots) == (SetSlots(m, d, slots[..k]).0, true)
  {
    SetSlotsUnfold(m, d, slots);
    var before := slots[..k];
    assert before[0] == slots[0] && before[1..] == slots[1..][..k - 1];
    SetSlotsUnfold(m, d, before);
  }

  lemma SetSlotsUnfold(m: Manager, d: Json, slots: seq<Slot>)
    requires |slots| > 0
    ensures var (m1, raised) := SetSlot(m, d, slots[0]);
      SetSlots(m, d, slots) == if raised then (m1, true) else SetSlots(m1, d, slots[1..])
  { }

  /** The dict of names as it comes back from the file: every value a string. */
  function SavedDict(saved: map<string, string>): (d: Json)
    ensures d.JObj? && d.fields.Keys == saved.Keys
    ensures forall s :: s in saved ==> d.fields[s] == JStr(saved[s])
  {
    JObj(map s | s in saved :: JStr(saved[s]))
  }

  /** Bindings saved as names and loaded back: every member key comes back as itself. */
  lemma NamedBindingsSurviveReload(m: Manager, m0: Manager)
    requires forall slot :: Binding(m, slot).Named? && Binding(m, slot).name in KeyNames
    ensures var r := SetHotkeys(m0, SavedDict(GetHotkeys(m)));
      !r.1 && forall slot :: Binding(r.0, slot) == Binding(m, slot)
  {
    var saved := GetHotkeys(m);
    var d := SavedDict(saved);
    forall slot ensures Given(d, slot) && ParseKeyName(d.fields[SlotName(slot)].s) == Binding(m, slot) {
      assert d.fields[SlotName(slot)] == JStr(KeyName(Binding(m, slot)));
      NamedKeyRoundTrip(Binding(m, slot).name);
    }
    LoadAllGiven(m0, d);
  }

  /** A dict giving a string for every slot rebinds every slot to its parsed name. */
  lemma LoadAllGiven(m: Manager, d: Json)
    requires forall slot :: Given(d, slot)
    ensures !SetHotkeys(m, d).1
    ensures forall slot :: Binding(SetHotkeys(m, d).0, slot) == ParseKeyName(d.fields[SlotName(slot)].s)
  {
    forall slot ensures !SlotRaises(d, slot) {
      assert Given(d, slot);
    }
  }

  /**
   * As written, a character hotkey is saved with its quotes ("'A'") and loaded back as a key code
   * for the three-character text "'a'", which no key press equals: the binding is lost.
   */
  lemma CharBindingLostOnReload(ch: char, vk: Option<int>, pressed: RawKey)
    requires IsLowerLetter(ch)
    ensures KeyName(Char([ch], vk)) == ['\'', UpperChar(ch), '\'']
    ensures ParseKeyName(KeyName(Char([ch], vk))) == Char(['\'', ch, '\''], None)
    ensures pressed.Char? && |pressed.c| == 1 ==> !RawEq(pressed, ParseKeyName(KeyName(Char([ch], vk))))
  {
    var name := KeyName(Char([ch], vk));
    assert name == Upper("'" + [ch] + "'");
    assert name == ['\'', UpperChar(ch), '\''];
    QuotedIsNoMember(name);
    assert Lower(name) == ['\'', LowerChar(UpperChar(ch)), '\''];
    LowerOfUpperChar(ch);
  }

  lemma QuotedIsNoMember(name: string)
    requires |name| > 0 && name[0] == '\''
    ensures LookupKeyName(Upper(name)).None?
  {
    forall n | n in KeyNames ensures Upper(n) != Upper(name) {
      KeyNameShape(n);
      assert Upper(n)[0] != Upper(name)[0];
    }
  }

  /**
   * The name a binding is evidently meant to be saved under: as `get_key_name`, but a character
   * key shows its character, upper-cased, without quotes.
   */
  function DisplayKeyName(key: RawKey): (r: string)
    ensures key.Char? ==> r == Upper(key.c)
    ensures !key.Char? ==> r == KeyName(key)
  {
    if key.Char? then Upper(key.c) else KeyName(key)
  }

  /** With the corrected name, a letter or digit hotkey survives reload and still fires for its key. */
  lemma CharBindingSurvivesReload(ch: char, vk: Option<int>, vk': Option<int>)
    requires IsLowerLetter(ch) || IsDigit(ch)
    ensures DisplayKeyName(Char([ch], vk)) == [UpperChar(ch)]
    ensures ParseKeyName(DisplayKeyName(Char([ch], vk))) == Char([ch], None)
    ensures RawEq(Char([ch], vk'), ParseKeyName(DisplayKeyName(Char([ch], vk))))
  {
    var name := DisplayKeyName(Char([ch], vk));
    assert name == [UpperChar(ch)];
    NoSingleCharKeyName(Upper(name));
    LowerOfUpperChar(ch);
    assert Lower(name) == [LowerChar(UpperChar(ch))];
  }

  /** `get_hotkeys` with the corrected name. */
  function GetHotkeysCorrected(m: Manager): (r: map<string, string>)
    ensures r.Keys == {"record", "play", "stop", "spam"}
    ensures forall slot :: r[SlotName(slot)] == DisplayKeyName(Binding(m, slot))
  {
    map["record" := DisplayKeyName(m.record), "play" := DisplayKeyName(m.play),
        "stop" := DisplayKeyName(m.stop), "spam" := DisplayKeyName(m.spam)]
  }

  /**
   * With the corrected names, bindings that are member keys or lower-case letters and digits all
   * come back from a save and reload: members as themselves, characters as key codes for the same
   * character.
   */
  lemma BindingsSurviveReloadCorrected(m: Manager, m0: Manager)
    requires forall slot :: ReloadableKey(Binding(m, slot))
    ensures var r := SetHotkeys(m0, SavedDict(GetHotkeysCorrected(m)));
      !r.1 && forall slot :: ReloadsAs(Binding(m, slot), Binding(r.0, slot))
  {
    var saved := GetHotkeysCorrected(m);
    var d := SavedDict(saved);
    forall slot ensures Given(d, slot) && ReloadsAs(Binding(m, slot), ParseKeyName(d.fields[SlotName(slot)].s)) {
      assert d.fields[SlotName(slot)] == JStr(DisplayKeyName(Binding(m, slot)));
      ReloadSlot(Binding(m, slot));
    }
    LoadAllGiven(m0, d);
  }

  lemma ReloadSlot(k: RawKey)
    requires ReloadableKey(k)
    ensures ReloadsAs(k, ParseKeyName(DisplayKeyName(k)))
  {
    if k.Named? {
      NamedKeyRoundTrip(k.name);
    } else {
      CharBindingSurvivesReload(k.c[0], k.vk, None);
      assert k.c == [k.c[0]];
    }
  }

  /** A reloaded binding fires for exactly the character presses the original fired for. */
  lemma ReloadedFiresLikeOriginal(original: RawKey, reloaded: RawKey, key: RawKey)
    requires ReloadsAs(original, reloaded) && key.Char?
    ensures RawEq(key, reloaded) <==> RawEq(key, original)
  {
  }

  /** The bindings the corrected round trip covers: member keys, and character keys of one lower-case letter or digit. */
  predicate ReloadableKey(k: RawKey) {
    (k.Named? && k.name in KeyNames)
    || (k.Char? && |k.c| == 1 && (IsLowerLetter(k.c[0]) || IsDigit(k.c[0])))
  }

  /** A reloaded binding that is the same member key, or a key code for the same character. */
  predicate ReloadsAs(original: RawKey, reloaded: RawKey) {
    if original.Named? then reloaded == original else original.Char? && reloaded == Char(original.c, None)
  }
}

=== FILE: injection.dfy ===
/**
 * What playback does to the machine, as a log of actions: sleeps, countdown ticks, pointer moves,
 * presses and releases of mouse buttons and keys, and the bulk release that cleans up held input.
 * The pressed-input sets the players keep are checked against a reference fold over that log.
 */
module Injection {
  import opened Wrappers
  import opened Strings
  import opened Keys
  import opened Json

  /** A key as handed to the keyboard controller: a `Key` member by name, or a string. */
  datatype InjKey = NamedKey(name: string) | TextKey(text: string)

  datatype Action =
    | Sleep(seconds: real)
    | Countdown(remaining: real)
    | MoveTo(x: Json, y: Json)
    | ButtonDown(button: Button)
    | ButtonUp(button: Button)
    | KeyDown(key: InjKey)
    | KeyUp(key: InjKey)
    | Click(button: Button, count: int)
    | ReleaseAll(buttons: set<Button>, keys: set<InjKey>)
    | ErrorStatus
    | Complete

  /** The buttons and keys a player believes it is holding down. */
  datatype Pressed = Pressed(buttons: set<Button>, keys: set<InjKey>)

  const NothingPressed := Pressed({}, {})

  /** What one action physically does to the held input. */
  function Apply(p: Pressed, a: Action): Pressed {
    match a
    case ButtonDown(b) => p.(buttons := p.buttons + {b})
    case ButtonUp(b) => p.(buttons := p.buttons - {b})
    case KeyDown(k) => p.(keys := p.keys + {k})
    case KeyUp(k) => p.(keys := p.keys - {k})
    case ReleaseAll(bs, ks) => Pressed(p.buttons - bs, p.keys - ks)
    case _ => p
  }

  /** The reference: the input held after a log, starting from nothing held. */
  function Held(log: seq<Action>): Pressed
    decreases |log|
  {
    if |log| == 0 then NothingPressed else Apply(Held(log[..|log| - 1]), log[|log| - 1])
  }

  /** Every bulk release in the log releases exactly what was held at that point. */
  predicate ExactCleanup(log: seq<Action>) {
    forall i :: 0 <= i < |log| && log[i].ReleaseAll? ==>
      log[i].buttons == Held(log[..i]).buttons && log[i].keys == Held(log[..i]).keys
  }

  predicate ReleasesButton(a: Action, b: Button) {
    a == ButtonUp(b) || (a.ReleaseAll? && b in a.buttons)
  }

  predicate ReleasesKey(a: Action, k: InjKey) {
    a == KeyUp(k) || (a.ReleaseAll? && k in a.keys)
  }

  /** Every press in the log is followed, later in the log, by a release of the same input. */
  predicate EveryPressReleased(log: seq<Action>) {
    (forall i :: 0 <= i < |log| && log[i].ButtonDown? ==>
       exists j :: i < j < |log| && ReleasesButton(log[j], log[i].button))
    && (forall i :: 0 <= i < |log| && log[i].KeyDown? ==>
       exists j :: i < j < |log| && ReleasesKey(log[j], log[i].key))
  }

  /** When nothing is held at the end of a log, nothing pressed in it was left down. */
  lemma {:induction false} NothingHeldMeansEveryPressReleased(log: seq<Action>)
    requires Held(log) == NothingPressed
    ensures EveryPressReleased(log)
  {
    assert log[..|log|] == log;
    forall i | 0 <= i < |log| && log[i].ButtonDown?
      ensures exists j :: i < j < |log| && ReleasesButton(log[j], log[i].button)
    {
      if !exists j :: i < j < |log| && ReleasesButton(log[j], log[i].button) {
        UnreleasedButtonHeld(log, i, |log|);
      }
    }
    forall i | 0 <= i < |log| && log[i].KeyDown?
      ensures exists j :: i < j < |log| && ReleasesKey(log[j], log[i].key)
    {
      if !exists j :: i < j < |log| && ReleasesKey(log[j], log[i].key) {
        UnreleasedKeyHeld(log, i, |log|);
      }
    }
  }

  lemma {:induction false} UnreleasedButtonHeld(log: seq<Action>, i: nat, n: nat)
    requires i < n <= |log| && log[i].ButtonDown?
    requires forall j :: i < j < n ==> !ReleasesButton(log[j], log[i].button)
    ensures log[i].button in Held(log[..n]).buttons
    decreases n
  {
    assert log[..n][..n - 1] == log[..n - 1];
    if n - 1 > i {
      UnreleasedButtonHeld(log, i, n - 1);
    }
  }

  lemma {:induction false} UnreleasedKeyHeld(log: seq<Action>, i: nat, n: nat)
    requires i < n <= |log| && log[i].KeyDown?
    requires forall j :: i < j < n ==> !ReleasesKey(log[j], log[i].key)
    ensures log[i].key in Held(log[..n]).keys
    decreases n
  {
    assert log[..n][..n - 1] == log[..n - 1];
    if n - 1 > i {
      UnreleasedKeyHeld(log, i, n - 1);
    }
  }

  /** Appending one action extends the reference by that action and keeps earlier prefixes. */
  lemma HeldAppend(log: seq<Action>, a: Action)
    ensures Held(log + [a]) == Apply(Held(log), a)
    ensures forall i :: 0 <= i <= |log| ==> (log + [a])[..i] == log[..i]
  {
    assert (log + [a])[..|log|] == log;
  }

  /** The sleep schedule of a log: the durations of its sleeps, in order. */
  function Sleeps(log: seq<Action>): seq<real>
    decreases |log|
  {
    if |log| == 0 then []
    else Sleeps(log[..|log| - 1]) + (if log[|log| - 1].Sleep? then [log[|log| - 1].seconds] else [])
  }

  lemma {:induction false} SleepsAppend(a: seq<Action>, b: seq<Action>)
    ensures Sleeps(a + b) == Sleeps(a) + Sleeps(b)
    decreases |b|
  {
    if |b| > 0 {
      var b' := b[..|b| - 1];
      assert (a + b)[..|a + b| - 1] == a + b';
      SleepsAppend(a, b');
    } else {
      assert a + b == a;
    }
  }

  /** The actions that reach the mouse or keyboard themselves: moves, clicks, presses and releases. */
  predicate IsInput(a: Action) {
    a.MoveTo? || a.ButtonDown? || a.ButtonUp? || a.KeyDown? || a.KeyUp? || a.Click?
  }

  /** The injected input of a log, in order, without its sleeps, countdowns, bulk releases and signals. */
  function Inputs(log: seq<Action>): seq<Action>
    decreases |log|
  {
    if |log| == 0 then []
    else Inputs(log[..|log| - 1]) + (if IsInput(log[|log| - 1]) then [log[|log| - 1]] else [])
  }

  lemma {:induction false} InputsAppend(a: seq<Action>, b: seq<Action>)
    ensures Inputs(a + b) == Inputs(a) + Inputs(b)
    decreases |b|
  {
    if |b| > 0 {
      var b' := b[..|b| - 1];
      assert (a + b)[..|a + b| - 1] == a + b';
      InputsAppend(a, b');
    } else {
      assert a + b == a;
    }
  }

  lemma {:induction false} NoInputs(s: seq<Action>)
    requires forall i :: 0 <= i < |s| ==> !IsInput(s[i])
    ensures Inputs(s) == []
    decreases |s|
  {
    if |s| > 0 {
      NoInputs(s[..|s| - 1]);
    }
  }

  lemma {:induction false} OnlyInputs(s: seq<Action>)
    requires forall i :: 0 <= i < |s| ==> IsInput(s[i])
    ensures Inputs(s) == s
    decreases |s|
  {
    if |s| > 0 {
      OnlyInputs(s[..|s| - 1]);
    }
  }

  lemma {:induction false} NoSleeps(s: seq<Action>)
    requires forall i :: 0 <= i < |s| ==> !s[i].Sleep?
    ensures Sleeps(s) == []
    decreases |s|
  {
    if |s| > 0 {
      NoSleeps(s[..|s| - 1]);
    }
  }

  /** Appending an action keeps every bulk release exact when the new action, if a bulk release, is exact too. */
  lemma ExtendExact(log: seq<Action>, a: Action)
    requires ExactCleanup(log)
    requires a.ReleaseAll? ==> a.buttons == Held(log).buttons && a.keys == Held(log).keys
    ensures ExactCleanup(log + [a]) && Held(log + [a]) == Apply(Held(log), a)
  {
    HeldAppend(log, a);
  }

  /**
   * The injection controllers as the environment provides them: pressing or releasing a refused
   * button or key raises, everything else succeeds.
   */
  datatype Capability = Capability(refusedButtons: set<Button>, refusedKeys: set<InjKey>)

  const AcceptsAll := Capability({}, {})

  /**
   * The button a recorded button string stands for: the first of "left", "right", "middle" that
   * occurs in its lower-cased form, and the left button when none does.
   */
  function ResolveButton(buttonStr: string): (b: Button)
    ensures b in {Left, Right, Middle}
  {
    var lower := Lower(buttonStr);
    if Contains(lower, "left") then Left
    else if Contains(lower, "right") then Right
    else if Contains(lower, "middle") then Middle
    else Left
  }

  /**
   * The first of "left", "right", "middle" found in the lower-cased string decides the button, in
   * that order of precedence, and left is the fallback when none is found.
   */
  lemma ResolveButtonFirstMatch(buttonStr: string)
    ensures Contains(Lower(buttonStr), "left") ==> ResolveButton(buttonStr) == Left
    ensures ResolveButton(buttonStr) == Right <==> Contains(Lower(buttonStr), "right") && !Contains(Lower(buttonStr), "left")
    ensures ResolveButton(buttonStr) == Middle <==>
              Contains(Lower(buttonStr), "middle") && !Contains(Lower(buttonStr), "left")
              && !Contains(Lower(buttonStr), "right")
    ensures (!Contains(Lower(buttonStr), "left") && !Contains(Lower(buttonStr), "right")
             && !Contains(Lower(buttonStr), "middle")) ==> ResolveButton(buttonStr) == Left
  {
  }

  /** A button's own string resolves back to it, for the three buttons replay can produce. */
  lemma ResolveButtonOfStr(b: Button)
    requires b in {Left, Right, Middle}
    ensures ResolveButton(ButtonStr(b)) == b
  {
    match b
    case Left => ResolveLeft();
    case Right => ResolveRight();
    case Middle => ResolveMiddle();
  }

  lemma ResolveLeft()
    ensures ResolveButton(ButtonStr(Left)) == Left
  {
    assert Lower(ButtonStr(Left)) == "button.left";
    assert OccursAt("button.left", "left", 7);
  }

  lemma ResolveRight()
    ensures ResolveButton(ButtonStr(Right)) == Right
  {
    assert Lower(ButtonStr(Right)) == "button.right";
    NotContainedByFirstChar("button.right", "left");
    assert OccursAt("button.right", "right", 7);
  }

  lemma ResolveMiddle()
    ensures ResolveButton(ButtonStr(Middle)) == Middle
  {
    var s := "button.middle";
    assert Lower(ButtonStr(Middle)) == s;
    NotContainedByChar(s, "left", 2);
    NotContainedByFirstChar(s, "right");
    assert OccursAt(s, "middle", 7);
  }

  /** `getattr(Key, name, None)` for the members of `Key`. */
  function KeyMember(name: string): (r: Option<string>)
    ensures r.Some? <==> name in KeyNames
    ensures r.Some? ==> r.value == name
  {
    if name in KeyNames then Some(name) else None
  }
}

=== FILE: json.dfy ===
/**
 * JSON-shaped Python values: what `json.load` returns and what the recorders keep in their
 * event lists (plain dicts). Python's `int` and `float` stay distinct; floats are exact reals.
 */
module Json {
  import opened Wrappers
  import Strings

  datatype Json =
    | JNull
    | JBool(b: bool)
    | JInt(i: int)
    | JFloat(r: real)
    | JStr(s: string)
    | JArr(items: seq<Json>)
    | JObj(fields: map<string, Json>)

  const EmptyObject: Json := JObj(map[])

  /** Python truthiness (`if value:`). */
  predicate Truthy(v: Json) {
    match v
    case JNull => false
    case JBool(b) => b
    case JInt(i) => i != 0
    case JFloat(r) => r != 0.0
    case JStr(s) => s != ""
    case JArr(items) => |items| > 0
    case JObj(fields) => |fields| > 0
  }

  /** The value as an operand of `-`; `None` where Python raises a TypeError. `bool` counts as 0/1. */
  function Number(v: Json): Option<real> {
    match v
    case JBool(b) => Some(if b then 1.0 else 0.0)
    case JInt(i) => Some(i as real)
    case JFloat(r) => Some(r)
    case _ => None
  }

  /** `key in container`; `None` where Python raises a TypeError (null, booleans, numbers). */
  function In(key: string, container: Json): Option<bool> {
    match container
    case JObj(fields) => Some(key in fields)
    case JArr(items) => Some(JStr(key) in items)
    case JStr(s) => Some(Strings.Contains(s, key))
    case _ => None
  }

  /** A dict holding a key is non-empty, so Python counts it as true. */
  lemma DictWithKeyIsTruthy(v: Json, key: string)
    ensures HasField(v, key) ==> Truthy(v)
  {
    if HasField(v, key) {
      assert key in v.fields.Keys;
      assert |v.fields.Keys - {key}| + 1 == |v.fields.Keys|;
    }
  }

  /** A dict that has the given key. */
  predicate HasField(v: Json, key: string) {
    v.JObj? && key in v.fields
  }
}

=== FILE: key_utils.dfy ===
/**
 * Key identity: the classifier from a raw key observation to a normalised identity, a key name
 * and a display label, with the X11 keypad keysym table that tells numpad keys from their
 * main-keyboard twins, and the parser that turns a saved name or label back into an identity.
 */
module KeyUtils {
  import opened Wrappers
  import opened Strings
  import opened Keys

  /** One row of the keypad table: the key name and the label shown to the user. */
  datatype NumpadEntry = NumpadEntry(name: string, display: string)

  /** `X11_NUMPAD_KEYSYMS`: keypad keysym to (key name, label). */
  function X11NumpadKeysym(keysym: int): Option<NumpadEntry> {
    match keysym
    case 65437 => Some(NumpadEntry("num_5", "NUM 5"))
    case 65436 => Some(NumpadEntry("num_4", "NUM 4"))
    case 65438 => Some(NumpadEntry("num_6", "NUM 6"))
    case 65432 => Some(NumpadEntry("num_8", "NUM 8"))
    case 65433 => Some(NumpadEntry("num_2", "NUM 2"))
    case 65434 => Some(NumpadEntry("num_9", "NUM 9"))
    case 65435 => Some(NumpadEntry("num_3", "NUM 3"))
    case 65429 => Some(NumpadEntry("num_7", "NUM 7"))
    case 65430 => Some(NumpadEntry("num_1", "NUM 1"))
    case 65456 => Some(NumpadEntry("num_0", "NUM 0"))
    case 65439 => Some(NumpadEntry("num_decimal", "NUM ."))
    case 65451 => Some(NumpadEntry("num_add", "NUM +"))
    case 65453 => Some(NumpadEntry("num_subtract", "NUM -"))
    case 65450 => Some(NumpadEntry("num_multiply", "NUM *"))
    case 65455 => Some(NumpadEntry("num_divide", "NUM /"))
    case 65421 => Some(NumpadEntry("num_enter", "NUM ENTER"))
    case _ => None
  }

  /** `NUMPAD_NAME_TO_KEYSYM`: the table read backwards, key name to keysym. */
  function NumpadNameToKeysym(name: string): Option<int> {
    match name
    case "num_5" => Some(65437)
    case "num_4" => Some(65436)
    case "num_6" => Some(65438)
    case "num_8" => Some(65432)
    case "num_2" => Some(65433)
    case "num_9" => Some(65434)
    case "num_3" => Some(65435)
    case "num_7" => Some(65429)
    case "num_1" => Some(65430)
    case "num_0" => Some(65456)
    case "num_decimal" => Some(65439)
    case "num_add" => Some(65451)
    case "num_subtract" => Some(65453)
    case "num_multiply" => Some(65450)
    case "num_divide" => Some(65455)
    case "num_enter" => Some(65421)
    case _ => None
  }

  /** The keysyms of the table, in the order the table lists them. */
  const NumpadKeysyms: seq<int> :=
    [65437, 65436, 65438, 65432, 65433, 65434, 65435, 65429,
     65430, 65456, 65439, 65451, 65453, 65450, 65455, 65421]

  /** The table has exactly sixteen rows, one per listed keysym, and no keysym is listed twice. */
  lemma NumpadTableRows()
    ensures |NumpadKeysyms| == 16
    ensures forall i, j :: 0 <= i < j < |NumpadKeysyms| ==> NumpadKeysyms[i] != NumpadKeysyms[j]
    ensures forall k :: X11NumpadKeysym(k).Some? <==> k in NumpadKeysyms
  {
  }

  /** The reverse map undoes the table: the name of keysym `k` maps back to `k`. */
  lemma NumpadNameOfKeysym(k: int)
    requires X11NumpadKeysym(k).Some?
    ensures NumpadNameToKeysym(X11NumpadKeysym(k).value.name) == Some(k)
  {
  }

  /** Every name the reverse map knows is the name of the row it points at, so no two rows share a name. */
  lemma NumpadKeysymOfName(name: string)
    requires NumpadNameToKeysym(name).Some?
    ensures X11NumpadKeysym(NumpadNameToKeysym(name).value).Some?
    ensures X11NumpadKeysym(NumpadNameToKeysym(name).value).value.name == name
  {
  }

  lemma NumpadNamesDistinct(k1: int, k2: int)
    requires X11NumpadKeysym(k1).Some? && X11NumpadKeysym(k2).Some?
    requires X11NumpadKeysym(k1).value.name == X11NumpadKeysym(k2).value.name
    ensures k1 == k2
  {
    NumpadNameOfKeysym(k1);
    NumpadNameOfKeysym(k2);
  }

  /**
   * A normalised key identity, the tuple `KeyInfo.normalized_key` holds: ('numpad', keysym),
   * ('keysym', keysym), ('special', Key member), ('char', c), ('numpad_char', c) or ('unknown', text).
   */
  datatype KeyId =
    | NumpadId(keysym: int)
    | KeysymId(code: int)
    | SpecialId(name: string)
    | CharId(c: string)
    | NumpadCharId(c: string)
    | UnknownId(text: string)

  /** `KeyInfo`: the analysed form of one key observation. */
  datatype KeyInfo = KeyInfo(original: RawKey, isNumpad: bool, keyName: string, displayName: string, normalized: KeyId)

  function NumpadInfo(key: RawKey, keyName: string, displayName: string, id: KeyId): KeyInfo {
    KeyInfo(key, true, keyName, displayName, id)
  }

  /**
   * `KeyInfo(key)`: keypad keysyms by the table, unknown keysyms by number, named keys by their
   * upper-cased name, characters without a virtual-key code that the keypad test accepts as keypad
   * characters, and every other character folded to lower case.
   */
  function AnalyzeKey(key: RawKey): (r: KeyInfo)
    ensures r.original == key
    ensures r.isNumpad <==> r.normalized.NumpadId? || r.normalized.NumpadCharId?
    ensures r.normalized.NumpadId? ==> X11NumpadKeysym(r.normalized.keysym) == Some(NumpadEntry(r.keyName, r.displayName))
    ensures r.normalized.SpecialId? ==> key == Named(r.normalized.name) && r.keyName == r.displayName == Upper(key.name)
    ensures r.normalized.CharId? ==> key.Char? && r.keyName == r.normalized.c == Lower(key.c) && r.displayName == Upper(key.c)
    ensures r.normalized.NumpadCharId? ==> key.Char? && key.vk.None? && IsNumpadCharValue(r.normalized.c)
    // From each kind of input to the identity it gets.
    ensures key.Keysym? && X11NumpadKeysym(key.code).Some? ==> r.normalized == NumpadId(key.code)
    ensures key.Keysym? && X11NumpadKeysym(key.code).None? ==>
      r.normalized == KeysymId(key.code) && !r.isNumpad && r.keyName == Str(key)
      && r.displayName == "KEY " + IntToString(key.code)
    ensures key.Named? ==> r.normalized == SpecialId(key.name) && !r.isNumpad
    ensures key.Char? && key.vk.None? && KeypadCharInfo(key, key.c).Some? ==> r == KeypadCharInfo(key, key.c).value
    ensures key.Char? && (key.vk.Some? || KeypadCharInfo(key, key.c).None?) ==>
      r.normalized == CharId(Lower(key.c)) && !r.isNumpad && r.displayName == Upper(key.c)
    ensures key.Other? ==> r.normalized == UnknownId(key.text) && !r.isNumpad && r.keyName == r.displayName == key.text
  {
    match key
    case Keysym(code) =>
      (match X11NumpadKeysym(code)
       case Some(e) => NumpadInfo(key, e.name, e.display, NumpadId(code))
       case None => KeyInfo(key, false, Str(key), "KEY " + IntToString(code), KeysymId(code)))
    case Named(name) => KeyInfo(key, false, Upper(name), Upper(name), SpecialId(name))
    case Char(c, vk) =>
      if vk.None? && KeypadCharInfo(key, c).Some? then KeypadCharInfo(key, c).value
      else KeyInfo(key, false, Lower(c), Upper(c), CharId(Lower(c)))
    case Other(text) => KeyInfo(key, false, text, text, UnknownId(text))
  }

  /**
   * The keypad reading of a character key without a virtual-key code: digits, the four operators
   * and the decimal separator ("." or ","); `None` for any other character.
   */
  function KeypadCharInfo(key: RawKey, c: string): (r: Option<KeyInfo>)
    ensures r.Some? <==> Contains("0123456789", c) || Contains("+", c) || c in {"-", "*", "/"} || Contains(".,", c)
    ensures r.Some? ==> r.value.original == key && r.value.isNumpad && r.value.normalized.NumpadCharId?
    ensures r.Some? ==> IsNumpadCharValue(r.value.normalized.c)
    ensures Contains("0123456789", c) ==> r == Some(NumpadInfo(key, "num_" + c, "NUM " + c, NumpadCharId(c)))
    ensures c in {"+", "-", "*", "/"} ==> r.Some? && r.value.normalized == NumpadCharId(c)
    ensures c in {".", ",", ".,"} ==> r == Some(NumpadInfo(key, "num_decimal", "NUM " + c, NumpadCharId("decimal")))
  {
    SymbolsAreNotDigits(c);
    if Contains("0123456789", c) then Some(NumpadInfo(key, "num_" + c, "NUM " + c, NumpadCharId(c)))
    else if Contains("+", c) then Some(NumpadInfo(key, "num_add", "NUM +", NumpadCharId("+")))
    else if c == "-" then Some(NumpadInfo(key, "num_subtract", "NUM -", NumpadCharId("-")))
    else if c == "*" then Some(NumpadInfo(key, "num_multiply", "NUM *", NumpadCharId("*")))
    else if c == "/" then Some(NumpadInfo(key, "num_divide", "NUM /", NumpadCharId("/")))
    else if Contains(".,", c) then Some(NumpadInfo(key, "num_decimal", "NUM " + c, NumpadCharId("decimal")))
    else None
  }

  /** The operator and decimal spellings are neither digit runs nor "+", and the decimal ones are in ".,". */
  lemma SymbolsAreNotDigits(c: string)
    ensures c in {"+", "-", "*", "/", ".", ",", ".,"} ==> !Contains("0123456789", c)
    ensures c in {"-", "*", "/", ".", ",", ".,"} ==> !Contains("+", c)
    ensures c == "+" ==> Contains("+", c)
    ensures c in {".", ",", ".,"} ==> Contains(".,", c)
  {
    if c in {"+", "-", "*", "/", ".", ",", ".,"} {
      NotContainedByFirstChar("0123456789", c);
      if c != "+" { NotContainedByFirstChar("+", c); }
      if c == "+" { assert OccursAt("+", c, 0); }
      if c == "," { assert OccursAt(".,", c, 1); } else if c in {".", ".,"} { assert OccursAt(".,", c, 0); }
    }
  }

  /** The values a ('numpad_char', c) identity can carry: a run of digits, an operator, or "decimal". */
  predicate IsNumpadCharValue(c: string) {
    Contains("0123456789", c) || c in {"+", "-", "*", "/", "decimal"}
  }

  /** `KeyInfo.__eq__`: two analysed keys are equal exactly when their identities are. */
  predicate InfoEq(a: KeyInfo, b: KeyInfo) {
    a.normalized == b.normalized
  }

  /** `keys_match` on two raw keys. */
  predicate KeysMatch(a: RawKey, b: RawKey) {
    InfoEq(AnalyzeKey(a), AnalyzeKey(b))
  }

  /**
   * `keys_match` by kind of key: bare key codes match by code, `Key` members by member, and
   * main-keyboard characters by their lower-cased text; a member never matches a character.
   */
  lemma KeysMatchByKind(a: RawKey, b: RawKey)
    ensures a.Keysym? && b.Keysym? ==> (KeysMatch(a, b) <==> a.code == b.code)
    ensures a.Named? && b.Named? ==> (KeysMatch(a, b) <==> a.name == b.name)
    ensures a.Char? && b.Char? && a.vk.Some? && b.vk.Some? ==> (KeysMatch(a, b) <==> Lower(a.c) == Lower(b.c))
    ensures a.Named? && b.Char? ==> !KeysMatch(a, b)
  {
  }

  /** The keypad decimal key matches whichever separator it types, and not the main-keyboard full stop. */
  lemma DecimalSeparatorsMatch(vk: int)
    ensures KeysMatch(Char(".", None), Char(",", None))
    ensures !KeysMatch(Char(".", None), Char(".", Some(vk)))
  {
  }

  /** Plain characters are case-folded: a character matches its upper- and lower-case forms. */
  lemma CharKeysMatchAcrossCase(c: string, vk: Option<int>)
    requires vk.Some?
    ensures KeysMatch(Char(c, vk), Char(Upper(c), vk))
    ensures KeysMatch(Char(c, vk), Char(Lower(c), vk))
  {
    LowerOfUpper(c);
    LowerOfLower(c);
  }

  /** A numpad digit and the same digit on the main keyboard are different keys. */
  lemma NumpadDigitIsNotMainDigit(d: char, vk: int)
    requires IsDigit(d)
    ensures !KeysMatch(Char([d], None), Char([d], Some(vk)))
  {
    assert Contains("0123456789", [d]) by { DigitInDigits(d); }
  }

  /** A keypad keysym and the keypad character it stands for are different identities. */
  lemma KeypadKeysymIsNotKeypadChar(k: int, c: string)
    ensures !KeysMatch(Keysym(k), Char(c, None))
  {
  }

  lemma LowerOfLower(s: string)
    ensures Lower(Lower(s)) == Lower(s)
  {
  }

  lemma DigitInDigits(d: char)
    requires IsDigit(d)
    ensures Contains("0123456789", [d])
  {
    assert OccursAt("0123456789", [d], d as int - '0' as int);
  }

  /**
   * `parse_key_name`: strips surrounding quotes, then tries keypad names and "NUM x" labels,
   * then `Key` member names (case-insensitively), then single characters (folded to lower case),
   * and falls back to ('unknown', name).
   */
  function ParseKeyName(keyName: string): KeyId {
    var clean := StripQuotes(keyName);
    match ParseNumpadForm(keyName, clean)
    case Some(id) => id
    case None => ParsePlainName(keyName, clean)
  }

  /** The keypad block of `parse_key_name`, entered for names starting "num_" or "NUM " (any case). */
  function ParseNumpadForm(keyName: string, clean: string): Option<KeyId> {
    var upper := Upper(clean);
    if !(StartsWith(clean, "num_") || StartsWith(upper, "NUM ")) then None
    else if NumpadNameToKeysym(clean).Some? then Some(NumpadId(NumpadNameToKeysym(clean).value))
    else
      var suffix := if StartsWith(clean, "num_") then Drop(clean, 4) else Drop(keyName, 4);
      if StartsWith(upper, "NUM ") && ParseNumSuffix(suffix).Some? then ParseNumSuffix(suffix)
      else if NumpadNameToKeysym(Lower(clean)).Some? then Some(NumpadId(NumpadNameToKeysym(Lower(clean)).value))
      else None
  }

  /** The rest of `parse_key_name`: `Key` members by upper-cased name, single characters, and the fallback. */
  function ParsePlainName(keyName: string, clean: string): KeyId {
    var upper := Upper(clean);
    if LookupKeyName(upper).Some? then SpecialId(LookupKeyName(upper).value)
    else if |clean| == 1 then CharId(Lower(clean))
    else UnknownId(keyName)
  }

  /** The "NUM x" branch of `parse_key_name`: what the text after "NUM " names, if anything. */
  function ParseNumSuffix(suffix: string): Option<KeyId> {
    if Contains("0123456789", suffix) then Some(NumpadCharId(suffix))
    else if suffix in ["+", "add", "ADD"] then Some(NumpadCharId("+"))
    else if suffix in ["-", "subtract", "SUBTRACT"] then Some(NumpadCharId("-"))
    else if suffix in ["*", "multiply", "MULTIPLY"] then Some(NumpadCharId("*"))
    else if suffix in ["/", "divide", "DIVIDE"] then Some(NumpadCharId("/"))
    else if suffix in [".", ",", "decimal", "DECIMAL"] then Some(NumpadCharId("decimal"))
    else if Upper(suffix) == "ENTER" then
      (match NumpadNameToKeysym("num_enter")
       case Some(k) => Some(NumpadId(k))
       case None => None)
    else None
  }

  /** `get_display_name`: the label shown for an identity. */
  function GetDisplayName(id: KeyId): string {
    match id
    case NumpadId(k) =>
      (match X11NumpadKeysym(k)
       case Some(e) => e.display
       case None => "NUM KEY " + IntToString(k))
    case NumpadCharId(c) => if c == "decimal" then "NUM ." else "NUM " + c
    case SpecialId(name) => Upper(name)
    case CharId(c) => Upper(c)
    case KeysymId(k) => "KEY " + IntToString(k)
    case UnknownId(text) => text
  }

  /**
   * The label an analysed key carries is the label of its identity, except for the keypad decimal
   * typed as "," (or the two-character ".,"), whose label keeps the typed character.
   */
  lemma AnalyzedLabelIsIdentityLabel(key: RawKey)
    ensures AnalyzeKey(key).displayName == GetDisplayName(AnalyzeKey(key).normalized)
        <==> !(key.Char? && key.vk.None? && key.c in {",", ".,"})
  {
    if key.Char? {
      if key.vk.None? && KeypadCharInfo(key, key.c).Some? {
        KeypadCharLabel(key, key.c);
      } else {
        PlainCharLabel(key.c);
        assert !(key.vk.None? && key.c in {",", ".,"}) by {
          if key.vk.None? && key.c in {",", ".,"} { DecimalSpellingsAreKeypad(key, key.c); }
        }
      }
    }
  }

  lemma PlainCharLabel(c: string)
    ensures Upper(c) == GetDisplayName(CharId(Lower(c)))
  {
    LowerOfUpper(c);
  }

  lemma DecimalSpellingsAreKeypad(key: RawKey, c: string)
    requires c in {",", ".,"}
    ensures KeypadCharInfo(key, c).Some?
  {
    assert OccursAt(".,", c, 2 - |c|);
  }

  lemma KeypadCharLabel(key: RawKey, c: string)
    requires KeypadCharInfo(key, c).Some?
    ensures KeypadCharInfo(key, c).value.displayName == GetDisplayName(KeypadCharInfo(key, c).value.normalized)
        <==> c !in {",", ".,"}
  {
    if Contains("0123456789", c) {
      KeypadDigitsLabel(key, c);
    } else if Contains("+", c) {
      PlusSpelling(c);
    } else if c !in {"-", "*", "/"} {
      EmptyContained("0123456789");
      DecimalSpellings(c);
      DecimalLabel(c);
    }
  }

  lemma DecimalLabel(c: string)
    requires c in {".", ",", ".,"}
    ensures "NUM " + c == "NUM ." <==> c == "."
  {
    if c == "," {
      assert ("NUM " + c)[4] == ',';
    }
  }

  lemma PlusSpelling(c: string)
    requires Contains("+", c) && !Contains("0123456789", c)
    ensures c == "+"
  {
    EmptyContained("0123456789");
    var i :| 0 <= i <= 1 && OccursAt("+", c, i);
    assert c == "+"[i..i + |c|];
  }

  lemma KeypadDigitsLabel(key: RawKey, c: string)
    requires Contains("0123456789", c)
    ensures KeypadCharInfo(key, c).value.displayName == GetDisplayName(NumpadCharId(c))
    ensures c !in {",", ".,"}
  {
    assert c != "decimal" && c != "," && c != ".," by {
      if |c| > 0 { ContainsChars("0123456789", c, 0); }
    }
  }

  /** The only texts that are substrings of ".," (the keypad decimal test). */
  lemma DecimalSpellings(c: string)
    requires Contains(".,", c)
    ensures c in {"", ".", ",", ".,"}
  {
    var i :| 0 <= i <= 2 && OccursAt(".,", c, i);
    assert c == ".,"[i..i + |c|];
    if |c| == 2 {
      assert c == ".,";
    } else if |c| == 1 {
      assert c == [".,"[i]];
    }
  }

  /** A keypad key's name is a key name of the table, unless it was typed as a run of several digits or none. */
  lemma AnalyzedNumpadNameIsTableName(key: RawKey)
    requires AnalyzeKey(key).isNumpad
    requires key.Char? ==> |key.c| == 1
    ensures NumpadNameToKeysym(AnalyzeKey(key).keyName).Some?
  {
    if key.Char? && Contains("0123456789", key.c) {
      ContainsChars("0123456789", key.c, 0);
      var d := key.c[0];
      assert key.c == [d];
      DigitNameInTable(d);
    }
  }

  lemma DigitNameInTable(d: char)
    requires IsDigit(d)
    ensures NumpadNameToKeysym("num_" + [d]).Some?
  {
    if d == '0' { assert "num_" + [d] == "num_0"; }
    else if d == '1' { assert "num_" + [d] == "num_1"; }
    else if d == '2' { assert "num_" + [d] == "num_2"; }
    else if d == '3' { assert "num_" + [d] == "num_3"; }
    else if d == '4' { assert "num_" + [d] == "num_4"; }
    else if d == '5' { assert "num_" + [d] == "num_5"; }
    else if d == '6' { assert "num_" + [d] == "num_6"; }
    else if d == '7' { assert "num_" + [d] == "num_7"; }
    else if d == '8' { assert "num_" + [d] == "num_8"; }
    else { assert "num_" + [d] == "num_9"; }
  }

  /** The identities whose label parses back to them. */
  predicate LabelRoundTrips(id: KeyId) {
    match id
    case SpecialId(name) => name in KeyNames
    case CharId(c) => |c| == 1 && (IsLowerLetter(c[0]) || IsDigit(c[0]))
    case NumpadCharId(c) => IsNumpadCharValue(c)
    case NumpadId(k) => k == 65421
    case _ => false
  }

  /** `parse_key_name(get_display_name(id)) == id` for the identities above. */
  lemma ParseDisplayName(id: KeyId)
    requires LabelRoundTrips(id)
    ensures ParseKeyName(GetDisplayName(id)) == id
  {
    match id
    case SpecialId(name) => ParseSpecialLabel(name);
    case CharId(c) => ParseCharLabel(c);
    case NumpadCharId(c) => ParseNumpadCharLabel(c);
    case NumpadId(k) => ParseEnterLabel(k);
  }

  lemma ParseEnterLabel(k: int)
    requires k == 65421
    ensures ParseKeyName(GetDisplayName(NumpadId(k))) == NumpadId(k)
  {
    var suffix := "ENTER";
    assert GetDisplayName(NumpadId(k)) == "NUM " + suffix;
    EnterSuffix(suffix);
    ParseNumLabel(suffix);
  }

  lemma EnterSuffix(s: string)
    requires s == "ENTER"
    ensures IsPlainSuffix(s)
    ensures ParseNumSuffix(s) == Some(NumpadId(65421))
  {
    assert Upper(s) == "ENTER";
    NotContainedByFirstChar("0123456789", s);
  }

  /** A name that is neither quoted nor of keypad form is parsed by the plain-name rules alone. */
  lemma ParsePlainForm(keyName: string)
    requires StripQuotes(keyName) == keyName
    requires ParseNumpadForm(keyName, keyName).None?
    ensures ParseKeyName(keyName) == ParsePlainName(keyName, keyName)
  {
  }

  /** An unquoted name of keypad form is parsed by the keypad rules alone. */
  lemma ParseKeypadForm(keyName: string)
    requires StripQuotes(keyName) == keyName
    requires ParseNumpadForm(keyName, keyName).Some?
    ensures ParseKeyName(keyName) == ParseNumpadForm(keyName, keyName).value
  {
  }

  lemma ParseSpecialLabel(name: string)
    requires name in KeyNames
    ensures ParseKeyName(GetDisplayName(SpecialId(name))) == SpecialId(name)
  {
    KeyNameShape(name);
    IdentHasNoQuotes(name);
    IdentLabelIsNotKeypadForm(name);
    SpecialLabelIsPlainName(name);
    ParsePlainForm(Upper(name));
  }

  lemma IdentLabelIsNotKeypadForm(name: string)
    requires IsLowerIdent(name)
    ensures ParseNumpadForm(Upper(name), Upper(name)).None?
  {
    var lbl := Upper(name);
    UpperOfUpper(name);
    if |lbl| >= 4 {
      assert lbl[0] == UpperChar(name[0]) != 'n';
      assert lbl[3] == UpperChar(name[3]) != ' ';
      assert lbl[..4] != "num_" && lbl[..4] != "NUM ";
    }
  }

  lemma SpecialLabelIsPlainName(name: string)
    requires name in KeyNames
    ensures ParsePlainName(Upper(name), Upper(name)) == SpecialId(name)
  {
    UpperOfUpper(name);
    LookupUpperOfKeyName(name);
  }

  lemma UpperOfUpper(s: string)
    ensures Upper(Upper(s)) == Upper(s)
  {
  }

  lemma ParseCharLabel(c: string)
    requires |c| == 1 && (IsLowerLetter(c[0]) || IsDigit(c[0]))
    ensures ParseKeyName(GetDisplayName(CharId(c))) == CharId(c)
  {
    var lbl := Upper(c);
    assert StripQuotes(lbl) == lbl;
    assert Upper(lbl) == lbl;
    assert ParseNumpadForm(lbl, lbl).None?;
    NoSingleCharKeyName(lbl);
    assert Lower(lbl) == c;
    ParsePlainForm(lbl);
  }

  /** Text with no lower-case letters and no quotes, as keypad label suffixes are. */
  predicate IsPlainSuffix(s: string) {
    forall i :: 0 <= i < |s| ==> !IsLowerLetter(s[i]) && !IsQuote(s[i])
  }

  /** A "NUM x" label whose suffix is recognised parses to what the suffix names. */
  lemma ParseNumLabel(s: string)
    requires IsPlainSuffix(s)
    requires ParseNumSuffix(s).Some?
    ensures ParseKeyName("NUM " + s) == ParseNumSuffix(s).value
  {
    NumLabelUnquoted(s);
    NumLabelUpper(s);
    NumLabelNotTableName(s);
    NumLabelKeypadForm(s);
    ParseKeypadForm("NUM " + s);
  }

  lemma NumLabelUnquoted(s: string)
    requires IsPlainSuffix(s)
    ensures StripQuotes("NUM " + s) == "NUM " + s
  {
    var lbl := "NUM " + s;
    assert !IsQuote(lbl[0]) && !IsQuote(lbl[|lbl| - 1]);
  }

  lemma NumLabelUpper(s: string)
    requires IsPlainSuffix(s)
    ensures Upper("NUM " + s) == "NUM " + s
  {
    var lbl := "NUM " + s;
    forall i | 0 <= i < |lbl| ensures Upper(lbl)[i] == lbl[i] {
      if i >= 4 { assert lbl[i] == s[i - 4]; }
    }
  }

  lemma NumLabelNotTableName(s: string)
    ensures NumpadNameToKeysym("NUM " + s).None?
  {
    var lbl := "NUM " + s;
    assert lbl[0] == 'N';
  }

  lemma NumLabelKeypadForm(s: string)
    requires Upper("NUM " + s) == "NUM " + s
    requires NumpadNameToKeysym("NUM " + s).None?
    requires ParseNumSuffix(s).Some?
    ensures ParseNumpadForm("NUM " + s, "NUM " + s) == ParseNumSuffix(s)
  {
    var lbl := "NUM " + s;
    assert StartsWith(lbl, "NUM ") && !StartsWith(lbl, "num_");
    assert Drop(lbl, 4) == s;
  }

  lemma ParseNumpadCharLabel(c: string)
    requires IsNumpadCharValue(c)
    ensures ParseKeyName(GetDisplayName(NumpadCharId(c))) == NumpadCharId(c)
  {
    if c == "decimal" {
      ParseOperatorLabel(".");
    } else if c in {"+", "-", "*", "/"} {
      ParseOperatorLabel(c);
    } else {
      ParseDigitRunLabel(c);
    }
  }

  lemma ParseDigitRunLabel(c: string)
    requires Contains("0123456789", c)
    ensures ParseKeyName("NUM " + c) == NumpadCharId(c)
  {
    forall i | 0 <= i < |c| ensures IsDigit(c[i]) {
      ContainsChars("0123456789", c, i);
    }
    ParseNumLabel(c);
  }

  lemma ParseOperatorLabel(c: string)
    requires c in {"+", "-", "*", "/", "."}
    ensures ParseKeyName("NUM " + c) == NumpadCharId(if c == "." then "decimal" else c)
  {
    OperatorSuffix(c);
    ParseNumLabel(c);
  }

  lemma OperatorSuffix(c: string)
    requires c in {"+", "-", "*", "/", "."}
    ensures IsPlainSuffix(c)
    ensures ParseNumSuffix(c) == Some(NumpadCharId(if c == "." then "decimal" else c))
  {
    NotContainedByFirstChar("0123456789", c);
  }

  lemma ParseDigitLabel(d: char)
    requires IsDigit(d)
    ensures ParseKeyName("NUM " + [d]) == NumpadCharId([d])
  {
    DigitInDigits(d);
    ParseNumLabel([d]);
  }

  /** Every other keypad keysym's label comes back as a keypad character, not as the keysym. */
  lemma ParseKeypadLabelCollapses(k: int)
    requires X11NumpadKeysym(k).Some? && k != 65421
    ensures ParseKeyName(GetDisplayName(NumpadId(k))).NumpadCharId?
  {
    var lbl := X11NumpadKeysym(k).value.display;
    if k in {65439, 65451, 65453, 65450, 65455} {
      assert lbl[4..] in ["+", "-", "*", "/", "."];
      assert lbl == "NUM " + lbl[4..];
      ParseOperatorLabel(lbl[4..]);
    } else {
      var d := lbl[4];
      assert IsDigit(d) && lbl == "NUM " + [d];
      ParseDigitLabel(d);
    }
  }

  /** Every keypad key name parses to the keypad keysym it names. */
  lemma ParseNumpadName(k: int)
    requires X11NumpadKeysym(k).Some?
    ensures ParseKeyName(X11NumpadKeysym(k).value.name) == NumpadId(k)
  {
    var name := X11NumpadKeysym(k).value.name;
    assert StartsWith(name, "num_");
    assert !IsQuote(name[0]) && !IsQuote(name[|name| - 1]);
    assert StripQuotes(name) == name;
    NumpadNameOfKeysym(k);
    assert ParseNumpadForm(name, name) == Some(NumpadId(k));
  }

  /** Quotes around a name and its letter case do not matter: "'R'", "R" and "r" all parse to ('char', "r"). */
  lemma ParseFoldsQuotesAndCase()
    ensures ParseKeyName("'R'") == CharId("r")
    ensures ParseKeyName("R") == CharId("r")
    ensures ParseKeyName("r") == CharId("r")
  {
    assert StripQuotes("'R'") == "R";
    ParseCharLabel("r");
    assert Upper("r") == "R";
    ParseLowerLetter('r');
  }

  lemma ParseLowerLetter(ch: char)
    requires IsLowerLetter(ch)
    ensures ParseKeyName([ch]) == CharId([ch])
  {
    var s := [ch];
    assert StripQuotes(s) == s;
    assert ParseNumpadForm(s, s).None?;
    NoSingleCharKeyName(Upper(s));
    assert Lower(s) == s;
    ParsePlainForm(s);
  }
}

=== FILE: keys.dfy ===
/**
 * The input library's view of keys and mouse buttons: the raw observations its listeners deliver,
 * the members of its `Key` enumeration, their printed forms, and its equality on keys.
 * The library itself is not part of this model; what is assumed of it is stated here.
 */
module Keys {
  import opened Wrappers
  import opened Strings

  /** A raw key observation. */
  datatype RawKey =
      /** a key code without a character; it prints as "<code>" */
    | Keysym(code: int)
      /** a member of the `Key` enumeration (function keys, ESC, modifiers, ...) */
    | Named(name: string)
      /** a key code carrying a character, with its virtual-key code if the platform reported one */
    | Char(c: string, vk: Option<int>)
      /** any other key object; it prints as `text`, which is not an integer in angle brackets */
    | Other(text: string)

  /**
   * The member names of `Key`, in the alphabetical order `dir(Key)` lists them. The list is
   * assembled from groups of five, joined in three runs of four, so that the shape of each group
   * is checked on its own.
   */
  const KeyNames: seq<string> := KeyNamesAtoF11 + KeyNamesF12toF7 + KeyNamesF8toUp

  const KeyNamesAtoF11: seq<string> := KeyNames0 + KeyNames1 + KeyNames2 + KeyNames3
  const KeyNamesF12toF7: seq<string> := KeyNames4 + KeyNames5 + KeyNames6 + KeyNames7
  const KeyNamesF8toUp: seq<string> := KeyNames8 + KeyNames9 + KeyNames10 + KeyNames11

  const KeyNames0: seq<string> := ["alt", "alt_gr", "alt_l", "alt_r", "backspace"]
  const KeyNames1: seq<string> := ["caps_lock", "cmd", "cmd_l", "cmd_r", "ctrl"]
  const KeyNames2: seq<string> := ["ctrl_l", "ctrl_r", "delete", "down", "end"]
  const KeyNames3: seq<string> := ["enter", "esc", "f1", "f10", "f11"]
  const KeyNames4: seq<string> := ["f12", "f13", "f14", "f15", "f16"]
  const KeyNames5: seq<string> := ["f17", "f18", "f19", "f2", "f20"]
  const KeyNames6: seq<string> := ["f3", "f4", "f5", "f6", "f7"]
  const KeyNames7: seq<string> := ["f8", "f9", "home", "insert", "left"]
  const KeyNames8: seq<string> := ["media_next", "media_play_pause", "media_previous", "media_volume_down", "media_volume_mute"]
  const KeyNames9: seq<string> := ["media_volume_up", "menu", "num_lock", "page_down", "page_up"]
  const KeyNames10: seq<string> := ["pause", "print_screen", "right", "scroll_lock", "shift"]
  const KeyNames11: seq<string> := ["shift_l", "shift_r", "space", "tab", "up"]

  /** Scanning `Key`'s members for one whose upper-cased name is `upperName`; the first one wins. */
  function LookupKeyName(upperName: string): Option<string> {
    FindUpper(KeyNames, upperName)
  }

  function FindUpper(names: seq<string>, upperName: string): (r: Option<string>)
    ensures r.Some? ==> r.value in names && Upper(r.value) == upperName
    ensures r.None? ==> forall n :: n in names ==> Upper(n) != upperName
  {
    if |names| == 0 then None
    else if Upper(names[0]) == upperName then Some(names[0])
    else FindUpper(names[1..], upperName)
  }

  predicate WellShapedName(n: string) { IsLowerIdent(n) && |n| >= 2 }

  /** Every member name is a lower-case identifier of at least two characters. */
  lemma KeyNamesShape()
    ensures forall n :: n in KeyNames ==> WellShapedName(n)
  {
    KeyNamesShape0();
    KeyNamesShape1();
    KeyNamesShape2();
    KeyNamesShape3();
    KeyNamesShape4();
    KeyNamesShape5();
    KeyNamesShape6();
    KeyNamesShape7();
    KeyNamesShape8();
    KeyNamesShape9();
    KeyNamesShape10();
    KeyNamesShape11();
  }

  lemma KeyNamesShape0() ensures forall n :: n in KeyNames0 ==> WellShapedName(n) { }

  lemma KeyNamesShape1() ensures forall n :: n in KeyNames1 ==> WellShapedName(n) { }

  lemma KeyNamesShape2() ensures forall n :: n in KeyNames2 ==> WellShapedName(n) { }

  lemma KeyNamesShape3() ensures forall n :: n in KeyNames3 ==> WellShapedName(n) { }

  lemma KeyNamesShape4() ensures forall n :: n in KeyNames4 ==> WellShapedName(n) { }

  lemma KeyNamesShape5() ensures forall n :: n in KeyNames5 ==> WellShapedName(n) { }

  lemma KeyNamesShape6() ensures forall n :: n in KeyNames6 ==> WellShapedName(n) { }

  lemma KeyNamesShape7() ensures forall n :: n in KeyNames7 ==> WellShapedName(n) { }

  lemma KeyNamesShape8() ensures forall n :: n in KeyNames8 ==> WellShapedName(n) { }

  lemma KeyNamesShape9() ensures forall n :: n in KeyNames9 ==> WellShapedName(n) { }

  lemma KeyNamesShape10() ensures forall n :: n in KeyNames10 ==> WellShapedName(n) { }

  lemma KeyNamesShape11() ensures forall n :: n in KeyNames11 ==> WellShapedName(n) { }

  lemma KeyNameShape(n: string)
    requires n in KeyNames
    ensures IsLowerIdent(n) && |n| >= 2
  {
    KeyNamesShape();
    assert WellShapedName(n);
  }

  /** No member name is a single character, so single-character names never select a member. */
  lemma NoSingleCharKeyName(s: string)
    requires |s| == 1
    ensures LookupKeyName(s).None?
  {
    if LookupKeyName(s).Some? {
      var n := LookupKeyName(s).value;
      KeyNameShape(n);
    }
  }

  /** Upper-casing a member name and looking it up again gives that member back. */
  lemma LookupUpperOfKeyName(n: string)
    requires n in KeyNames
    ensures LookupKeyName(Upper(n)) == Some(n)
  {
    KeyNamesShape();
    var r := LookupKeyName(Upper(n));
    assert r.Some?;
    UpperInjectiveOnIdents(r.value, n);
  }

  /** `str(key)`. A character prints as its quoted form; Python's escaping inside `repr` is not modelled. */
  function Str(k: RawKey): string {
    match k
    case Keysym(code) => "<" + IntToString(code) + ">"
    case Named(name) => "Key." + name
    case Char(c, _) => "'" + c + "'"
    case Other(text) => text
  }

  /**
   * `a == b` on raw keys: two character keys compare their characters (case-sensitively),
   * a character key and a bare key code compare virtual-key codes, everything else is identity.
   */
  predicate RawEq(a: RawKey, b: RawKey) {
    match (a, b)
    case (Char(c1, _), Char(c2, _)) => c1 == c2
    case (Char(_, vk), Keysym(code)) => vk == Some(code)
    case (Keysym(code), Char(_, vk)) => vk == Some(code)
    case _ => a == b
  }

  /** Key equality is symmetric and reflexive; it is not transitive across a bare key code. */
  lemma RawEqSymmetricReflexive(a: RawKey, b: RawKey)
    ensures RawEq(a, b) == RawEq(b, a)
    ensures RawEq(a, a)
  {
  }

  /** A mouse button as the listener reports it. */
  datatype Button = Left | Right | Middle | Extra(name: string)

  function ButtonName(b: Button): string {
    match b
    case Left => "left"
    case Right => "right"
    case Middle => "middle"
    case Extra(name) => name
  }

  /** `str(button)`, e.g. "Button.left". */
  function ButtonStr(b: Button): string {
    "Button." + ButtonName(b)
  }
}

=== FILE: notices.dfy ===
/** The status lines components report to the window: a message and the colour to show it in. */
module Notices {
  datatype Notice = Notice(text: string, color: string)
}

=== FILE: playback.dfy ===
/**
 * The playback worker shared by the player and the legacy recorder: loop passes over the recorded
 * events, wait out each timestamp gap scaled by the speed, inject each event, track what is held
 * down, and release everything on every way out.
 *
 * A concurrent `stop` is modelled by where it lands among the worker's reads of the playing flag:
 * `StopAfter(n)` means the first `n` reads still see the flag set and every later read sees it
 * cleared; `stop` releases the held input at that moment.
 */
module Playback {
  import opened Wrappers
  import opened Strings
  import opened Keys
  import opened Json
  import opened Injection
  import opened PlayerKeys

  /** `Modern` is the player's worker (countdown between loops); `Legacy` the old recorder's (plain sleep). */
  datatype Flavor = Modern | Legacy

  /** What the worker reads from its configuration. */
  datatype Config = Config(loopCount: int, loopDelay: real, speed: real)

  datatype StopPoint = NoStop | StopAfter(checks: nat)

  datatype Status = Playing | Stopped | Raised | Done

  /**
   * The worker's state: the actions so far, what it believes is held, how many flag reads it has
   * made, the events it has completed, the passes it has started and the delays it has begun.
   */
  datatype Run = Run(
    log: seq<Action>, pressed: Pressed, stop: StopPoint, checks: nat,
    executed: seq<Json>, passes: nat, position: nat, delays: nat, status: Status)

  /** The held-input bookkeeping agrees with the log, and the run has not completed yet. */
  predicate Inv(r: Run) {
    Held(r.log) == r.pressed && ExactCleanup(r.log) && Complete !in r.log && ErrorStatus !in r.log
  }

  /** The counters only a flag read, a pass or a delay may change. */
  predicate SameProgress(r: Run, r': Run) {
    r'.stop == r.stop && r'.checks == r.checks && r'.executed == r.executed
    && r'.passes == r.passes && r'.position == r.position && r'.delays == r.delays
  }

  /** Appends one action and applies it to the held input. */
  function Emit(r: Run, a: Action): (r': Run)
    requires Inv(r) && !a.ReleaseAll? && a != Complete && a != ErrorStatus
    ensures Inv(r') && r'.log == r.log + [a] && r'.pressed == Apply(r.pressed, a)
    ensures SameProgress(r, r') && r'.status == r.status
    ensures Sleeps(r'.log) == Sleeps(r.log) + (if a.Sleep? then [a.seconds] else [])
  {
    ExtendExact(r.log, a);
    SleepsAppend(r.log, [a]);
    r.(log := r.log + [a], pressed := Apply(r.pressed, a))
  }

  /** `_release_all_pressed`: releases every held button and key and clears both sets. */
  function ReleaseHeld(r: Run): (r': Run)
    requires Inv(r)
    ensures Inv(r') && r'.pressed == NothingPressed
    ensures r'.log == r.log + [ReleaseAll(r.pressed.buttons, r.pressed.keys)]
    ensures SameProgress(r, r') && r'.status == r.status
  {
    var a := ReleaseAll(r.pressed.buttons, r.pressed.keys);
    ExtendExact(r.log, a);
    r.(log := r.log + [a], pressed := NothingPressed)
  }

  /** Whether the next read of the playing flag still sees it set. */
  predicate StillPlaying(r: Run) {
    r.stop.NoStop? || r.checks < r.stop.checks
  }

  function Observed(r: Run): Run {
    r.(checks := r.checks + 1)
  }

  /** The flag read that sees `stop`: `stop` has released the held input and the worker leaves. */
  function StopNow(r: Run): (r': Run)
    requires Inv(r)
    ensures Inv(r') && r'.status == Stopped && r'.pressed == NothingPressed && SameProgress(r, r')
    ensures r'.log == r.log + [ReleaseAll(r.pressed.buttons, r.pressed.keys)]
    ensures Inputs(r'.log) == Inputs(r.log)
  {
    var r' := ReleaseHeld(r).(status := Stopped);
    InputsAppend(r.log, [ReleaseAll(r.pressed.buttons, r.pressed.keys)]);
    NoInputs([ReleaseAll(r.pressed.buttons, r.pressed.keys)]);
    r'
  }

  function Raise(r: Run): (r': Run)
    ensures r'.log == r.log && r'.pressed == r.pressed && SameProgress(r, r') && r'.status == Raised
  {
    r.(status := Raised)
  }

  /** The event's timestamp as a number; `None` where reading or subtracting it raises. */
  function Timestamp(ev: Json): Option<real> {
    if ev.JObj? && "timestamp" in ev.fields then Number(ev.fields["timestamp"]) else None
  }

  /** The pause before an event: the gap scaled down by the speed, or the raw gap when the speed is not positive. */
  function ScaledWait(gap: real, speed: real): (w: real)
    requires gap > 0.0
    ensures w > 0.0
    ensures speed <= 0.0 ==> w == gap
  {
    if speed > 0.0 then gap / speed else gap
  }

  /** The sleep before an event whose timestamp is `gap` after the previous one: none unless the gap is positive. */
  function WaitFor(gap: real, speed: real): seq<real> {
    if gap > 0.0 then [ScaledWait(gap, speed)] else []
  }

  /**
   * The events on which the worker raises, so that the run ends with an error: a non-dict event,
   * a missing or non-numeric timestamp, a missing type, a mouse event with a missing field, a
   * non-string button or a button the controller refuses, a key event without a key, and (player
   * only) a key press whose key is not a string.
   */
  predicate Raises(flavor: Flavor, cap: Capability, ev: Json) {
    Timestamp(ev).None?
    || "type" !in ev.fields
    || (ev.fields["type"] == JStr("mouse_click") && MouseRaises(cap, ev.fields))
    || (ev.fields["type"] == JStr("key_press") && ("key" !in ev.fields || (flavor == Modern && !ev.fields["key"].JStr?)))
    || (ev.fields["type"] == JStr("key_release") && "key" !in ev.fields)
  }

  predicate MouseRaises(cap: Capability, f: map<string, Json>) {
    !("x" in f && "y" in f && "button" in f && "pressed" in f)
    || !f["button"].JStr?
    || ResolveButton(f["button"].s) in cap.refusedButtons
  }

  predicate AllPlayable(flavor: Flavor, cap: Capability, events: seq<Json>) {
    forall i :: 0 <= i < |events| ==> !Raises(flavor, cap, events[i])
  }

  /** One event: wait for its timestamp, then inject it; returns the new last timestamp. */
  function PlayEvent(flavor: Flavor, cap: Capability, speed: real, last: real, ev: Json, r: Run): (res: (Run, real))
    requires Inv(r) && r.status == Playing
    ensures Inv(res.0) && SameProgress(r, res.0)
    ensures res.0.status == Playing || res.0.status == Raised
    ensures res.0.status == Raised <==> Raises(flavor, cap, ev)
    ensures res.0.status == Playing ==>
      res.1 == Timestamp(ev).value && Sleeps(res.0.log) == Sleeps(r.log) + WaitFor(res.1 - last, speed)
  {
    match Timestamp(ev)
    case None => (Raise(r), last)
    case Some(t) =>
      var r1 := WaitGap(t - last, speed, r);
      var r2 := Execute(flavor, cap, ev.fields, r1);
      assert r2.status == Raised <==> Raises(flavor, cap, ev);
      assert ev == JObj(ev.fields);
      (r2, t)
  }

  /** The sleep action before an event whose timestamp is `gap` after the previous one. */
  function WaitActions(gap: real, speed: real): (w: seq<Action>)
    ensures forall i :: 0 <= i < |w| ==> w[i].Sleep?
  {
    if gap > 0.0 then [Sleep(ScaledWait(gap, speed))] else []
  }

  /**
   * What an event that does not raise injects, as a reference for the handlers: a click moves the
   * pointer and then presses or releases its button; a key event presses or releases its key
   * unless there is no key to inject or the keyboard refuses it; anything else injects nothing.
   */
  function EventActions(flavor: Flavor, cap: Capability, ev: Json): (acts: seq<Action>)
    ensures forall i :: 0 <= i < |acts| ==> IsInput(acts[i])
  {
    if !ev.JObj? || "type" !in ev.fields then []
    else
      var f := ev.fields;
      if f["type"] == JStr("mouse_click") then
        if "x" in f && "y" in f && "button" in f && "pressed" in f && f["button"].JStr? then
          var b := ResolveButton(f["button"].s);
          [MoveTo(f["x"], f["y"]), if Truthy(f["pressed"]) then ButtonDown(b) else ButtonUp(b)]
        else []
      else if f["type"] == JStr("key_press") && "key" in f then KeyActions(cap, EventKey(flavor, f["key"]), true)
      else if f["type"] == JStr("key_release") && "key" in f then KeyActions(cap, EventKey(flavor, f["key"]), false)
      else []
  }

  /** A key going down or up, unless there is no key or the keyboard refuses it. */
  function KeyActions(cap: Capability, k: Option<InjKey>, down: bool): seq<Action> {
    if k.Some? && k.value !in cap.refusedKeys then [if down then KeyDown(k.value) else KeyUp(k.value)] else []
  }

  /** An event that does not raise appends its pause, if any, and then exactly its actions. */
  lemma PlayEventLog(flavor: Flavor, cap: Capability, speed: real, last: real, ev: Json, r: Run)
    requires Inv(r) && r.status == Playing
    ensures var res := PlayEvent(flavor, cap, speed, last, ev, r);
      res.0.status == Playing ==> res.0.log == r.log + WaitActions(res.1 - last, speed) + EventActions(flavor, cap, ev)
  {
    if Timestamp(ev).Some? {
      assert ev == JObj(ev.fields);
    }
  }

  /** The pause before an event: a scaled sleep when the gap since the previous event is positive. */
  function WaitGap(gap: real, speed: real, r: Run): (r': Run)
    requires Inv(r) && r.status == Playing
    ensures Inv(r') && SameProgress(r, r') && r'.status == Playing
    ensures Sleeps(r'.log) == Sleeps(r.log) + WaitFor(gap, speed)
  {
    if gap > 0.0 then Emit(r, Sleep(ScaledWait(gap, speed))) else r
  }

  /** Dispatch on the event's type; an unknown type does nothing. */
  function Execute(flavor: Flavor, cap: Capability, f: map<string, Json>, r: Run): (r': Run)
    requires Inv(r) && r.status == Playing
    ensures Inv(r') && SameProgress(r, r')
    ensures r'.status == Playing || r'.status == Raised
    ensures r'.status == Raised <==>
      ("type" !in f
       || (f["type"] == JStr("mouse_click") && MouseRaises(cap, f))
       || (f["type"] == JStr("key_press") && ("key" !in f || (flavor == Modern && !f["key"].JStr?)))
       || (f["type"] == JStr("key_release") && "key" !in f))
    ensures r'.status == Playing ==> Sleeps(r'.log) == Sleeps(r.log)
    ensures r'.status == Playing ==> r'.log == r.log + EventActions(flavor, cap, JObj(f))
  {
    if "type" !in f then Raise(r)
    else if f["type"] == JStr("mouse_click") then ReplayMouse(cap, f, r)
    else if f["type"] == JStr("key_press") then ReplayKeyPress(flavor, cap, f, r)
    else if f["type"] == JStr("key_release") then ReplayKeyRelease(flavor, cap, f, r)
    else r
  }

  /**
   * `_replay_mouse_click`: read the position, button and direction, move the pointer, then press
   * or release the resolved button and track it.
   */
  function ReplayMouse(cap: Capability, f: map<string, Json>, r: Run): (r': Run)
    requires Inv(r) && r.status == Playing
    ensures Inv(r') && SameProgress(r, r')
    ensures r'.status == Playing || r'.status == Raised
    ensures r'.status == Raised <==> MouseRaises(cap, f)
    ensures r'.status == Playing ==>
      var b := ResolveButton(f["button"].s);
      r'.log == r.log + [MoveTo(f["x"], f["y"]), if Truthy(f["pressed"]) then ButtonDown(b) else ButtonUp(b)]
    ensures r'.status == Playing ==> Sleeps(r'.log) == Sleeps(r.log)
  {
    if !("x" in f && "y" in f && "button" in f && "pressed" in f) then Raise(r)
    else MoveThenButton(cap, f["x"], f["y"], f["button"], f["pressed"], r)
  }

  /** The fields of a mouse event once read: move the pointer, then press or release the button. */
  function MoveThenButton(cap: Capability, x: Json, y: Json, button: Json, pressed: Json, r: Run): (r': Run)
    requires Inv(r) && r.status == Playing
    ensures Inv(r') && SameProgress(r, r')
    ensures r'.status == Playing || r'.status == Raised
    ensures r'.status == Raised <==> !button.JStr? || ResolveButton(button.s) in cap.refusedButtons
    ensures r'.status == Playing ==>
      var b := ResolveButton(button.s);
      r'.log == r.log + [MoveTo(x, y), if Truthy(pressed) then ButtonDown(b) else ButtonUp(b)]
    ensures r'.status == Playing ==> Sleeps(r'.log) == Sleeps(r.log)
  {
    var r1 := Emit(r, MoveTo(x, y));
    match button
    case JStr(s) => PressOrRelease(cap, ResolveButton(s), Truthy(pressed), r1)
    case _ => Raise(r1)
  }

  /** The second half of a mouse event: press or release the button, unless the controller refuses it. */
  function PressOrRelease(cap: Capability, b: Button, down: bool, r: Run): (r': Run)
    requires Inv(r) && r.status == Playing
    ensures Inv(r') && SameProgress(r, r')
    ensures r'.status == (if b in cap.refusedButtons then Raised else Playing)
    ensures r'.status == Playing ==> r'.log == r.log + [if down then ButtonDown(b) else ButtonUp(b)]
    ensures r'.status == Playing ==> Sleeps(r'.log) == Sleeps(r.log)
  {
    if b in cap.refusedButtons then Raise(r)
    else Emit(r, if down then ButtonDown(b) else ButtonUp(b))
  }

  /** The key the legacy worker injects: the `Key` member for "Key.<member>", else the string itself. */
  function LegacyKey(keyName: string): (k: InjKey)
    ensures k.NamedKey? ==> StartsWith(keyName, "Key.") && k.name in KeyNames
    ensures k.TextKey? ==> k.text == keyName
  {
    if StartsWith(keyName, "Key.") && KeyMember(TakeUntilDot(Drop(keyName, 4))).Some? then
      NamedKey(TakeUntilDot(Drop(keyName, 4)))
    else TextKey(keyName)
  }

  /**
   * The key a key event injects, or `None` when it injects nothing without raising: the player
   * skips "Key.<attr>" names that are not members, and both skip non-string keys on release.
   */
  function EventKey(flavor: Flavor, key: Json): Option<InjKey> {
    match key
    case JStr(name) => if flavor == Modern then ParseKey(name) else Some(LegacyKey(name))
    case _ => None
  }

  /** `_replay_key_press`: a refused key is reported and skipped, not raised. */
  function ReplayKeyPress(flavor: Flavor, cap: Capability, f: map<string, Json>, r: Run): (r': Run)
    requires Inv(r) && r.status == Playing
    ensures Inv(r') && SameProgress(r, r')
    ensures r'.status == Playing || r'.status == Raised
    ensures r'.status == Raised <==> "key" !in f || (flavor == Modern && !f["key"].JStr?)
    ensures r'.status == Playing ==>
      var k := EventKey(flavor, f["key"]);
      r'.log == r.log + (if k.Some? && k.value !in cap.refusedKeys then [KeyDown(k.value)] else [])
    ensures r'.status == Playing ==> Sleeps(r'.log) == Sleeps(r.log)
  {
    if "key" !in f then Raise(r)
    else if flavor == Modern && !f["key"].JStr? then Raise(r)
    else
      match EventKey(flavor, f["key"])
      case Some(k) =>
        if k in cap.refusedKeys then r else Emit(r, KeyDown(k))
      case None => r
  }

  /** `_replay_key_release`: only a missing key raises. */
  function ReplayKeyRelease(flavor: Flavor, cap: Capability, f: map<string, Json>, r: Run): (r': Run)
    requires Inv(r) && r.status == Playing
    ensures Inv(r') && SameProgress(r, r')
    ensures r'.status == Playing || r'.status == Raised
    ensures r'.status == Raised <==> "key" !in f
    ensures r'.status == Playing ==>
      var k := EventKey(flavor, f["key"]);
      r'.log == r.log + (if k.Some? && k.value !in cap.refusedKeys then [KeyUp(k.value)] else [])
    ensures r'.status == Playing ==> Sleeps(r'.log) == Sleeps(r.log)
  {
    if "key" !in f then Raise(r)
    else
      match EventKey(flavor, f["key"])
      case Some(k) =>
        if k in cap.refusedKeys then r else Emit(r, KeyUp(k))
      case None => r
  }

  /** How many more countdown ticks a remaining delay can take. */
  function TickBound(remaining: real): nat {
    if remaining <= 0.0 then 0 else (remaining * 10.0).Floor + 1
  }

  /** `min(0.1, remaining)`: one tick's sleep. */
  function Step(remaining: real): (s: real)
    ensures s <= 0.1 && s <= remaining && (s == 0.1 || s == remaining)
  {
    if remaining < 0.1 then remaining else 0.1
  }

  lemma StepLowersBound(remaining: real)
    requires remaining > 0.0
    ensures TickBound(remaining - Step(remaining)) < TickBound(remaining)
  {
    if remaining >= 0.1 {
      assert (remaining - Step(remaining)) * 10.0 == remaining * 10.0 - 1.0;
    }
  }

  /** The remaining times the countdown shows, in order, before its final zero. */
  function Remainders(remaining: real): seq<real>
    decreases TickBound(remaining)
  {
    if remaining > 0.0 then
      StepLowersBound(remaining);
      [remaining] + Remainders(remaining - Step(remaining))
    else []
  }

  /** The ticks for a list of remaining times: show each one, then sleep one step. */
  function Ticks(rs: seq<real>): seq<Action> {
    if |rs| == 0 then [] else [Countdown(rs[0]), Sleep(Step(rs[0]))] + Ticks(rs[1..])
  }

  /**
   * How a countdown over `remaining` seconds leaves a run: still playing or stopped, the bookkeeping
   * intact, and either every tick followed by a zero or, when stopped, no zero at all.
   */
  predicate CountdownEnds(remaining: real, r: Run, r': Run) {
    Inv(r') && r'.status in {Playing, Stopped}
    && r'.stop == r.stop && r'.checks >= r.checks && r'.executed == r.executed
    && r'.passes == r.passes && r'.position == r.position && r'.delays == r.delays
    && (r.stop.NoStop? ==> r'.status == Playing)
    && (r'.status == Playing ==> r'.log == r.log + Ticks(Remainders(remaining)) + [Countdown(0.0)])
    && |r'.log| >= |r.log| && r'.log[..|r.log|] == r.log
    && Inputs(r'.log) == Inputs(r.log)
    && (r'.status == Stopped ==>
          forall i :: |r.log| <= i < |r'.log| && r'.log[i].Countdown? ==> r'.log[i].remaining > 0.0)
  }

  /**
   * `_wait_with_countdown`: while time remains and playback is on, show the remaining time and sleep
   * a tenth of a second (or what is left); then show zero if playback is still on. Undisturbed it
   * shows every remaining time and then zero; stopped, it never shows zero.
   */
  function CountdownWait(remaining: real, r: Run): (r': Run)
    requires Inv(r) && r.status == Playing
    ensures CountdownEnds(remaining, r, r')
    decreases TickBound(remaining), 1
  {
    if !StillPlaying(r) then StopNow(r)
    else if remaining > 0.0 then CountdownTick(remaining, r)
    else Emit(Observed(r), Countdown(0.0))
  }

  /** One pass of the countdown's loop body, then the rest of the countdown. */
  function CountdownTick(remaining: real, r: Run): (r': Run)
    requires Inv(r) && r.status == Playing && remaining > 0.0 && StillPlaying(r)
    ensures CountdownEnds(remaining, r, r')
    decreases TickBound(remaining), 0
  {
    var step := Step(remaining);
    StepLowersBound(remaining);
    var r1 := Emit(Emit(Observed(r), Countdown(remaining)), Sleep(step));
    var r' := CountdownWait(remaining - step, r1);
    CountdownStep(remaining, r.log, r1.log, r'.log, r'.status == Playing);
    CountdownStepInputs(remaining, r.log, r1.log, r'.log);
    r'
  }

  /** A tick injects nothing, so the countdown's input is whatever the rest of it injects. */
  lemma CountdownStepInputs(remaining: real, log: seq<Action>, log1: seq<Action>, log': seq<Action>)
    requires log1 == log + [Countdown(remaining), Sleep(Step(remaining))]
    requires Inputs(log') == Inputs(log1)
    ensures Inputs(log') == Inputs(log)
  {
    InputsAppend(log, [Countdown(remaining), Sleep(Step(remaining))]);
    NoInputs([Countdown(remaining), Sleep(Step(remaining))]);
  }

  /** One tick's contribution to the countdown's log, whichever way the rest of the countdown ends. */
  lemma CountdownStep(remaining: real, log: seq<Action>, log1: seq<Action>, log': seq<Action>, undisturbed: bool)
    requires remaining > 0.0
    requires log1 == log + [Countdown(remaining), Sleep(Step(remaining))]
    requires |log'| >= |log1| && log'[..|log1|] == log1
    requires undisturbed ==> log' == log1 + Ticks(Remainders(remaining - Step(remaining))) + [Countdown(0.0)]
    requires !undisturbed ==> forall i :: |log1| <= i < |log'| && log'[i].Countdown? ==> log'[i].remaining > 0.0
    ensures |log'| >= |log| && log'[..|log|] == log
    ensures undisturbed ==> log' == log + Ticks(Remainders(remaining)) + [Countdown(0.0)]
    ensures !undisturbed ==> forall i :: |log| <= i < |log'| && log'[i].Countdown? ==> log'[i].remaining > 0.0
  {
    assert log'[..|log|] == log'[..|log1|][..|log|];
    if undisturbed {
      StepLowersBound(remaining);
      assert Remainders(remaining) == [remaining] + Remainders(remaining - Step(remaining));
      assert Remainders(remaining)[1..] == Remainders(remaining - Step(remaining));
    } else {
      forall i | |log| <= i < |log1| && log'[i].Countdown?
        ensures log'[i].remaining > 0.0
      {
        assert log'[i] == log1[i];
      }
    }
  }

  /**
   * The countdown's remaining times are positive and strictly decreasing, the first is the whole
   * delay, each tick lowers the time by `min(0.1, remaining)`, and the sleeps add up to the delay.
   */
  lemma {:induction false} RemaindersShape(delay: real)
    ensures var rs := Remainders(delay);
      (forall i :: 0 <= i < |rs| ==> rs[i] > 0.0)
      && (forall i, j :: 0 <= i < j < |rs| ==> rs[i] > rs[j])
      && (delay > 0.0 ==> |rs| > 0 && rs[0] == delay)
      && (forall i :: 0 <= i < |rs| - 1 ==> rs[i + 1] == rs[i] - Step(rs[i]))
      && StepTotal(rs) == (if delay > 0.0 then delay else 0.0)
    decreases TickBound(delay)
  {
    if delay > 0.0 {
      StepLowersBound(delay);
      var rest := Remainders(delay - Step(delay));
      RemaindersShape(delay - Step(delay));
      RemaindersCons(delay, rest);
    }
  }

  /** Prepending `delay` to the shape of the later remainders gives the shape of all of them. */
  lemma RemaindersCons(delay: real, rest: seq<real>)
    requires delay > 0.0 && rest == Remainders(delay - Step(delay))
    requires forall i :: 0 <= i < |rest| ==> rest[i] > 0.0
    requires forall i, j :: 0 <= i < j < |rest| ==> rest[i] > rest[j]
    requires delay - Step(delay) > 0.0 ==> |rest| > 0 && rest[0] == delay - Step(delay)
    requires forall i :: 0 <= i < |rest| - 1 ==> rest[i + 1] == rest[i] - Step(rest[i])
    requires StepTotal(rest) == (if delay - Step(delay) > 0.0 then delay - Step(delay) else 0.0)
    ensures var rs := Remainders(delay);
      (forall i :: 0 <= i < |rs| ==> rs[i] > 0.0)
      && (forall i, j :: 0 <= i < j < |rs| ==> rs[i] > rs[j])
      && |rs| > 0 && rs[0] == delay
      && (forall i :: 0 <= i < |rs| - 1 ==> rs[i + 1] == rs[i] - Step(rs[i]))
      && StepTotal(rs) == delay
  {
    assert Remainders(delay) == [delay] + rest;
    assert |rest| > 0 ==> rest[0] == delay - Step(delay);
    ConsOrdered(delay, rest, [delay] + rest);
    ConsSteps(delay, rest, [delay] + rest);
  }

  lemma ConsOrdered(delay: real, rest: seq<real>, rs: seq<real>)
    requires delay > 0.0 && rs == [delay] + rest
    requires forall i :: 0 <= i < |rest| ==> rest[i] > 0.0
    requires forall i, j :: 0 <= i < j < |rest| ==> rest[i] > rest[j]
    requires |rest| > 0 ==> rest[0] < delay
    ensures forall i :: 0 <= i < |rs| ==> rs[i] > 0.0
    ensures forall i, j :: 0 <= i < j < |rs| ==> rs[i] > rs[j]
  {
    forall i, j | 0 <= i < j < |rs|
      ensures rs[i] > rs[j]
    {
      assert rs[j] == rest[j - 1];
      if i == 0 {
        assert rest[j - 1] <= rest[0];
      } else {
        assert rs[i] == rest[i - 1];
      }
    }
  }

  lemma ConsSteps(delay: real, rest: seq<real>, rs: seq<real>)
    requires delay > 0.0 && rs == [delay] + rest
    requires |rest| > 0 ==> rest[0] == delay - Step(delay)
    requires forall i :: 0 <= i < |rest| - 1 ==> rest[i + 1] == rest[i] - Step(rest[i])
    requires StepTotal(rest) == (if delay - Step(delay) > 0.0 then delay - Step(delay) else 0.0)
    ensures |rs| > 0 && rs[0] == delay
    ensures forall i :: 0 <= i < |rs| - 1 ==> rs[i + 1] == rs[i] - Step(rs[i])
    ensures StepTotal(rs) == delay
  {
    ConsStepRelation(delay, rest, rs);
    assert rs[1..] == rest;
    assert StepTotal(rs) == Step(delay) + StepTotal(rest);
  }

  lemma ConsStepRelation(delay: real, rest: seq<real>, rs: seq<real>)
    requires rs == [delay] + rest
    requires |rest| > 0 ==> rest[0] == delay - Step(delay)
    requires forall i :: 0 <= i < |rest| - 1 ==> rest[i + 1] == rest[i] - Step(rest[i])
    ensures forall i :: 0 <= i < |rs| - 1 ==> rs[i + 1] == rs[i] - Step(rs[i])
  {
    forall i | 0 <= i < |rs| - 1
      ensures rs[i + 1] == rs[i] - Step(rs[i])
    {
      if i == 0 {
        assert rs[1] == rest[0];
      } else {
        assert rs[i] == rest[i - 1] && rs[i + 1] == rest[i];
      }
    }
  }

  /** The total sleep of the ticks for a list of remaining times. */
  function StepTotal(rs: seq<real>): real {
    if |rs| == 0 then 0.0 else Step(rs[0]) + StepTotal(rs[1..])
  }

  /** The ticks sleep exactly the steps, in order. */
  lemma {:induction false} TicksSleeps(rs: seq<real>)
    ensures Sleeps(Ticks(rs)) == StepsOf(rs)
  {
    if |rs| > 0 {
      var pair := [Countdown(rs[0]), Sleep(Step(rs[0]))];
      TicksSleeps(rs[1..]);
      SleepsAppend(pair, Ticks(rs[1..]));
      assert pair[..1] == [Countdown(rs[0])];
      assert [Countdown(rs[0])][..0] == [];
      assert Sleeps([Countdown(rs[0])]) == [];
      assert Sleeps(pair) == [Step(rs[0])];
    }
  }

  function StepsOf(rs: seq<real>): seq<real> {
    if |rs| == 0 then [] else [Step(rs[0])] + StepsOf(rs[1..])
  }

  /** The sum of a sleep schedule. */
  function Total(rs: seq<real>): real {
    if |rs| == 0 then 0.0 else rs[0] + Total(rs[1..])
  }

  lemma {:induction false} TotalAppend(a: seq<real>, b: seq<real>)
    ensures Total(a + b) == Total(a) + Total(b)
  {
    if |a| > 0 {
      assert (a + b)[1..] == a[1..] + b;
      TotalAppend(a[1..], b);
    } else {
      assert a + b == b;
    }
  }

  /** Events whose timestamps all read, none earlier than `from`, in non-decreasing order. */
  predicate TimedFrom(events: seq<Json>, from: real) {
    (forall i :: 0 <= i < |events| ==> Timestamp(events[i]).Some? && from <= Timestamp(events[i]).value)
    && (forall i :: 0 < i < |events| ==> Timestamp(events[i - 1]).value <= Timestamp(events[i]).value)
  }

  /**
   * At a positive speed the pauses of a pass add up to the recorded span from `last` to the final
   * event, divided by the speed: playback at speed `s` lasts the recording's length over `s`.
   */
  lemma {:induction false} EventWaitsSpan(events: seq<Json>, speed: real, last: real)
    requires speed > 0.0 && |events| > 0 && TimedFrom(events, last)
    ensures Scales(Total(EventWaits(events, speed, last)), speed, Timestamp(events[|events| - 1]).value - last)
    decreases |events|
  {
    var t := Timestamp(events[0]).value;
    var w := WaitFor(t - last, speed);
    var rest := EventWaits(events[1..], speed, t);
    assert EventWaits(events, speed, last) == w + rest;
    TotalAppend(w, rest);
    FirstWaitSpan(t - last, speed);
    if |events| == 1 {
      assert Total(rest) == 0.0;
      SpanSum(Total(w), 0.0, speed, t - last, 0.0);
    } else {
      TimedTail(events, last);
      EventWaitsSpan(events[1..], speed, t);
      assert events[1..][|events[1..]| - 1] == events[|events| - 1];
      SpanSum(Total(w), Total(rest), speed, t - last, Timestamp(events[|events| - 1]).value - t);
    }
  }

  /** `a` seconds at `speed` cover `x` seconds of the recording. */
  predicate Scales(a: real, speed: real, x: real) {
    a * speed == x
  }

  lemma FirstWaitSpan(gap: real, speed: real)
    requires speed > 0.0 && gap >= 0.0
    ensures Scales(Total(WaitFor(gap, speed)), speed, gap)
  {
    if gap > 0.0 {
      assert Total(WaitFor(gap, speed)) == ScaledWait(gap, speed);
      ScaledWaitSpan(gap, speed);
    }
  }

  /** At a positive speed the pause, replayed at that speed, covers the gap. */
  lemma ScaledWaitSpan(gap: real, speed: real)
    requires gap > 0.0 && speed > 0.0
    ensures Scales(ScaledWait(gap, speed), speed, gap)
  {
  }

  lemma SpanSum(a: real, b: real, speed: real, x: real, y: real)
    requires Scales(a, speed, x) && Scales(b, speed, y)
    ensures Scales(a + b, speed, x + y)
  {
  }

  lemma TimedTail(events: seq<Json>, last: real)
    requires |events| > 0 && TimedFrom(events, last)
    ensures TimedFrom(events[1..], Timestamp(events[0]).value)
  {
    forall i | 0 <= i < |events[1..]|
      ensures Timestamp(events[0]).value <= Timestamp(events[1..][i]).value
    {
      MonotoneFromFirst(events, last, i + 1);
    }
  }

  lemma {:induction false} MonotoneFromFirst(events: seq<Json>, last: real, i: nat)
    requires i < |events| && TimedFrom(events, last)
    ensures Timestamp(events[0]).value <= Timestamp(events[i]).value
  {
    if i > 0 {
      MonotoneFromFirst(events, last, i - 1);
    }
  }

  /** The pause between passes. */
  function LoopDelay(flavor: Flavor, delay: real, r: Run): (r': Run)
    requires Inv(r) && r.status == Playing
    ensures Inv(r') && r'.status in {Playing, Stopped}
    ensures r'.stop == r.stop && r'.checks >= r.checks && r'.executed == r.executed
    ensures r'.passes == r.passes && r'.position == r.position && r'.delays == r.delays
    ensures r.stop.NoStop? ==> r'.status == Playing
    ensures r'.status == Playing ==> Sleeps(r'.log) == Sleeps(r.log) + DelaySleeps(flavor, delay)
    ensures Inputs(r'.log) == Inputs(r.log)
  {
    if flavor == Modern then
      var r' := CountdownWait(delay, r);
      assert r'.status == Playing ==> Sleeps(r'.log) == Sleeps(r.log) + DelaySleeps(flavor, delay) by {
        if r'.status == Playing {
          CountdownSleeps(r.log, Remainders(delay), r'.log);
        }
      }
      r'
    else Emit(r, Sleep(delay))
  }

  /** The sleeps of the pause between passes: the countdown's steps, or one plain sleep (legacy player). */
  function DelaySleeps(flavor: Flavor, delay: real): seq<real> {
    if flavor == Modern then StepsOf(Remainders(delay)) else [delay]
  }

  lemma CountdownSleeps(log: seq<Action>, rs: seq<real>, log': seq<Action>)
    requires log' == log + Ticks(rs) + [Countdown(0.0)]
    ensures Sleeps(log') == Sleeps(log) + StepsOf(rs)
  {
    SleepsAppend(log + Ticks(rs), [Countdown(0.0)]);
    SleepsAppend(log, Ticks(rs));
    TicksSleeps(rs);
    assert [Countdown(0.0)][..0] == [];
  }

  /** `seq` repeated `n` times. */
  function Repeat<T>(s: seq<T>, n: nat): (r: seq<T>)
    ensures |r| == n * |s|
  {
    if n == 0 then [] else Repeat(s, n - 1) + s
  }

  /** The events completed so far are the full passes before the current one and a prefix of the current one. */
  predicate InOrder(events: seq<Json>, r: Run) {
    if r.passes == 0 then r.executed == [] && r.position == 0
    else r.position <= |events| && r.executed == Repeat(events, r.passes - 1) + events[..r.position]
  }

  /** At the top of the outer loop every pass begun so far has been played in full. */
  predicate PassesComplete(events: seq<Json>, r: Run) {
    InOrder(events, r) && (r.passes > 0 ==> r.position == |events|)
  }

  lemma PassesCompleteRepeat(events: seq<Json>, r: Run)
    ensures PassesComplete(events, r) ==> r.executed == Repeat(events, r.passes)
  {
    if r.passes > 0 {
      assert events[..|events|] == events;
    }
  }

  /**
   * The inner `for` loop from the current position on: read the flag, then play the event; a
   * cleared flag or a raised error ends the pass.
   */
  function PlayEvents(flavor: Flavor, cap: Capability, events: seq<Json>, speed: real, last: real, r: Run): (r': Run)
    requires Inv(r) && r.status == Playing && r.passes > 0 && InOrder(events, r)
    ensures Inv(r') && r'.status in {Playing, Stopped, Raised} && InOrder(events, r')
    ensures r'.stop == r.stop && r'.checks >= r.checks && r'.passes == r.passes && r'.delays == r.delays
    ensures r'.status == Playing ==> r'.position == |events|
    ensures r.stop.NoStop? && AllPlayable(flavor, cap, events) ==> r'.status == Playing
    decreases |events| - r.position, 1
  {
    if r.position == |events| then r
    else if !StillPlaying(r) then StopNow(r)
    else PlayNext(flavor, cap, events, speed, last, r)
  }

  /** A turn of the inner loop whose flag read saw the flag set: play the event, then go on unless it raised. */
  function PlayNext(flavor: Flavor, cap: Capability, events: seq<Json>, speed: real, last: real, r: Run): (r': Run)
    requires Inv(r) && r.status == Playing && r.passes > 0 && InOrder(events, r) && r.position < |events|
    ensures Inv(r') && r'.status in {Playing, Stopped, Raised} && InOrder(events, r')
    ensures r'.stop == r.stop && r'.checks >= r.checks && r'.passes == r.passes && r'.delays == r.delays
    ensures r'.status == Playing ==> r'.position == |events|
    ensures r.stop.NoStop? && AllPlayable(flavor, cap, events) ==> r'.status == Playing
    decreases |events| - r.position, 0
  {
    var res := Advance(flavor, cap, events, speed, last, r);
    if res.0.status == Raised then res.0
    else PlayEvents(flavor, cap, events, speed, res.1, res.0)
  }

  /** The inner loop injects exactly the actions of the events it completes. */
  lemma {:induction false} PlayEventsFaithful(flavor: Flavor, cap: Capability, events: seq<Json>, speed: real, last: real, r: Run)
    requires Inv(r) && r.status == Playing && r.passes > 0 && InOrder(events, r) && Faithful(flavor, cap, r)
    ensures var r' := PlayEvents(flavor, cap, events, speed, last, r);
      r'.status != Raised ==> Faithful(flavor, cap, r')
    decreases |events| - r.position
  {
    if r.position < |events| && StillPlaying(r) && Advance(flavor, cap, events, speed, last, r).0.status != Raised {
      var r1, t := AdvancePlays(flavor, cap, events, speed, last, r);
      AdvanceLog(flavor, cap, events, speed, last, r, r1, t);
      var ev := events[r.position];
      assert EventFn(flavor, cap)(ev) == EventActions(flavor, cap, ev);
      FaithfulAppend(EventFn(flavor, cap), r.log, WaitActions(t - last, speed), r.executed, ev);
      PlayEventsUnfold(flavor, cap, events, speed, last, r);
      PlayEventsFaithful(flavor, cap, events, speed, t, r1);
    }
  }

  /** The sleeps of the inner loop: one pause per event, by the gap since the previous timestamp. */
  lemma {:induction false} PlayEventsSleeps(flavor: Flavor, cap: Capability, events: seq<Json>, speed: real, last: real, r: Run)
    requires Inv(r) && r.status == Playing && r.passes > 0 && InOrder(events, r)
    ensures var r' := PlayEvents(flavor, cap, events, speed, last, r);
      r'.status == Playing ==> Sleeps(r'.log) == Sleeps(r.log) + EventWaits(events[r.position..], speed, last)
    decreases |events| - r.position, 1
  {
    var r' := PlayEvents(flavor, cap, events, speed, last, r);
    if r.position == |events| {
      assert r' == r && events[r.position..] == [];
    } else if !StillPlaying(r) {
      assert r'.status == Stopped;
    } else {
      if Advance(flavor, cap, events, speed, last, r).0.status == Raised {
        assert r'.status == Raised;
      } else {
        var r1, t := AdvancePlays(flavor, cap, events, speed, last, r);
        PlayEventsUnfold(flavor, cap, events, speed, last, r);
        PlayEventsSleepsStep(flavor, cap, events, speed, last, r, r1, t, r');
      }
    }
  }

  /** What one turn of the inner loop leaves when the event it plays does not raise. */
  lemma AdvancePlays(flavor: Flavor, cap: Capability, events: seq<Json>, speed: real, last: real, r: Run)
      returns (r1: Run, t: real)
    requires Inv(r) && r.status == Playing && r.passes > 0 && InOrder(events, r) && r.position < |events|
    requires Advance(flavor, cap, events, speed, last, r).0.status != Raised
    ensures (r1, t) == Advance(flavor, cap, events, speed, last, r)
    ensures Inv(r1) && r1.status == Playing && r1.passes > 0 && InOrder(events, r1)
    ensures r1.position == r.position + 1 && Timestamp(events[r.position]) == Some(t)
    ensures Sleeps(r1.log) == Sleeps(r.log) + WaitFor(t - last, speed)
    ensures r1.executed == r.executed + [events[r.position]]
  {
    r1, t := Advance(flavor, cap, events, speed, last, r).0, Advance(flavor, cap, events, speed, last, r).1;
  }

  /** An event played without raising appends its pause, if any, and then exactly its actions. */
  lemma AdvanceLog(flavor: Flavor, cap: Capability, events: seq<Json>, speed: real, last: real, r: Run, r1: Run, t: real)
    requires Inv(r) && r.status == Playing && r.passes > 0 && InOrder(events, r) && r.position < |events|
    requires (r1, t) == Advance(flavor, cap, events, speed, last, r) && r1.status == Playing
    ensures r1.log == r.log + WaitActions(t - last, speed) + EventActions(flavor, cap, events[r.position])
  {
    var r0 := Observed(r);
    var played := PlayEvent(flavor, cap, speed, last, events[r.position], r0);
    PlayEventLog(flavor, cap, speed, last, events[r.position], r0);
    assert r1.log == played.0.log && t == played.1;
  }

  /**
   * The step of `PlayEventsSleeps`: the event at `r`'s position was played without raising, leaving
   * `r1`, and `rEnd` is the rest of the pass from there.
   */
  lemma {:induction false} PlayEventsSleepsStep(flavor: Flavor, cap: Capability, events: seq<Json>, speed: real,
                                                last: real, r: Run, r1: Run, t: real, rEnd: Run)
    requires Inv(r1) && r1.status == Playing && r1.passes > 0 && InOrder(events, r1)
    requires r.position < |events| && r1.position == r.position + 1 && Timestamp(events[r.position]) == Some(t)
    requires Sleeps(r1.log) == Sleeps(r.log) + WaitFor(t - last, speed)
    requires rEnd == PlayEvents(flavor, cap, events, speed, t, r1)
    ensures rEnd.status == Playing ==> Sleeps(rEnd.log) == Sleeps(r.log) + EventWaits(events[r.position..], speed, last)
    decreases |events| - r.position, 0
  {
    PlayEventsSleeps(flavor, cap, events, speed, t, r1);
    SleepsOfPassStep(events, r.position, r1.position, speed, last, t, Sleeps(r.log), Sleeps(r1.log), rEnd);
  }

  /** The inner loop after one event that did not raise goes on from the next position. */
  lemma PlayEventsUnfold(flavor: Flavor, cap: Capability, events: seq<Json>, speed: real, last: real, r: Run)
    requires Inv(r) && r.status == Playing && r.passes > 0 && InOrder(events, r)
    requires r.position < |events| && StillPlaying(r)
    requires Advance(flavor, cap, events, speed, last, r).0.status != Raised
    ensures PlayEvents(flavor, cap, events, speed, last, r)
      == PlayEvents(flavor, cap, events, speed, Advance(flavor, cap, events, speed, last, r).1,
                    Advance(flavor, cap, events, speed, last, r).0)
  {
  }

  /**
   * One turn of the inner loop after the flag read saw it set: play the event at the current
   * position and, unless it raised, count it as executed.
   */
  function Advance(flavor: Flavor, cap: Capability, events: seq<Json>, speed: real, last: real, r: Run): (res: (Run, real))
    requires Inv(r) && r.status == Playing && r.passes > 0 && InOrder(events, r) && r.position < |events|
    ensures Inv(res.0) && InOrder(events, res.0) && res.0.status in {Playing, Raised}
    ensures res.0.stop == r.stop && res.0.checks == r.checks + 1 && res.0.passes == r.passes && res.0.delays == r.delays
    ensures res.0.status == Raised <==> Raises(flavor, cap, events[r.position])
    ensures res.0.status == Playing ==>
      res.0.position == r.position + 1 && Timestamp(events[r.position]) == Some(res.1)
      && Sleeps(res.0.log) == Sleeps(r.log) + WaitFor(res.1 - last, speed)
    ensures res.0.status == Playing ==> res.0.executed == r.executed + [events[r.position]]
  {
    var r0 := Observed(r);
    assert r0.log == r.log;
    var played := PlayEvent(flavor, cap, speed, last, events[r.position], r0);
    if played.0.status == Raised then played
    else (Completed(events, played.0), played.1)
  }

  /** `f` applied to each element of `s`, the results concatenated in order. */
  function FlatMap<T, U>(f: T -> seq<U>, s: seq<T>): seq<U>
    decreases |s|
  {
    if |s| == 0 then [] else FlatMap(f, s[..|s| - 1]) + f(s[|s| - 1])
  }

  lemma {:induction false} FlatMapAppend<T, U>(f: T -> seq<U>, a: seq<T>, b: seq<T>)
    ensures FlatMap(f, a + b) == FlatMap(f, a) + FlatMap(f, b)
    decreases |b|
  {
    if |b| > 0 {
      var b' := b[..|b| - 1];
      assert (a + b)[..|a + b| - 1] == a + b';
      FlatMapAppend(f, a, b');
    } else {
      assert a + b == a;
    }
  }

  lemma {:induction false} FlatMapRepeat<T, U>(f: T -> seq<U>, s: seq<T>, n: nat)
    ensures FlatMap(f, Repeat(s, n)) == Repeat(FlatMap(f, s), n)
  {
    if n > 0 {
      FlatMapRepeat(f, s, n - 1);
      FlatMapAppend(f, Repeat(s, n - 1), s);
    }
  }

  function EventFn(flavor: Flavor, cap: Capability): Json -> seq<Action> {
    ev => EventActions(flavor, cap, ev)
  }

  /** The reference for what playback injects: the actions of each completed event, in order. */
  function ActionsOf(flavor: Flavor, cap: Capability, events: seq<Json>): seq<Action> {
    FlatMap(EventFn(flavor, cap), events)
  }

  /** The input injected so far is exactly what the completed events call for. */
  predicate Faithful(flavor: Flavor, cap: Capability, r: Run) {
    Inputs(r.log) == ActionsOf(flavor, cap, r.executed)
  }

  /**
   * Appending a pause that injects nothing and then the actions `f` gives an event keeps a log's
   * input equal to `f` over the completed events, now one more.
   */
  lemma FaithfulAppend<T>(f: T -> seq<Action>, log: seq<Action>, waits: seq<Action>, executed: seq<T>, ev: T)
    requires forall i :: 0 <= i < |waits| ==> !IsInput(waits[i])
    requires forall i :: 0 <= i < |f(ev)| ==> IsInput(f(ev)[i])
    requires Inputs(log) == FlatMap(f, executed)
    ensures Inputs(log + waits + f(ev)) == FlatMap(f, executed + [ev])
  {
    InputsAppend(log + waits, f(ev));
    InputsAppend(log, waits);
    NoInputs(waits);
    OnlyInputs(f(ev));
    FlatMapSnoc(f, executed, ev);
    assert Inputs(log + waits) == Inputs(log);
  }

  lemma FlatMapSnoc<T, U>(f: T -> seq<U>, s: seq<T>, x: T)
    ensures FlatMap(f, s + [x]) == FlatMap(f, s) + f(x)
  {
    assert (s + [x])[..|s|] == s;
  }

  /** Replaying the recording `n` times injects the recording's actions `n` times over. */
  lemma ActionsOfRepeat(flavor: Flavor, cap: Capability, events: seq<Json>, n: nat)
    ensures ActionsOf(flavor, cap, Repeat(events, n)) == Repeat(ActionsOf(flavor, cap, events), n)
  {
    FlatMapRepeat(EventFn(flavor, cap), events, n);
  }

  lemma SleepsOfPassStep(events: seq<Json>, i: nat, j: nat, speed: real, last: real, t: real,
                          before: seq<real>, mid: seq<real>, rEnd: Run)
    requires i < |events| && j == i + 1 && Timestamp(events[i]) == Some(t)
    requires mid == before + WaitFor(t - last, speed)
    requires rEnd.status == Playing ==> Sleeps(rEnd.log) == mid + EventWaits(events[j..], speed, t)
    ensures rEnd.status == Playing ==> Sleeps(rEnd.log) == before + EventWaits(events[i..], speed, last)
  {
    EventWaitsStep(events, i, speed, last);
  }

  lemma EventWaitsStep(events: seq<Json>, i: nat, speed: real, last: real)
    requires i < |events| && Timestamp(events[i]).Some?
    ensures EventWaits(events[i..], speed, last)
      == WaitFor(Timestamp(events[i]).value - last, speed) + EventWaits(events[i + 1..], speed, Timestamp(events[i]).value)
  {
    assert events[i..][1..] == events[i + 1..];
  }

  /** The sleeps a pass makes before its events, from timestamp `last` on, while the timestamps can be read. */
  function EventWaits(events: seq<Json>, speed: real, last: real): seq<real>
    decreases |events|
  {
    if |events| == 0 then []
    else match Timestamp(events[0])
      case None => []
      case Some(t) => WaitFor(t - last, speed) + EventWaits(events[1..], speed, t)
  }

  /** Records the event at the current position as completed. */
  function Completed(events: seq<Json>, r: Run): (r': Run)
    requires r.passes > 0 && InOrder(events, r) && r.position < |events|
    ensures InOrder(events, r') && r'.position == r.position + 1
    ensures r' == r.(executed := r'.executed, position := r.position + 1)
    ensures r'.executed == r.executed + [events[r.position]]
  {
    assert events[..r.position + 1] == events[..r.position] + [events[r.position]];
    r.(executed := r.executed + [events[r.position]], position := r.position + 1)
  }

  /** The measure the outer loop decreases: passes left when bounded, else flag reads left before the stop. */
  function LoopBound(cfg: Config, r: Run): nat {
    if cfg.loopCount > 0 then (if r.passes <= cfg.loopCount then cfg.loopCount - r.passes else 0)
    else if r.stop.StopAfter? && r.checks <= r.stop.checks then r.stop.checks - r.checks
    else 0
  }

  /** How many delays the worker has begun after `passes` passes: one before every pass but the first. */
  function DelaysFor(cfg: Config, passes: nat): nat {
    if cfg.loopDelay > 0.0 && passes > 0 then passes - 1 else 0
  }

  /** One pass after the flag read that let it start: the delay if any, then the events from the first. */
  function Pass(flavor: Flavor, cap: Capability, events: seq<Json>, cfg: Config, r: Run): (r': Run)
    requires Inv(r) && r.status == Playing && PassesComplete(events, r)
    requires r.delays == DelaysFor(cfg, r.passes)
    ensures Inv(r') && r'.status in {Playing, Stopped, Raised} && InOrder(events, r')
    ensures r'.stop == r.stop && r'.checks >= r.checks && r'.passes == r.passes + 1
    ensures r'.delays == DelaysFor(cfg, r'.passes)
    ensures r'.status == Playing ==> r'.position == |events|
    ensures r.stop.NoStop? && AllPlayable(flavor, cap, events) ==> r'.status == Playing
    ensures r'.status == Playing ==> Sleeps(r'.log) == Sleeps(r.log) + PassSleeps(flavor, events, cfg, r.passes)
  {
    var r2 := BeginPass(flavor, events, cfg, r);
    if r2.status == Stopped then r2
    else
      assert events[r2.position..] == events;
      PlayEventsSleeps(flavor, cap, events, cfg.speed, 0.0, r2);
      PassSleepsSplit(flavor, events, cfg, r.passes, Sleeps(r.log));
      PlayEvents(flavor, cap, events, cfg.speed, 0.0, r2)
  }

  lemma PassSleepsSplit(flavor: Flavor, events: seq<Json>, cfg: Config, p: nat, before: seq<real>)
    ensures before + PassSleeps(flavor, events, cfg, p)
      == before + (if p > 0 && cfg.loopDelay > 0.0 then DelaySleeps(flavor, cfg.loopDelay) else [])
         + EventWaits(events, cfg.speed, 0.0)
  {
  }

  /** A pass injects exactly the actions of the events it completes. */
  lemma PassFaithful(flavor: Flavor, cap: Capability, events: seq<Json>, cfg: Config, r: Run)
    requires Inv(r) && r.status == Playing && PassesComplete(events, r)
    requires r.delays == DelaysFor(cfg, r.passes)
    requires Faithful(flavor, cap, r)
    ensures var r' := Pass(flavor, cap, events, cfg, r);
      r'.status != Raised ==> Faithful(flavor, cap, r')
  {
    var r2 := BeginPass(flavor, events, cfg, r);
    if r2.status == Playing {
      PlayEventsFaithful(flavor, cap, events, cfg.speed, 0.0, r2);
    }
  }

  /** The start of a pass: the pause before every pass but the first, then the pass is counted. */
  function BeginPass(flavor: Flavor, events: seq<Json>, cfg: Config, r: Run): (r2: Run)
    requires Inv(r) && r.status == Playing && PassesComplete(events, r)
    requires r.delays == DelaysFor(cfg, r.passes)
    ensures Inv(r2) && r2.status in {Playing, Stopped} && InOrder(events, r2) && r2.position == 0
    ensures r2.stop == r.stop && r2.checks >= r.checks && r2.passes == r.passes + 1
    ensures r2.delays == DelaysFor(cfg, r2.passes)
    ensures r.stop.NoStop? ==> r2.status == Playing
    ensures r2.status == Playing ==>
      Sleeps(r2.log) == Sleeps(r.log) + (if r.passes > 0 && cfg.loopDelay > 0.0 then DelaySleeps(flavor, cfg.loopDelay) else [])
    ensures r2.executed == r.executed && Inputs(r2.log) == Inputs(r.log)
  {
    PassesCompleteRepeat(events, r);
    var r1 := if r.passes > 0 && cfg.loopDelay > 0.0 then LoopDelay(flavor, cfg.loopDelay, r.(delays := r.delays + 1)) else r;
    var r2 := r1.(passes := r1.passes + 1, position := 0);
    assert r2.executed == Repeat(events, r2.passes - 1) + events[..0];
    r2
  }

  /**
   * The outer `while` loop at the top of a pass: read the flag, stop after `loopCount` passes when
   * it is positive, otherwise play one more pass.
   */
  function Loop(flavor: Flavor, cap: Capability, events: seq<Json>, cfg: Config, r: Run): (r': Run)
    requires Inv(r) && r.status == Playing && PassesComplete(events, r)
    requires cfg.loopCount > 0 || r.stop.StopAfter?
    requires r.delays == DelaysFor(cfg, r.passes)
    requires cfg.loopCount > 0 ==> r.passes <= cfg.loopCount
    ensures Inv(r') && r'.status in {Stopped, Raised, Done} && InOrder(events, r')
    ensures r'.stop == r.stop && r'.passes >= r.passes
    ensures r'.delays == DelaysFor(cfg, r'.passes)
    ensures r'.status == Done ==>
      cfg.loopCount > 0 && r'.passes == cfg.loopCount && PassesComplete(events, r')
    ensures r.stop.NoStop? && AllPlayable(flavor, cap, events) ==> r'.status == Done
    decreases LoopBound(cfg, r), 1
  {
    if !StillPlaying(r) then StopNow(r)
    else if cfg.loopCount > 0 && r.passes >= cfg.loopCount then Observed(r).(status := Done)
    else PassThenLoop(flavor, cap, events, cfg, r)
  }

  /** A flag read that lets one more pass start: that pass, then the loop again unless it ended the run. */
  function PassThenLoop(flavor: Flavor, cap: Capability, events: seq<Json>, cfg: Config, r: Run): (r': Run)
    requires Inv(r) && r.status == Playing && PassesComplete(events, r) && StillPlaying(r)
    requires cfg.loopCount > 0 || r.stop.StopAfter?
    requires r.delays == DelaysFor(cfg, r.passes)
    requires cfg.loopCount > 0 ==> r.passes < cfg.loopCount
    ensures Inv(r') && r'.status in {Stopped, Raised, Done} && InOrder(events, r')
    ensures r'.stop == r.stop && r'.passes > r.passes
    ensures r'.delays == DelaysFor(cfg, r'.passes)
    ensures r'.status == Done ==>
      cfg.loopCount > 0 && r'.passes == cfg.loopCount && PassesComplete(events, r')
    ensures r.stop.NoStop? && AllPlayable(flavor, cap, events) ==> r'.status == Done
    decreases LoopBound(cfg, r), 0
  {
    var r1 := Pass(flavor, cap, events, cfg, Observed(r));
    if r1.status != Playing then r1
    else
      assert LoopBound(cfg, r1) < LoopBound(cfg, r);
      Loop(flavor, cap, events, cfg, r1)
  }

  /** The outer loop injects exactly the actions of the events it completes, unless an event raises. */
  lemma {:induction false} LoopFaithful(flavor: Flavor, cap: Capability, events: seq<Json>, cfg: Config, r: Run)
    requires Inv(r) && r.status == Playing && PassesComplete(events, r)
    requires cfg.loopCount > 0 || r.stop.StopAfter?
    requires r.delays == DelaysFor(cfg, r.passes)
    requires cfg.loopCount > 0 ==> r.passes <= cfg.loopCount
    requires Faithful(flavor, cap, r)
    ensures var r' := Loop(flavor, cap, events, cfg, r);
      r'.status != Raised ==> Faithful(flavor, cap, r')
    decreases LoopBound(cfg, r), 1
  {
    if StillPlaying(r) && !(cfg.loopCount > 0 && r.passes >= cfg.loopCount) {
      PassThenLoopFaithful(flavor, cap, events, cfg, r);
    }
  }

  lemma {:induction false} PassThenLoopFaithful(flavor: Flavor, cap: Capability, events: seq<Json>, cfg: Config, r: Run)
    requires Inv(r) && r.status == Playing && PassesComplete(events, r) && StillPlaying(r)
    requires cfg.loopCount > 0 || r.stop.StopAfter?
    requires r.delays == DelaysFor(cfg, r.passes)
    requires cfg.loopCount > 0 ==> r.passes < cfg.loopCount
    requires Faithful(flavor, cap, r)
    ensures var r' := PassThenLoop(flavor, cap, events, cfg, r);
      r'.status != Raised ==> Faithful(flavor, cap, r')
    decreases LoopBound(cfg, r), 0
  {
    var r1 := Pass(flavor, cap, events, cfg, Observed(r));
    PassFaithful(flavor, cap, events, cfg, Observed(r));
    if r1.status == Playing {
      assert LoopBound(cfg, r1) < LoopBound(cfg, r);
      LoopFaithful(flavor, cap, events, cfg, r1);
    }
  }

  /** When the outer loop runs to its pass limit, it sleeps the reference schedule of the passes still to come. */
  lemma {:induction false} LoopSleeps(flavor: Flavor, cap: Capability, events: seq<Json>, cfg: Config, r: Run)
      returns (r': Run)
    requires Inv(r) && r.status == Playing && PassesComplete(events, r)
    requires cfg.loopCount > 0 || r.stop.StopAfter?
    requires r.delays == DelaysFor(cfg, r.passes)
    requires cfg.loopCount > 0 ==> r.passes <= cfg.loopCount
    ensures r' == Loop(flavor, cap, events, cfg, r)
    ensures r'.status == Done ==> Sleeps(r'.log) == Sleeps(r.log) + Schedule(flavor, events, cfg, r.passes, cfg.loopCount)
    decreases LoopBound(cfg, r), 1
  {
    r' := Loop(flavor, cap, events, cfg, r);
    if StillPlaying(r) && !(cfg.loopCount > 0 && r.passes >= cfg.loopCount) {
      PassThenLoopSleeps(flavor, cap, events, cfg, r);
    }
  }

  lemma {:induction false} PassThenLoopSleeps(flavor: Flavor, cap: Capability, events: seq<Json>, cfg: Config, r: Run)
    requires Inv(r) && r.status == Playing && PassesComplete(events, r) && StillPlaying(r)
    requires cfg.loopCount > 0 || r.stop.StopAfter?
    requires r.delays == DelaysFor(cfg, r.passes)
    requires cfg.loopCount > 0 ==> r.passes < cfg.loopCount
    ensures var r' := PassThenLoop(flavor, cap, events, cfg, r);
      r'.status == Done ==> Sleeps(r'.log) == Sleeps(r.log) + Schedule(flavor, events, cfg, r.passes, cfg.loopCount)
    decreases LoopBound(cfg, r), 0
  {
    var r1 := PassOutcome(flavor, cap, events, cfg, r);
    if r1.status == Playing {
      var r' := LoopSleeps(flavor, cap, events, cfg, r1);
      if r'.status == Done {
        ScheduleStep(flavor, events, cfg, r.passes, Sleeps(r.log), Sleeps(r1.log), Sleeps(r'.log));
      }
    }
  }

  /** The pass a flag read lets start, and what the outer loop needs of it when it ends still playing. */
  lemma PassOutcome(flavor: Flavor, cap: Capability, events: seq<Json>, cfg: Config, r: Run) returns (r1: Run)
    requires Inv(r) && r.status == Playing && PassesComplete(events, r) && StillPlaying(r)
    requires cfg.loopCount > 0 || r.stop.StopAfter?
    requires r.delays == DelaysFor(cfg, r.passes)
    requires cfg.loopCount > 0 ==> r.passes < cfg.loopCount
    ensures r1 == Pass(flavor, cap, events, cfg, Observed(r))
    ensures PassThenLoop(flavor, cap, events, cfg, r) == if r1.status == Playing then Loop(flavor, cap, events, cfg, r1) else r1
    ensures r1.status in {Playing, Stopped, Raised}
    ensures r1.status == Playing ==>
      Inv(r1) && PassesComplete(events, r1) && r1.stop == r.stop && r1.delays == DelaysFor(cfg, r1.passes)
      && r1.passes == r.passes + 1 && (cfg.loopCount > 0 ==> r1.passes <= cfg.loopCount)
      && LoopBound(cfg, r1) < LoopBound(cfg, r)
      && Sleeps(r1.log) == Sleeps(r.log) + PassSleeps(flavor, events, cfg, r.passes)
  {
    r1 := Pass(flavor, cap, events, cfg, Observed(r));
  }

  /** The sleeps of pass number `p` (counting from 0) when nothing interrupts it: the pause, then the gaps. */
  function PassSleeps(flavor: Flavor, events: seq<Json>, cfg: Config, p: nat): seq<real> {
    (if p > 0 && cfg.loopDelay > 0.0 then DelaySleeps(flavor, cfg.loopDelay) else []) + EventWaits(events, cfg.speed, 0.0)
  }

  /** The reference sleep schedule of the passes numbered `from` up to but not including `to`. */
  function Schedule(flavor: Flavor, events: seq<Json>, cfg: Config, from: nat, to: int): seq<real>
    decreases to - from
  {
    if from >= to then [] else PassSleeps(flavor, events, cfg, from) + Schedule(flavor, events, cfg, from + 1, to)
  }

  /** One undisturbed pass followed by the rest of the loop sleeps the schedule from that pass on. */
  lemma ScheduleStep(flavor: Flavor, events: seq<Json>, cfg: Config, p: nat,
                     before: seq<real>, mid: seq<real>, after: seq<real>)
    requires p < cfg.loopCount
    requires mid == before + PassSleeps(flavor, events, cfg, p)
    requires after == mid + Schedule(flavor, events, cfg, p + 1, cfg.loopCount)
    ensures after == before + Schedule(flavor, events, cfg, p, cfg.loopCount)
  {
  }

  /** What one run of the worker leaves behind. */
  datatype Outcome = Outcome(
    log: seq<Action>, pressed: Pressed, executed: seq<Json>, passes: nat, delays: nat,
    stopAccepted: bool, failed: bool)

  /** A run can only go on forever when no pass limit is set and nobody stops it. */
  predicate Finite(cfg: Config, stop: StopPoint) {
    cfg.loopCount > 0 || stop.StopAfter?
  }

  /** What the `except` and `finally` blocks append: an error report if one was raised, the release, completion. */
  function Epilogue(pressed: Pressed, failed: bool): seq<Action> {
    (if failed then [ErrorStatus] else []) + [ReleaseAll(pressed.buttons, pressed.keys), Complete]
  }

  lemma EpilogueCleansUp(log: seq<Action>, failed: bool)
    requires ExactCleanup(log) && Complete !in log && ErrorStatus !in log
    ensures var log' := log + Epilogue(Held(log), failed);
      Held(log') == NothingPressed && ExactCleanup(log')
      && log'[|log'| - 1] == Complete && Complete !in log'[..|log'| - 1]
      && (ErrorStatus in log' <==> failed)
  {
    var p := Held(log);
    var log1 := if failed then log + [ErrorStatus] else log;
    if failed {
      ExtendExact(log, ErrorStatus);
    }
    ReleaseThenComplete(log1);
    assert log + Epilogue(p, failed) == log1 + [ReleaseAll(p.buttons, p.keys), Complete];
  }

  lemma ReleaseThenComplete(log: seq<Action>)
    requires ExactCleanup(log) && Complete !in log
    ensures var p := Held(log);
      var log' := log + [ReleaseAll(p.buttons, p.keys), Complete];
      Held(log') == NothingPressed && ExactCleanup(log')
      && log'[|log'| - 1] == Complete && Complete !in log'[..|log'| - 1]
      && (ErrorStatus in log' <==> ErrorStatus in log)
  {
    var p := Held(log);
    var rel := ReleaseAll(p.buttons, p.keys);
    ExtendExact(log, rel);
    ExtendExact(log + [rel], Complete);
    assert log + [rel, Complete] == (log + [rel]) + [Complete];
    LastAppended(log, rel);
  }

  lemma LastAppended(log: seq<Action>, rel: Action)
    requires Complete !in log && rel.ReleaseAll?
    ensures var log' := log + [rel, Complete];
      log'[|log'| - 1] == Complete && Complete !in log'[..|log'| - 1]
      && (ErrorStatus in log' <==> ErrorStatus in log)
  {
    var log' := log + [rel, Complete];
    assert log'[..|log'| - 1] == log + [rel];
  }

  /**
   * The worker from start to end: clear the held sets, loop, report an error if one was raised,
   * release everything held and signal completion once.
   */
  function Play(flavor: Flavor, cap: Capability, events: seq<Json>, cfg: Config, stop: StopPoint): (o: Outcome)
    requires Finite(cfg, stop)
    ensures o.pressed == NothingPressed && Held(o.log) == NothingPressed && ExactCleanup(o.log)
    ensures |o.log| > 0 && o.log[|o.log| - 1] == Complete && Complete !in o.log[..|o.log| - 1]
    ensures o.failed <==> ErrorStatus in o.log
    ensures o.delays == DelaysFor(cfg, o.passes)
    ensures o.passes == 0 ==> o.executed == []
    ensures o.passes > 0 ==>
      exists k :: 0 <= k <= |events| && o.executed == Repeat(events, o.passes - 1) + events[..k]
    ensures !o.stopAccepted && !o.failed ==>
      cfg.loopCount > 0 && o.passes == cfg.loopCount && o.executed == Repeat(events, cfg.loopCount)
    ensures stop.NoStop? && AllPlayable(flavor, cap, events) ==>
      !o.stopAccepted && !o.failed && o.executed == Repeat(events, cfg.loopCount)
    ensures !o.failed ==> Inputs(o.log) == ActionsOf(flavor, cap, o.executed)
    ensures !o.stopAccepted && !o.failed ==>
      Inputs(o.log) == Repeat(ActionsOf(flavor, cap, events), cfg.loopCount)
      && Sleeps(o.log) == Schedule(flavor, events, cfg, 0, cfg.loopCount)
    ensures stop.NoStop? && AllPlayable(flavor, cap, events) ==>
      Inputs(o.log) == Repeat(ActionsOf(flavor, cap, events), cfg.loopCount)
      && Sleeps(o.log) == Schedule(flavor, events, cfg, 0, cfg.loopCount)
  {
    var start := Run([], NothingPressed, stop, 0, [], 0, 0, 0, Playing);
    var r := Loop(flavor, cap, events, cfg, start);
    var failed := r.status == Raised;
    PassesCompleteRepeat(events, r);
    EpilogueCleansUp(r.log, failed);
    LoopFaithful(flavor, cap, events, cfg, start);
    StartSleeps(flavor, cap, events, cfg, start);
    EpilogueQuiet(r.log, r.pressed, failed);
    ActionsOfRepeat(flavor, cap, events, if cfg.loopCount > 0 then cfg.loopCount else 0);
    Outcome(r.log + Epilogue(r.pressed, failed), NothingPressed, r.executed, r.passes, r.delays,
            r.status == Stopped, failed)
  }

  /** A run that reaches its pass limit from the start sleeps the whole reference schedule. */
  lemma StartSleeps(flavor: Flavor, cap: Capability, events: seq<Json>, cfg: Config, start: Run)
    requires start == Run([], NothingPressed, start.stop, 0, [], 0, 0, 0, Playing)
    requires Finite(cfg, start.stop)
    ensures var r' := Loop(flavor, cap, events, cfg, start);
      r'.status == Done ==> Sleeps(r'.log) == Schedule(flavor, events, cfg, 0, cfg.loopCount)
  {
    var _ := LoopSleeps(flavor, cap, events, cfg, start);
  }

  /** The epilogue neither injects input nor sleeps. */
  lemma EpilogueQuiet(log: seq<Action>, pressed: Pressed, failed: bool)
    ensures Inputs(log + Epilogue(pressed, failed)) == Inputs(log)
    ensures Sleeps(log + Epilogue(pressed, failed)) == Sleeps(log)
  {
    var e := Epilogue(pressed, failed);
    InputsAppend(log, e);
    SleepsAppend(log, e);
    NoInputs(e);
    NoSleeps(e);
  }
}

=== FILE: player.dfy ===
/**
 * The player object around the playback engine: `start` admits a run only when there are events
 * and nothing is playing, `stop` clears the flag and releases what the player holds, and a run of
 * the worker always leaves the player idle with nothing held.
 */
module Player {
  import opened Wrappers
  import opened Strings
  import opened Json
  import opened Injection
  import opened Playback
  import opened Notices

  /** The player's flag and the buttons and keys it tracks as held. */
  datatype PlayerState = PlayerState(playing: bool, pressed: Pressed)

  const Initial := PlayerState(false, NothingPressed)

  /** The status line shown when a run is admitted. */
  function StartNotice(loopCount: int): Notice {
    if loopCount == 0 then Notice("Playing recording (Infinite loops)...", "blue")
    else Notice("Playing recording (" + IntToString(loopCount) + " loops)...", "blue")
  }

  datatype Admission = Admission(state: PlayerState, started: bool, notices: seq<Notice>)

  /** `start`: refused without events (with a notice) and while playing (silently); otherwise the flag is set. */
  function Start(p: PlayerState, events: seq<Json>, loopCount: int): (a: Admission)
    ensures a.started <==> |events| > 0 && !p.playing
    ensures !a.started ==> a.state == p
    ensures a.started ==> a.state.playing && a.state.pressed == p.pressed
    ensures |events| == 0 ==> a.notices == [Notice("No events to play!", "red")]
    ensures |events| > 0 && p.playing ==> a.notices == []
  {
    if |events| == 0 then Admission(p, false, [Notice("No events to play!", "red")])
    else if p.playing then Admission(p, false, [])
    else Admission(p.(playing := true), true, [StartNotice(loopCount)])
  }

  datatype Halt = Halt(state: PlayerState, stopped: bool, released: seq<Action>, notices: seq<Notice>)

  /** `stop` with `_release_all_pressed`: while playing, release every held button and key in one sweep. */
  function Stop(p: PlayerState): (h: Halt)
    ensures h.stopped <==> p.playing
    ensures !h.stopped ==> h.state == p && h.released == [] && h.notices == []
    ensures h.stopped ==> !h.state.playing && h.state.pressed == NothingPressed
    ensures h.stopped ==> |h.released| == 1 && Apply(p.pressed, h.released[0]) == NothingPressed
    ensures h.stopped ==>
      (forall b :: b in p.pressed.buttons ==> ReleasesButton(h.released[0], b))
      && (forall k :: k in p.pressed.keys ==> ReleasesKey(h.released[0], k))
  {
    if !p.playing then Halt(p, false, [], [])
    else Halt(Initial, true, [ReleaseAll(p.pressed.buttons, p.pressed.keys)], [Notice("Playback stopped!", "orange")])
  }

  /** A started player that is stopped again is back where a new player starts. */
  lemma StartThenStop(events: seq<Json>, loopCount: int)
    requires |events| > 0
    ensures var a := Start(Initial, events, loopCount);
      a.started && Stop(a.state).stopped && Stop(a.state).state == Initial
      && Stop(a.state).released == [ReleaseAll({}, {})]
  {
  }

  /** Stopping twice: the second call finds the player idle and does nothing. */
  lemma StopIsIdempotent(p: PlayerState)
    ensures var h := Stop(p);
      !Stop(h.state).stopped && Stop(h.state).state == h.state
  {
  }

  /** What a call to `start` leads to: the refusal, or the admitted run carried out by the worker. */
  datatype Session = Session(state: PlayerState, started: bool, run: Option<Outcome>)

  /**
   * `start` followed, when admitted, by `_playback_worker` in the modern flavour. An admitted run
   * ends with the flag down and nothing held, every bulk release exact, the completion callback
   * fired exactly once and last, and, undisturbed and error-free, exactly `loop_count` passes
   * over the events in order.
   */
  function PlaySession(p: PlayerState, cap: Capability, events: seq<Json>, cfg: Config, stop: StopPoint): (s: Session)
    requires Finite(cfg, stop)
    ensures s.started <==> |events| > 0 && !p.playing
    ensures !s.started ==> s.state == p && s.run.None?
    ensures s.started ==> s.state == Initial && s.run.Some?
    ensures s.run.Some? ==>
      var o := s.run.value;
      Held(o.log) == NothingPressed && ExactCleanup(o.log) && EveryPressReleased(o.log) && |o.log| > 0
      && o.log[|o.log| - 1] == Complete && Complete !in o.log[..|o.log| - 1]
      && (o.failed <==> ErrorStatus in o.log)
    ensures s.run.Some? && stop.NoStop? && AllPlayable(Modern, cap, events) ==>
      !s.run.value.stopAccepted && !s.run.value.failed
      && s.run.value.passes == cfg.loopCount && s.run.value.executed == Repeat(events, cfg.loopCount)
    ensures s.run.Some? && !s.run.value.failed ==>
      Inputs(s.run.value.log) == ActionsOf(Modern, cap, s.run.value.executed)
    ensures s.run.Some? && stop.NoStop? && AllPlayable(Modern, cap, events) ==>
      Inputs(s.run.value.log) == Repeat(ActionsOf(Modern, cap, events), cfg.loopCount)
      && Sleeps(s.run.value.log) == Schedule(Modern, events, cfg, 0, cfg.loopCount)
  {
    var a := Start(p, events, cfg.loopCount);
    if !a.started then Session(p, false, None)
    else
      var o := Play(Modern, cap, events, cfg, stop);
      NothingHeldMeansEveryPressReleased(o.log);
      Session(Initial, true, Some(o))
  }
}

=== FILE: player_keys.dfy ===
/**
 * How the player turns a recorded key name back into something to inject, and the label it shows
 * for it: keypad names become the characters the keypad types, "Key.<member>" becomes the member,
 * anything else is typed as it stands.
 */
module PlayerKeys {
  import opened Wrappers
  import opened Strings
  import opened Keys
  import opened KeyUtils
  import opened Injection

  /** The character each keypad key name types (every keypad key except enter). */
  function NumpadChar(name: string): Option<string> {
    match name
    case "num_0" => Some("0")
    case "num_1" => Some("1")
    case "num_2" => Some("2")
    case "num_3" => Some("3")
    case "num_4" => Some("4")
    case "num_5" => Some("5")
    case "num_6" => Some("6")
    case "num_7" => Some("7")
    case "num_8" => Some("8")
    case "num_9" => Some("9")
    case "num_decimal" => Some(".")
    case "num_add" => Some("+")
    case "num_subtract" => Some("-")
    case "num_multiply" => Some("*")
    case "num_divide" => Some("/")
    case _ => None
  }

  /** The label the player shows for each keypad key name. */
  function NumpadLabel(name: string): Option<string> {
    match name
    case "num_0" => Some("NUM 0")
    case "num_1" => Some("NUM 1")
    case "num_2" => Some("NUM 2")
    case "num_3" => Some("NUM 3")
    case "num_4" => Some("NUM 4")
    case "num_5" => Some("NUM 5")
    case "num_6" => Some("NUM 6")
    case "num_7" => Some("NUM 7")
    case "num_8" => Some("NUM 8")
    case "num_9" => Some("NUM 9")
    case "num_decimal" => Some("NUM .")
    case "num_add" => Some("NUM +")
    case "num_subtract" => Some("NUM -")
    case "num_multiply" => Some("NUM *")
    case "num_divide" => Some("NUM /")
    case "num_enter" => Some("NUM ENTER")
    case _ => None
  }

  /** Short labels for some upper-cased member names; the arrows are shown as arrow characters. */
  function SpecialLabel(upperName: string): Option<string> {
    match upperName
    case "SPACE" => Some("SPACE")
    case "ENTER" => Some("ENTER")
    case "BACKSPACE" => Some("BACKSPACE")
    case "TAB" => Some("TAB")
    case "CAPS_LOCK" => Some("CAPS")
    case "SHIFT" => Some("SHIFT")
    case "SHIFT_R" => Some("R-SHIFT")
    case "CTRL" => Some("CTRL")
    case "CTRL_L" => Some("L-CTRL")
    case "CTRL_R" => Some("R-CTRL")
    case "ALT" => Some("ALT")
    case "ALT_L" => Some("L-ALT")
    case "ALT_R" => Some("R-ALT")
    case "ALT_GR" => Some("ALT GR")
    case "UP" => Some("\U{2191}")
    case "DOWN" => Some("\U{2193}")
    case "LEFT" => Some("\U{2190}")
    case "RIGHT" => Some("\U{2192}")
    case "DELETE" => Some("DEL")
    case "INSERT" => Some("INS")
    case "HOME" => Some("HOME")
    case "END" => Some("END")
    case "PAGE_UP" => Some("PG UP")
    case "PAGE_DOWN" => Some("PG DN")
    case _ => None
  }

  /**
   * `_parse_key`: the key to inject for a recorded key name, or `None` when the name is
   * "Key.<attr>" and `Key` has no member `attr`.
   */
  function ParseKey(keyName: string): (r: Option<InjKey>)
    ensures NumpadChar(keyName).Some? ==> r == Some(TextKey(NumpadChar(keyName).value))
    ensures r.None? ==> StartsWith(keyName, "Key.")
    ensures r.Some? && r.value.NamedKey? ==> r.value.name in KeyNames
    ensures NumpadChar(keyName).None? && keyName == "num_enter" ==> r == Some(NamedKey("enter"))
    ensures StartsWith(keyName, "Key.") && KeyMember(TakeUntilDot(Drop(keyName, 4))).None? ==> r.None?
    ensures StartsWith(keyName, "Key.") && KeyMember(TakeUntilDot(Drop(keyName, 4))).Some? ==>
              r == Some(NamedKey(KeyMember(TakeUntilDot(Drop(keyName, 4))).value))
    ensures NumpadChar(keyName).None? && keyName != "num_enter" && !StartsWith(keyName, "Key.") ==>
              r == Some(TextKey(keyName))
  {
    KeyPrefixIsNotKeypadName(keyName);
    if NumpadChar(keyName).Some? then Some(TextKey(NumpadChar(keyName).value))
    else if keyName == "num_enter" then Some(NamedKey("enter"))
    else if StartsWith(keyName, "Key.") then
      (match KeyMember(TakeUntilDot(Drop(keyName, 4)))
       case Some(m) => Some(NamedKey(m))
       case None => None)
    else Some(TextKey(keyName))
  }

  /** A "Key."-prefixed name is none of the keypad names. */
  lemma KeyPrefixIsNotKeypadName(keyName: string)
    ensures StartsWith(keyName, "Key.") ==> NumpadChar(keyName).None? && keyName != "num_enter"
  {
    if StartsWith(keyName, "Key.") {
      assert keyName[0] == 'K';
    }
  }

  /** `_get_display_name`: the label the player shows while it replays a key. */
  function DisplayName(keyName: string): (r: string)
    ensures NumpadLabel(keyName).Some? ==> r == NumpadLabel(keyName).value
    ensures NumpadLabel(keyName).None? && !StartsWith(keyName, "Key.") ==> r == keyName
  {
    if NumpadLabel(keyName).Some? then NumpadLabel(keyName).value
    else if StartsWith(keyName, "Key.") then
      var upper := Upper(ReplaceAll(keyName, "Key.", ""));
      SpecialLabel(upper).GetOr(upper)
    else keyName
  }

  /** The player's keypad labels are the classifier's: every row of the keysym table agrees. */
  lemma NumpadLabelsAgree(k: int)
    requires X11NumpadKeysym(k).Some?
    ensures DisplayName(X11NumpadKeysym(k).value.name) == X11NumpadKeysym(k).value.display
  {
  }

  /**
   * A recorded keypad name (other than enter) is replayed as a character that the classifier,
   * seeing it arrive without a virtual-key code, files under the same keypad name.
   */
  lemma NumpadNameReplaysAsSameKeypadKey(k: int)
    requires X11NumpadKeysym(k).Some? && k != 65421
    ensures ParseKey(X11NumpadKeysym(k).value.name).Some?
    ensures ParseKey(X11NumpadKeysym(k).value.name).value.TextKey?
    ensures AnalyzeKey(Char(ParseKey(X11NumpadKeysym(k).value.name).value.text, None)).keyName
            == X11NumpadKeysym(k).value.name
  {
    var name := X11NumpadKeysym(k).value.name;
    assert NumpadChar(name).Some?;
    KeypadNameReplays(name);
  }

  lemma KeypadNameReplays(name: string)
    requires NumpadChar(name).Some?
    ensures AnalyzeKey(Char(NumpadChar(name).value, None)).keyName == name
  {
    var c := NumpadChar(name).value;
    if name == "num_decimal" {
      DecimalIsKeypadChar(c);
    } else if name == "num_add" {
      PlusIsKeypadChar(c);
    } else if name in {"num_subtract", "num_multiply", "num_divide"} {
      OperatorIsKeypadChar(c);
    } else {
      assert name == "num_" + c;
      DigitIsKeypadChar(c);
    }
  }

  lemma DigitIsKeypadChar(c: string)
    requires |c| == 1 && '0' <= c[0] <= '9'
    ensures AnalyzeKey(Char(c, None)).keyName == "num_" + c
  {
    var key := Char(c, None);
    DigitIsContained(c);
    assert KeypadCharInfo(key, c) == Some(NumpadInfo(key, "num_" + c, "NUM " + c, NumpadCharId(c)));
  }

  lemma DigitIsContained(c: string)
    requires |c| == 1 && '0' <= c[0] <= '9'
    ensures Contains("0123456789", c)
  {
    var i := c[0] as int - '0' as int;
    assert "0123456789"[i] == c[0];
    assert "0123456789"[i..i + 1] == c;
    assert OccursAt("0123456789", c, i);
  }

  lemma PlusIsKeypadChar(c: string)
    requires c == "+"
    ensures AnalyzeKey(Char(c, None)).keyName == "num_add"
  {
    NotContainedByFirstChar("0123456789", c);
    assert OccursAt("+", c, 0);
  }

  lemma OperatorIsKeypadChar(c: string)
    requires c in {"-", "*", "/"}
    ensures AnalyzeKey(Char(c, None)).keyName == NumpadKeyNameOfOperator(c)
  {
    NotContainedByFirstChar("0123456789", c);
    NotContainedByFirstChar("+", c);
  }

  function NumpadKeyNameOfOperator(c: string): string {
    if c == "-" then "num_subtract" else if c == "*" then "num_multiply" else "num_divide"
  }

  lemma DecimalIsKeypadChar(c: string)
    requires c == "."
    ensures AnalyzeKey(Char(c, None)).keyName == "num_decimal"
  {
    NotContainedByFirstChar("0123456789", c);
    NotContainedByFirstChar("+", c);
    assert OccursAt(".,", c, 0);
  }

  /** The keypad enter key is replayed as the main enter member. */
  lemma NumpadEnterReplaysAsEnter()
    ensures ParseKey("num_enter") == Some(NamedKey("enter"))
    ensures "enter" in KeyNames
  {
    assert KeyNames3[0] == "enter";
    assert KeyNamesAtoF11[15] == KeyNames3[0];
    assert KeyNames[15] == KeyNamesAtoF11[15];
  }

  /** Names that do not start with 'n' are not keypad names. */
  lemma NotKeypadName(s: string)
    requires |s| > 0 && s[0] != 'n'
    ensures NumpadChar(s).None? && NumpadLabel(s).None? && s != "num_enter"
  {
  }

  /** "Key.<member>", the form the legacy recorder stores, is replayed as that member. */
  lemma MemberStringReplaysAsMember(n: string)
    requires n in KeyNames
    ensures ParseKey(Str(Named(n))) == Some(NamedKey(n))
  {
    KeyNameShape(n);
    PrefixedIdentParse(n);
  }

  lemma PrefixedIdentParse(n: string)
    requires IsLowerIdent(n)
    ensures ParseKey("Key." + n) == (if n in KeyNames then Some(NamedKey(n)) else None)
  {
    var s := "Key." + n;
    NotKeypadName(s);
    assert s[..4] == "Key.";
    assert Drop(s, 4) == n;
    TakeUntilDotOfIdent(n);
  }

  /**
   * The label for "Key.<member>" is the member's upper-cased name, as the classifier labels that
   * key, unless the short-label table gives it another one.
   */
  lemma MemberStringLabel(n: string)
    requires n in KeyNames
    ensures SpecialLabel(Upper(n)).None? ==> DisplayName(Str(Named(n))) == AnalyzeKey(Named(n)).displayName
    ensures SpecialLabel(Upper(n)).Some? ==> DisplayName(Str(Named(n))) == SpecialLabel(Upper(n)).value
  {
    KeyNameShape(n);
    PrefixedIdentLabel(n);
  }

  lemma PrefixedIdentLabel(n: string)
    requires IsLowerIdent(n)
    ensures DisplayName("Key." + n) == SpecialLabel(Upper(n)).GetOr(Upper(n))
  {
    var s := "Key." + n;
    NotKeypadName(s);
    assert s[..4] == "Key.";
    assert s[4..] == n;
    assert 'K' !in n;
    ReplaceAllAbsent(n, "Key.", "");
    assert ReplaceAll(s, "Key.", "") == "" + ReplaceAll(s[4..], "Key.", "");
    assert ReplaceAll(s, "Key.", "") == n;
    assert StartsWith(s, "Key.");
    assert NumpadLabel(s).None?;
  }

  /**
   * A special key as the classifier names it (upper case, no prefix) is not read back as the member:
   * the player hands the name to the keyboard as a plain string.
   */
  lemma ClassifierNameReplaysAsText(n: string)
    requires n in KeyNames
    ensures ParseKey(AnalyzeKey(Named(n)).keyName) == Some(TextKey(Upper(n)))
  {
    KeyNameShape(n);
    UpperIdentParse(n);
  }

  lemma UpperIdentParse(n: string)
    requires IsLowerIdent(n) && |n| >= 2
    ensures ParseKey(Upper(n)) == Some(TextKey(Upper(n)))
  {
    var u := Upper(n);
    assert u[0] == UpperChar(n[0]);
    assert u[1] == UpperChar(n[1]);
    NotKeypadName(u);
    assert !StartsWith(u, "Key.");
  }
}

=== FILE: recorder.dfy ===
/**
 * The recorder the application uses: an idle/recording state machine over an append-only list
 * of event dicts. Keys are recorded under the name the key-identity classifier gives them, and
 * keys matching a configured hotkey are not recorded at all.
 */
module Recorder {
  import opened Wrappers
  import opened Strings
  import opened Keys
  import opened Json
  import opened KeyUtils
  import opened Injection
  import opened Playback
  import opened PlayerKeys
  import opened Notices
  import Events

  /**
   * An entry of the ignore list: an analysed key (compared by identity) or a raw key object
   * (compared with the input library's equality).
   */
  datatype Ignored = IgnoredInfo(info: KeyInfo) | IgnoredRaw(key: RawKey)

  datatype State = State(recording: bool, events: seq<Json>, startTime: real, ignored: seq<Ignored>)

  const Initial := State(false, [], 0.0, [])

  datatype Step = Step(state: State, ok: bool, notices: seq<Notice>)

  /** `set_ignored_keys`: replaces the ignore list and nothing else, whether or not recording. */
  function SetIgnoredKeys(s: State, keys: seq<Ignored>): (s': State)
    ensures s'.ignored == keys
    ensures s'.recording == s.recording && s'.events == s.events && s'.startTime == s.startTime
  {
    s.(ignored := keys)
  }

  /** `start`: refused, silently and without change, while recording; otherwise the list is emptied and the clock restarts. */
  function Start(s: State, now: real): (st: Step)
    ensures st.ok <==> !s.recording
    ensures !st.ok ==> st.state == s && st.notices == []
    ensures st.ok ==> st.state == s.(recording := true, events := [], startTime := now)
    ensures st.ok ==> st.notices == [Notice("Recording... Click and type!", "red")]
  {
    if s.recording then Step(s, false, [])
    else Step(s.(recording := true, events := [], startTime := now), true, [Notice("Recording... Click and type!", "red")])
  }

  datatype RecordingEnd = RecordingEnd(state: State, count: nat, notice: Notice)

  /** `stop`: always leaves the recorder idle and reports the number of events held. */
  function Stop(s: State): (st: RecordingEnd)
    ensures st.state == s.(recording := false) && st.count == |s.events|
    ensures st.notice == Notice("Recording stopped. " + IntToString(|s.events|) + " events recorded.", "green")
  {
    RecordingEnd(s.(recording := false), |s.events|, Notice("Recording stopped. " + IntToString(|s.events|) + " events recorded.", "green"))
  }

  /** Stopping again changes nothing and reports the same count. */
  lemma StopTwice(s: State)
    ensures Stop(Stop(s).state).state == Stop(s).state && Stop(Stop(s).state).count == Stop(s).count
  {
  }

  /** A recording started and stopped at once holds no events. */
  lemma StartThenStop(s: State, now: real)
    requires !s.recording
    ensures Stop(Start(s, now).state).count == 0 && !Stop(Start(s, now).state).state.recording
  {
  }

  /** `clear`: empties the list, without stopping a recording in progress. */
  function Clear(s: State): (st: Step)
    ensures EventCount(st.state) == 0 && st.ok && st.notices == [Notice("Recording cleared!", "green")]
    ensures st.state.recording == s.recording && st.state.startTime == s.startTime && st.state.ignored == s.ignored
  {
    Step(s.(events := []), true, [Notice("Recording cleared!", "green")])
  }

  /** `set_events`: the loaded list replaces the recorded one, whatever the recorder is doing. */
  function SetEvents(s: State, events: seq<Json>): (s': State)
    ensures s'.events == events && EventCount(s') == |events|
    ensures s'.recording == s.recording && s'.startTime == s.startTime && s'.ignored == s.ignored
  {
    s.(events := events)
  }

  /** `event_count`: the number of events held, counted as the session's length is. */
  function EventCount(s: State): (n: nat)
    ensures n == |s.events|
  {
    Events.Length(Events.RecordingSession(s.events))
  }

  /** Whether one ignore-list entry covers an observed key. */
  predicate Matches(entry: Ignored, key: RawKey) {
    match entry
    case IgnoredInfo(info) => AnalyzeKey(key).normalized == info.normalized
    case IgnoredRaw(k) => RawEq(k, key)
  }

  /** `_is_ignored_key`: scans the list and stops at the first entry that covers the key. */
  function IsIgnoredKey(ignored: seq<Ignored>, key: RawKey): (r: bool)
    ensures r <==> exists i :: 0 <= i < |ignored| && Matches(ignored[i], key)
    decreases |ignored|
  {
    if |ignored| == 0 then false
    else if Matches(ignored[0], key) then true
    else
      var rest := IsIgnoredKey(ignored[1..], key);
      assert forall i :: 1 <= i < |ignored| ==> ignored[i] == ignored[1..][i - 1];
      rest
  }

  /** `_on_click`: while recording, append the click with its time since the start of recording. */
  function OnClick(s: State, now: real, x: int, y: int, button: Button, pressed: bool): (s': State)
    ensures !s.recording ==> s' == s
    ensures s.recording ==> |s'.events| == |s.events| + 1 && s' == s.(events := s.events + [s'.events[|s.events|]])
    ensures s.recording ==>
      Events.MouseFromDict(s'.events[|s.events|])
      == Some(Events.MouseEvent(JInt(x), JInt(y), JStr(ButtonStr(button)), JBool(pressed), JFloat(now - s.startTime)))
    ensures s.recording ==> s'.events[|s.events|].JObj? && s'.events[|s.events|].fields.Keys == {"type", "x", "y", "button", "pressed", "timestamp"}
    ensures s.recording ==> s'.events[|s.events|].fields["type"] == JStr(Events.MouseClickType)
  {
    if !s.recording then s
    else
      var m := Events.MouseEvent(JInt(x), JInt(y), JStr(ButtonStr(button)), JBool(pressed), JFloat(now - s.startTime));
      Events.MouseRoundTrip(m);
      s.(events := s.events + [Events.MouseToDict(m)])
  }

  /** `_on_key_press` and `_on_key_release`: while recording, append the key under its classifier name unless it is ignored. */
  function OnKey(s: State, now: real, key: RawKey, press: bool): (s': State)
    ensures !s.recording || IsIgnoredKey(s.ignored, key) ==> s' == s
    ensures s.recording && !IsIgnoredKey(s.ignored, key) ==>
      |s'.events| == |s.events| + 1 && s' == s.(events := s.events + [s'.events[|s.events|]])
      && Events.KeyFromDict(s'.events[|s.events|])
         == Some(Events.KeyEvent(JStr(AnalyzeKey(key).keyName), press, JFloat(now - s.startTime)))
  {
    if !s.recording || IsIgnoredKey(s.ignored, key) then s
    else
      var k := Events.KeyEvent(JStr(AnalyzeKey(key).keyName), press, JFloat(now - s.startTime));
      Events.KeyRoundTrip(k);
      s.(events := s.events + [Events.KeyToDict(k)])
  }

  /** Nothing is recorded while idle. */
  lemma IdleRecordsNothing(s: State, now: real, x: int, y: int, b: Button, p: bool, key: RawKey)
    requires !s.recording
    ensures OnClick(s, now, x, y, b, p) == s && OnKey(s, now, key, p) == s
  {
  }

  /** The count `stop` reports grows by one for each click, and each key that is not ignored, seen while recording. */
  lemma CountTracksInput(s: State, now: real, x: int, y: int, b: Button, p: bool, key: RawKey)
    ensures EventCount(OnClick(s, now, x, y, b, p)) == EventCount(s) + (if s.recording then 1 else 0)
    ensures EventCount(OnKey(s, now, key, p)) == EventCount(s) + (if s.recording && !IsIgnoredKey(s.ignored, key) then 1 else 0)
    ensures Stop(s).count == EventCount(s)
  {
  }

  /**
   * The setters act on their own part only: a new ignore list decides which later keys are
   * recorded, loaded events are what `stop` then reports, and clearing after a load is clearing.
   */
  lemma SettersAgreeWithCount(s: State, events: seq<Json>, keys: seq<Ignored>, now: real, key: RawKey, p: bool)
    ensures Stop(SetEvents(s, events)).count == |events|
    ensures Clear(SetEvents(s, events)).state == Clear(s).state
    ensures EventCount(SetIgnoredKeys(s, keys)) == EventCount(s)
    ensures EventCount(OnKey(SetIgnoredKeys(s, keys), now, key, p))
            == EventCount(s) + (if s.recording && !IsIgnoredKey(keys, key) then 1 else 0)
  {
  }

  /** A raw hotkey on the ignore list is never recorded. */
  lemma RawHotkeyNeverRecorded(s: State, now: real, i: nat, press: bool)
    requires i < |s.ignored| && s.ignored[i].IgnoredRaw?
    ensures OnKey(s, now, s.ignored[i].key, press) == s
  {
    RawEqSymmetricReflexive(s.ignored[i].key, s.ignored[i].key);
  }

  /**
   * An analysed hotkey captured as an upper-case letter also suppresses the lower-case press of
   * the same key: identities fold case.
   */
  lemma AnalysedHotkeyIgnoresEitherCase(s: State, now: real, c: string, vk: Option<int>, press: bool)
    requires vk.Some? && IgnoredInfo(AnalyzeKey(Char(Upper(c), vk))) in s.ignored
    ensures OnKey(s, now, Char(c, vk), press) == s
  {
    CharKeysMatchAcrossCase(c, vk);
    var i :| 0 <= i < |s.ignored| && s.ignored[i] == IgnoredInfo(AnalyzeKey(Char(Upper(c), vk)));
    assert Matches(s.ignored[i], Char(c, vk));
  }

  /** A character typed on the main keyboard is recorded in lower case, whatever the shift state. */
  lemma CharRecordedLowerCase(s: State, now: real, c: string, vk: Option<int>, press: bool)
    requires s.recording && vk.Some? && !IsIgnoredKey(s.ignored, Char(c, vk))
    ensures Events.KeyFromDict(OnKey(s, now, Char(c, vk), press).events[|s.events|]).value.key == JStr(Lower(c))
  {
  }

  /**
   * A click of one of the three main buttons is replayed by the player as a move to the recorded
   * position and the same press or release of the same button.
   */
  lemma RecordedClickReplays(s: State, now: real, x: int, y: int, b: Button, pressed: bool, r: Run)
    requires s.recording && b in {Left, Right, Middle}
    requires Inv(r) && r.status == Playing
    ensures var ev := OnClick(s, now, x, y, b, pressed).events[|s.events|];
      Execute(Modern, AcceptsAll, ev.fields, r).log
      == r.log + [MoveTo(JInt(x), JInt(y)), if pressed then ButtonDown(b) else ButtonUp(b)]
  {
    var ev := OnClick(s, now, x, y, b, pressed).events[|s.events|];
    assert ev == Events.MouseToDict(Events.MouseEvent(JInt(x), JInt(y), JStr(ButtonStr(b)), JBool(pressed), JFloat(now - s.startTime)));
    ResolveButtonOfStr(b);
    assert Truthy(JBool(pressed)) == pressed;
  }

  /**
   * A special key is recorded under its upper-cased member name, which the player does not read
   * back as the member: it hands the name to the keyboard as a plain string.
   */
  lemma RecordedSpecialKeyReplaysAsText(s: State, now: real, n: string, press: bool)
    requires s.recording && n in KeyNames && !IsIgnoredKey(s.ignored, Named(n))
    ensures var k := Events.KeyFromDict(OnKey(s, now, Named(n), press).events[|s.events|]).value.key;
      k == JStr(Upper(n)) && EventKey(Modern, k) == Some(TextKey(Upper(n)))
  {
    ClassifierNameReplaysAsText(n);
  }

  /**
   * The keyboard controller takes a string key only when it is a single character, and every member
   * name has at least two. A controller that refuses the recorded name makes the player report the
   * press and skip it, so replaying the recorded press injects nothing and playback goes on.
   */
  lemma RecordedSpecialKeyIsSkipped(s: State, now: real, n: string, cap: Capability, r: Run)
    requires s.recording && n in KeyNames && !IsIgnoredKey(s.ignored, Named(n))
    requires TextKey(Upper(n)) in cap.refusedKeys
    requires Inv(r) && r.status == Playing
    ensures |Upper(n)| >= 2
    ensures var ev := OnKey(s, now, Named(n), true).events[|s.events|];
      ev.JObj? && "key" in ev.fields && ReplayKeyPress(Modern, cap, ev.fields, r) == r
  {
    KeyNameShape(n);
    RecordedSpecialKeyReplaysAsText(s, now, n, true);
  }
}

=== FILE: spam_clicker.dfy ===
/**
 * Rapid-fire left clicking: a flag, and a worker that issues one click and a 10 ms pause for as
 * long as it finds the flag set.
 */
module SpamClicker {
  import opened Keys
  import opened Injection
  import opened Notices

  /** The pause between clicks, in seconds. */
  const ClickInterval: real := 0.01

  datatype Clicker = Clicker(active: bool)

  const Initial := Clicker(false)

  datatype Toggle = Toggle(state: Clicker, changed: bool, notices: seq<Notice>)

  /** `start_spam_click`: refused without change while active; otherwise the flag is set. */
  function Start(c: Clicker): (t: Toggle)
    ensures t.changed <==> !c.active
    ensures !t.changed ==> t.state == c && t.notices == []
    ensures t.changed ==> t.state.active && t.notices == [Notice("Spam clicking active!", "red")]
  {
    if c.active then Toggle(c, false, []) else Toggle(Clicker(true), true, [Notice("Spam clicking active!", "red")])
  }

  /** `stop_spam_click`: clears the flag when active; refused without change while idle. */
  function Stop(c: Clicker): (t: Toggle)
    ensures t.changed <==> c.active
    ensures !t.changed ==> t.state == c && t.notices == []
    ensures t.changed ==> !t.state.active && t.notices == [Notice("Spam clicking stopped!", "green")]
  {
    if !c.active then Toggle(c, false, []) else Toggle(Clicker(false), true, [Notice("Spam clicking stopped!", "green")])
  }

  /** `is_active`. */
  predicate IsActive(c: Clicker) {
    c.active
  }

  /** Starting and then stopping returns to idle; stopping twice changes nothing the second time. */
  lemma StartThenStop(c: Clicker)
    requires !IsActive(c)
    ensures var s := Start(c).state; IsActive(s) && !IsActive(Stop(s).state) && Stop(s).state == c
    ensures !Stop(Stop(c).state).changed
  {
  }

  /** One iteration of the worker's loop. */
  const Iteration: seq<Action> := [Click(Left, 1), Sleep(ClickInterval)]

  /**
   * What the worker does when the first `passes` reads of the flag see it set: the clicks and
   * pauses it issues, and whether `click` raised (which ends the loop with an error report).
   */
  datatype WorkerRun = WorkerRun(log: seq<Action>, raised: bool)

  /** `_spam_click_worker`: a click the controller refuses raises at the first pass, before anything is issued. */
  function Worker(cap: Capability, passes: nat): (w: WorkerRun)
    ensures w.raised <==> passes > 0 && Left in cap.refusedButtons
    ensures w.raised ==> w.log == []
    ensures !w.raised ==> |w.log| == 2 * passes
    ensures !w.raised ==> forall i :: 0 <= i < |w.log| ==> w.log[i] == Iteration[i % 2]
    decreases passes
  {
    if passes == 0 then WorkerRun([], false)
    else if Left in cap.refusedButtons then WorkerRun([], true)
    else
      var rest := Worker(cap, passes - 1).log;
      assert forall i :: 0 <= i < |rest| ==> (rest + Iteration)[i] == rest[i];
      assert (rest + Iteration)[|rest|] == Iteration[|rest| % 2];
      assert (rest + Iteration)[|rest| + 1] == Iteration[(|rest| + 1) % 2];
      WorkerRun(rest + Iteration, false)
  }

  /** The worker's clicks are whole clicks, never separate presses or releases, so it leaves nothing held. */
  lemma {:induction false} WorkerHoldsNothing(cap: Capability, passes: nat)
    ensures Held(Worker(cap, passes).log) == NothingPressed
    decreases passes
  {
    if passes > 0 && Left !in cap.refusedButtons {
      var rest := Worker(cap, passes - 1).log;
      WorkerHoldsNothing(cap, passes - 1);
      var clicked := rest + [Click(Left, 1)];
      assert Worker(cap, passes).log == clicked + [Sleep(ClickInterval)];
      HeldAppend(rest, Click(Left, 1));
      assert Held(clicked) == NothingPressed;
      HeldAppend(clicked, Sleep(ClickInterval));
    } else {
      assert Worker(cap, passes).log == [];
    }
  }

  /** Each pass of the loop pauses for the click interval, so `passes` passes sleep that many times. */
  lemma {:induction false} WorkerSleeps(cap: Capability, passes: nat)
    requires Left !in cap.refusedButtons
    ensures Sleeps(Worker(cap, passes).log) == seq(passes, _ => ClickInterval)
    decreases passes
  {
    if passes > 0 {
      var rest := Worker(cap, passes - 1).log;
      WorkerSleeps(cap, passes - 1);
      assert Worker(cap, passes).log == rest + Iteration;
      SleepsAppend(rest, Iteration);
      IterationSleepsOnce();
      assert seq(passes, _ => ClickInterval) == seq(passes - 1, _ => ClickInterval) + [ClickInterval];
    }
  }

  lemma IterationSleepsOnce()
    ensures Sleeps(Iteration) == [ClickInterval]
  {
    assert Iteration[..1] == [Click(Left, 1)];
    assert [Click(Left, 1)][..0] == [];
  }

  datatype Session = Session(state: Clicker, started: bool, run: WorkerRun, notices: seq<Notice>)

  /**
   * `start_spam_click` followed by the worker. An error from `click` is reported, but the worker
   * does not clear the flag: the clicker still passes as active until it is stopped.
   */
  function SpamSession(c: Clicker, cap: Capability, passes: nat): (s: Session)
    ensures s.started <==> !c.active
    ensures !s.started ==> s.state == c && s.run == WorkerRun([], false) && s.notices == []
    ensures s.started ==> IsActive(s.state)
    ensures s.started && s.run.raised ==> |s.notices| == 2 && s.notices[1].color == "red"
    ensures s.started && !s.run.raised ==> s.notices == [Notice("Spam clicking active!", "red")]
  {
    var t := Start(c);
    if !t.changed then Session(c, false, WorkerRun([], false), [])
    else
      var w := Worker(cap, passes);
      Session(t.state, true, w, t.notices + (if w.raised then [Notice("Error: click refused", "red")] else []))
  }
}

=== FILE: strings.dfy ===
/**
 * The handful of Python `str` operations the application relies on, over Dafny strings.
 * Case mapping is ASCII-only: Python's Unicode case tables are not modelled.
 */
module Strings {

  predicate IsLowerLetter(c: char) { 'a' <= c <= 'z' }
  predicate IsUpperLetter(c: char) { 'A' <= c <= 'Z' }
  predicate IsDigit(c: char) { '0' <= c <= '9' }

  /** `c.upper()` for one character. */
  function UpperChar(c: char): char {
    if IsLowerLetter(c) then (c as int - 'a' as int + 'A' as int) as char else c
  }

  /** `c.lower()` for one character. */
  function LowerChar(c: char): char {
    if IsUpperLetter(c) then (c as int - 'A' as int + 'a' as int) as char else c
  }

  /** `s.upper()` */
  function Upper(s: string): string {
    seq(|s|, i requires 0 <= i < |s| => UpperChar(s[i]))
  }

  /** `s.lower()` */
  function Lower(s: string): string {
    seq(|s|, i requires 0 <= i < |s| => LowerChar(s[i]))
  }

  /** `s.startswith(prefix)` */
  predicate StartsWith(s: string, prefix: string) {
    |prefix| <= |s| && s[..|prefix|] == prefix
  }

  /** `s.endswith(suffix)` */
  predicate EndsWith(s: string, suffix: string) {
    |suffix| <= |s| && s[|s| - |suffix|..] == suffix
  }

  /** `needle in hay`: a substring test, so the empty string is in every string. */
  predicate Contains(hay: string, needle: string) {
    exists i :: 0 <= i <= |hay| && OccursAt(hay, needle, i)
  }

  /** `needle` occurs in `hay` starting at index `i`. */
  predicate OccursAt(hay: string, needle: string, i: int) {
    0 <= i <= |hay| - |needle| && hay[i..i + |needle|] == needle
  }

  /** `s[k:]`, which is empty when `s` is shorter than `k`. */
  function Drop(s: string, k: nat): string {
    if |s| <= k then "" else s[k..]
  }

  predicate IsQuote(c: char) { c == '\'' || c == '"' }

  function StripLeadingQuotes(s: string): string
    decreases |s|
  {
    if |s| > 0 && IsQuote(s[0]) then StripLeadingQuotes(s[1..]) else s
  }

  function StripTrailingQuotes(s: string): string
    decreases |s|
  {
    if |s| > 0 && IsQuote(s[|s| - 1]) then StripTrailingQuotes(s[..|s| - 1]) else s
  }

  /** `s.strip("'\"")`: removes every leading and trailing quote character. */
  function StripQuotes(s: string): string {
    StripTrailingQuotes(StripLeadingQuotes(s))
  }

  /** `s.replace(pattern, with)`: non-overlapping occurrences, scanned left to right. */
  function ReplaceAll(s: string, pattern: string, with: string): string
    requires |pattern| > 0
    decreases |s|
  {
    if |s| < |pattern| then s
    else if s[..|pattern|] == pattern then with + ReplaceAll(s[|pattern|..], pattern, with)
    else [s[0]] + ReplaceAll(s[1..], pattern, with)
  }

  /** `s.split('.')[1]` for a string known to contain a dot: the text between the first and second dots. */
  function TakeUntilDot(s: string): string
    decreases |s|
  {
    if |s| == 0 || s[0] == '.' then "" else [s[0]] + TakeUntilDot(s[1..])
  }

  function DigitChar(d: nat): char
    requires d < 10
  {
    ('0' as int + d) as char
  }

  /** `str(n)` for a natural number. */
  function NatToString(n: nat): string
    decreases n
  {
    if n < 10 then [DigitChar(n)] else NatToString(n / 10) + [DigitChar(n % 10)]
  }

  /** `str(i)` for an integer. */
  function IntToString(i: int): string {
    if i < 0 then "-" + NatToString(-i) else NatToString(i)
  }

  /** Characters of Python identifiers written in lower case, as the names of pynput's keys are. */
  predicate IsLowerIdentChar(c: char) { IsLowerLetter(c) || IsDigit(c) || c == '_' }

  predicate IsLowerIdent(s: string) {
    forall i :: 0 <= i < |s| ==> IsLowerIdentChar(s[i])
  }

  lemma LowerOfUpperChar(c: char)
    ensures LowerChar(UpperChar(c)) == LowerChar(c)
    ensures UpperChar(LowerChar(c)) == UpperChar(c)
  {
  }

  /** Folding case after upper-casing is the same as folding case directly, and vice versa. */
  lemma LowerOfUpper(s: string)
    ensures Lower(Upper(s)) == Lower(s)
    ensures Upper(Lower(s)) == Upper(s)
  {
    forall i | 0 <= i < |s|
      ensures Lower(Upper(s))[i] == Lower(s)[i] && Upper(Lower(s))[i] == Upper(s)[i]
    {
      LowerOfUpperChar(s[i]);
    }
  }

  /** On lower-case identifiers `upper()` loses nothing: two names with the same upper case are equal. */
  lemma UpperInjectiveOnIdents(a: string, b: string)
    requires IsLowerIdent(a) && IsLowerIdent(b)
    requires Upper(a) == Upper(b)
    ensures a == b
  {
    assert |a| == |Upper(a)| == |Upper(b)| == |b|;
    forall i | 0 <= i < |a| ensures a[i] == b[i] {
      assert Upper(a)[i] == Upper(b)[i];
    }
  }

  /** A string whose upper case has no letters is its own upper case. */
  lemma UpperFixedWithoutLetters(s: string)
    requires forall i :: 0 <= i < |s| ==> !IsUpperLetter(Upper(s)[i])
    ensures Upper(s) == s
  {
    forall i | 0 <= i < |s| ensures Upper(s)[i] == s[i] {
      assert !IsUpperLetter(Upper(s)[i]);
    }
  }

  /** Every substring of `hay` consists of characters of `hay`. */
  lemma ContainsChars(hay: string, needle: string, i: nat)
    requires Contains(hay, needle)
    requires i < |needle|
    ensures needle[i] in hay
  {
    var j :| 0 <= j <= |hay| && OccursAt(hay, needle, j);
    assert needle[i] == hay[j..j + |needle|][i] == hay[j + i];
  }

  /** A text with a character that does not occur in `hay` is not a substring of it. */
  lemma NotContainedByChar(hay: string, needle: string, k: nat)
    requires k < |needle| && needle[k] !in hay
    ensures !Contains(hay, needle)
  {
    if Contains(hay, needle) {
      ContainsChars(hay, needle, k);
    }
  }

  /** A text whose first character does not occur in `hay` is not a substring of it. */
  lemma NotContainedByFirstChar(hay: string, needle: string)
    requires |needle| > 0 && needle[0] !in hay
    ensures !Contains(hay, needle)
  {
    if Contains(hay, needle) {
      ContainsChars(hay, needle, 0);
    }
  }

  /** The empty string is a substring of every string. */
  lemma EmptyContained(hay: string)
    ensures Contains(hay, "")
  {
    assert OccursAt(hay, "", 0);
  }

  lemma IdentHasNoQuotes(s: string)
    requires IsLowerIdent(s)
    ensures StripQuotes(Upper(s)) == Upper(s)
  {
    if |s| > 0 {
      assert !IsQuote(Upper(s)[0]);
      assert !IsQuote(Upper(s)[|s| - 1]);
    }
  }

  /** A lower-case identifier has no dot, so `split('.')` leaves it whole. */
  lemma {:induction false} TakeUntilDotOfIdent(s: string)
    requires IsLowerIdent(s)
    ensures TakeUntilDot(s) == s
    decreases |s|
  {
    if |s| > 0 {
      TakeUntilDotOfIdent(s[1..]);
    }
  }

  /** `replace` leaves a text alone when the pattern's first character does not occur in it. */
  lemma {:induction false} ReplaceAllAbsent(s: string, pattern: string, with: string)
    requires |pattern| > 0 && pattern[0] !in s
    ensures ReplaceAll(s, pattern, with) == s
    decreases |s|
  {
    if |s| >= |pattern| {
      assert s[..|pattern|][0] == s[0];
      ReplaceAllAbsent(s[1..], pattern, with);
    }
  }
}

=== FILE: wrappers.dfy ===
/** The optional-value datatype used throughout the model in place of Python's `None`. */
module Wrappers {

  datatype Option<+T> = None | Some(value: T) {

    /** The wrapped value, or `default` when there is none. */
    function GetOr(default: T): T {
      match this
      case Some(v) => v
      case None => default
    }
  }
}
